=== FILE: README.md ===
# A verified model of the blog's content core

This project is a Dafny model of the logic underneath a Next.js and
MongoDB technical blog. The model covers the following parts of the blog:

- **Slugs and read time** (`lib/utils.ts`).
  - A title is turned into a URL slug: lower-cased, filtered to
    `a-z 0-9 space -`, whitespace runs turned into `-`, and hyphen runs
    collapsed.
  - Content gets a read time in minutes: the whitespace-separated word
    count divided by 200, rounded up.
- **The media placeholder micro-format** (`lib/mediaProcessor.ts`,
  `lib/upload.ts`).
  - A placeholder has the form `{{MEDIA:<type>_<id>}}`.
  - The parser is an unanchored regular expression whose type group
    `\w+` is greedy. It is modelled as an explicit leftmost matcher that
    backtracks.
  - `renderMediaPlaceholders` replaces each listed item's placeholder,
    first occurrence only, by an HTML fragment.
  - For videos, YouTube and Vimeo URLs are rewritten to their embed URLs.
    Each alternative of the YouTube pattern, with its greedy `.+` and
    `.*`, is modelled separately.
- **The post schema** (`models/Blog.ts`).
  - The categories and media types are enumerations.
  - Defaults apply to the cover image, publication flag, read time and
    views.
  - The `trim` and `lowercase` setters, the `required`, `enum` and
    `maxlength` validators, and the unique slug index are modelled.
- **The blog API** (`app/api/blogs/route.ts`).
  - `POST` checks the request, searches for the first free slug among
    `base`, `base-1`, `base-2`, …, derives the excerpt, media, tags and
    publication date, and stores the document when the schema accepts it.
  - `GET` filters, sorts (newest, oldest, popular) and pages the stored
    posts.
  - The database is the sequence of stored posts, and the clock reading
    is a parameter.
- **The analytics page** (`getAnalyticsData` in `app/analytics/page.tsx`).
  - Totals, rounded averages and the most viewed post.
  - Per-category statistics, sorted by views.
  - Recent-view windows, engagement figures and the top category.
- **The post editor** (`components/Admin/BlogEditor.tsx`).
  - The slug preview that follows the title.
  - Media insertion.
  - The request body `handleSave` builds, which the model hands to the
    `POST` handler.
- **The view tracker** (`components/ViewTracker.tsx`): a post's view is
  reported at most once per browser session.

Modules:

- `Wrappers`: `Option`.
- `Text`: JavaScript string primitives such as `trim`, `indexOf`,
  `replace` with a string pattern, and `split`/`join` on one character.
- `Numbers`: `Math.ceil` and `Math.round` of ratios, and decimal
  printing.
- `Sorting`: a stable insertion sort over a total preorder.
- One module for each part above: `Utils`, `Placeholder`, `Render`,
  `Upload`, `Blog`, `BlogsCreate`, `BlogsList`, `Analytics`, `Editor`
  and `ViewTracker`.

Behaviour of the source that the model states:

- **Slugs.**
  - The final `trim()` of `generateSlug` never has anything to remove, so
    a title with a leading or trailing space gives a slug with a leading
    or trailing `-`.
  - Tabs and newlines are deleted, not turned into `-`.
- **Placeholders.**
  - A generated placeholder parses back to its type and id only when the
    id holds no `_` and no `}`.
  - The ids the editor generates contain `_`. The parser therefore
    reads their type as `<type>_<type>_<clock>` and their id as the
    random suffix alone.
- **The create handler.** In the model, the handler answers 500 only
  when the schema refuses the document. That happens for an unknown
  category, a supplied excerpt over 200 characters, or a media element
  with an unknown type or no URL. The source answers 500 in more cases,
  listed under "Left out".
- **Rendering.** Content as the editor writes it, text around
  placeholder tokens `{{…}}`, renders token by token: each token becomes
  the fragment of the first listed item that claims it, an unclaimed
  token stays, and the text around the tokens is kept. This needs the
  text and the fragments to hold no `{`. Without that a token can be
  lost: `{{MEDIA:image_a{{MEDIA:v_1}}`, rendered with an item of type
  `code` for `{{MEDIA:v_1}}`, becomes `{{MEDIA:image_a`.

## Model

| member | source | states |
|---|---|---|
| Text.Trim | app/api/blogs/route.ts:130 | the trimmed string neither starts nor ends with whitespace or a line terminator, is no longer than the input, and is empty exactly when the input is all whitespace |
| Text.TrimIsInfix | components/Admin/BlogEditor.tsx:106 | the trimmed string is the infix left after a whitespace prefix and a whitespace suffix are removed |
| Text.TrimOfTrimmed | models/Blog.ts:89-92 | trimming a string without whitespace at either end changes nothing, so the schema's trim setter leaves already trimmed tags alone |
| Text.IndexOf | lib/mediaProcessor.ts:145 | the index found is an occurrence of the pattern and no earlier index is one; none is found exactly when the pattern occurs nowhere |
| Text.ReplaceFirst | lib/mediaProcessor.ts:145 | replacing with a string pattern changes only the first occurrence; text without the pattern is returned unchanged |
| Text.ReplaceFirstAt | lib/mediaProcessor.ts:145 | when the pattern's first occurrence follows `x`, the result is `x`, the replacement, and the rest untouched, later occurrences included |
| Text.ReplaceFirstSkip | lib/mediaProcessor.ts:145 | when the pattern starts nowhere inside a prefix, replacing in the prefix followed by the rest replaces in the rest and keeps the prefix |
| Text.SplitOn | lib/upload.ts:5 | splitting gives at least one piece, no piece holds the separator, and there is one piece exactly when the separator is absent |
| Text.JoinSplit | components/Admin/BlogEditor.tsx:111 | joining the pieces of a split with the same separator gives back the string |
| Text.SplitJoin | components/Admin/BlogEditor.tsx:48 | splitting a join of separator-free pieces gives back the pieces |
| Text.SplitOnFirst | components/Admin/BlogEditor.tsx:111 | a separator-free prefix followed by the separator is the first piece, ahead of the pieces of the rest |
| Text.FirstMatchFrom | lib/mediaProcessor.ts:158 | an unanchored match reports the leftmost position at which the pattern matches, or nothing when it matches at no position |
| Text.FirstMatchFromAt | lib/mediaProcessor.ts:158 | when the pattern first matches at `j`, the unanchored match is the one at `j` |
| Text.LastMatchDown | lib/mediaProcessor.ts:117 | a greedy prefix that backtracks settles on the longest choice after which the rest matches |
| Numbers.CeilDiv | lib/utils.ts:19 | the rounded-up quotient is the least `r` with `a <= r * b` |
| Numbers.CeilDivMonotone | lib/utils.ts:19 | a larger dividend never has a smaller rounded-up quotient |
| Numbers.RoundDiv | app/analytics/page.tsx:70 | the rounded quotient is the integer nearest `a / b`, halves rounded up |
| Numbers.DecRoundTrip | components/Admin/BlogEditor.tsx:66 | reading back the decimal digits printed for a number gives the number |
| Numbers.DecInjective | app/api/blogs/route.ts:102 | different counters print as different digit strings |
| Utils.FilterSlugChars | lib/utils.ts:10 | the result holds only `a-z`, `0-9`, space and `-`, is no longer than the input, and a string made only of them is left unchanged |
| Utils.FilterSlugCharsAppend | lib/utils.ts:10 | filtering works character by character: filtering a concatenation concatenates the filtered parts |
| Utils.ReplaceRuns | lib/utils.ts:11-12 | every maximal run becomes one `-`; a run at either end leaves a `-` at that end, and other leading characters stay first |
| Utils.ReplaceRunsFromInput | lib/utils.ts:11-12 | every character of the result is `-` or a character of the input |
| Utils.ReplaceRunsNoDoubleHyphen | lib/utils.ts:12 | after hyphen runs are collapsed no two hyphens are adjacent |
| Utils.ReplaceRunsIdentity | lib/utils.ts:11-12 | text whose runs are already single hyphens is left unchanged |
| Utils.GenerateSlug | lib/utils.ts:7-14 | a slug holds only `a-z`, `0-9` and `-`, never two hyphens in a row, and is no longer than the title |
| Utils.TrimSlugNoOp | lib/utils.ts:13 | the final trim has nothing to remove: no whitespace survives the earlier steps |
| Utils.GenerateSlugIdempotent | lib/utils.ts:7-14 | the slug of a slug is the slug itself |
| Utils.SlugStepsFixSlugs | lib/utils.ts:8-12 | every string of slug characters without a double hyphen passes the four steps unchanged |
| Utils.LowerAsciiOfSlug | models/Blog.ts:67 | lower-casing a slug leaves it unchanged, so the schema's lowercase setter keeps the handler's slug |
| Utils.LeadingSpaceGivesLeadingHyphen | lib/utils.ts:11-13 | a title starting with a space gives a slug starting with `-` |
| Utils.TrailingSpaceGivesTrailingHyphen | lib/utils.ts:11-13 | a title ending with a space gives a slug ending with `-` |
| Utils.DroppedCharVanishes | lib/utils.ts:9-10 | a character that is outside the class after lower-casing has no influence on the slug |
| Utils.TabDeleted | lib/utils.ts:10-11 | a tab is deleted by the filter, not turned into a hyphen |
| Utils.NewlineDeleted | lib/utils.ts:10-11 | a newline is deleted by the filter, not turned into a hyphen |
| Utils.GenerateSlugExampleLeading | lib/utils.ts:7-14 | the title " a b" gives the slug "-a-b" |
| Utils.BlankTitleSlugShort | app/api/blogs/route.ts:87-95 | a title of whitespace gives a slug of at most one character, which the handler refuses |
| Utils.SplitWs | lib/utils.ts:18 | splitting on whitespace runs gives at least one piece, and no piece holds whitespace |
| Utils.SplitWsCount | lib/utils.ts:18 | the piece count is the word count, plus one for the empty piece before leading whitespace or of empty text |
| Utils.CountWords | lib/utils.ts:18 | the word count is zero exactly for all-whitespace text, and words are separated, so there are at most half the characters, rounded up |
| Utils.CountWordsTrimStart | lib/utils.ts:18 | removing leading whitespace does not change the word count |
| Utils.CountWordsTrimEnd | lib/utils.ts:18 | removing trailing whitespace does not change the word count |
| Utils.ReadTime | lib/utils.ts:16-20 | the read time is at least one minute, for empty and blank content too |
| Utils.ReadTimeIsCeilOfWords | lib/utils.ts:16-20 | the read time is the word count, at least one, divided by 200 and rounded up |
| Utils.ReadTimeMonotone | lib/utils.ts:16-20 | more words never mean a shorter read time |
| Utils.ReadTimeShortContent | lib/utils.ts:16-20 | content of at most 200 words reads in one minute |
| Placeholder.Generate | lib/mediaProcessor.ts:152-154 | a placeholder is `{{MEDIA:`, the type, `_`, the id and `}}`, each part at its own offset |
| Placeholder.GenerateDefault | lib/upload.ts:9-11 | without a type the placeholder names the type `image` and then holds the id |
| Placeholder.WordRunEnd | lib/mediaProcessor.ts:158 | the greedy type group first reaches the end of the run of word characters |
| Placeholder.MatchIdAndClose | lib/mediaProcessor.ts:158 | the id group matches a non-empty `}`-free run that `}}` follows, and only its greedy length can match |
| Placeholder.Parse | lib/mediaProcessor.ts:157-162 | the parse reports the groups of the leftmost position at which the pattern matches, and null when it matches nowhere |
| Placeholder.ParseGenerated | lib/mediaProcessor.ts:152-162 | a placeholder of a word-character type and an id without `_` and `}` parses back to that type and id, whatever follows it and after any text free of `{` |
| Placeholder.ParseGeneratedAlone | lib/upload.ts:9-20 | a placeholder on its own parses back to its type and id under the same conditions |
| Placeholder.MatchLaidOut | lib/mediaProcessor.ts:158 | at any index where a valid placeholder is spelled out, the pattern matches with exactly its type and id |
| Placeholder.TypeGroupBacktracks | lib/mediaProcessor.ts:158 | the greedy type group runs over the separator and gives back characters until it ends at the separator |
| Placeholder.UnderscoreInIdShiftsSplit | lib/mediaProcessor.ts:158 | an id `a_b` is not returned whole: the type group swallows `a`, so the parse gives type `t_a` and id `b` |
| Placeholder.UnderscoreExample | lib/mediaProcessor.ts:158 | `{{MEDIA:image_img_1_0}}` parses to type `image_img_1` and id `0` |
| Placeholder.TrySplitSound | lib/mediaProcessor.ts:158-160 | a split the backtracking accepts has the type, `_`, the id and `}}` spelled out, with a word-character type and a non-empty `}`-free id |
| Placeholder.MatchAtSound | lib/mediaProcessor.ts:158-160 | a match at an index is a placeholder laid out from that index |
| Placeholder.ParseSound | lib/mediaProcessor.ts:157-162 | whatever the parse reports is a valid type and id whose placeholder is spelled out in the text |
| Placeholder.ParseNeedsOpen | lib/mediaProcessor.ts:157-162 | text without `{{MEDIA:` parses to null |
| Render.YouTubeAt | lib/mediaProcessor.ts:117 | the YouTube pattern, when it matches at an index, captures an eleven-character id |
| Render.VimeoAt | lib/mediaProcessor.ts:122 | the Vimeo pattern captures a non-empty run of digits |
| Render.EmbedUrl | lib/mediaProcessor.ts:113-126 | a video URL becomes a YouTube embed URL, a Vimeo player URL or stays as it is, and stays as it is when it names neither site |
| Render.VimeoRewrite | lib/mediaProcessor.ts:121-125 | a URL `<lead-in>vimeo.com/<digits><rest>` becomes the player URL of those digits, for a lead-in such as `https://` without `v` or `y`, and a rest without `y` that does not continue the digits |
| Render.YouTubeWatchRewrite | lib/mediaProcessor.ts:116-119 | a URL `<lead-in>youtube.com/watch?v=<id>` becomes the embed URL of the eleven-character id, for a lead-in such as `https://www.` without `y` |
| Render.YouTuBeRewrite | lib/mediaProcessor.ts:116-119 | a `https://youtu.be/<id>` short link becomes the embed URL of the id |
| Render.NoYMeansNoYouTube | lib/mediaProcessor.ts:117 | the YouTube pattern cannot match text without a `y` |
| Render.ImageHtmlShowsUrl | lib/mediaProcessor.ts:97-111 | the image fragment shows the item's URL as its `src` |
| Render.VideoHtmlShowsUrl | lib/mediaProcessor.ts:128-141 | the video fragment's iframe shows the embed URL as its `src` |
| Render.ImageHtmlShowsCaption | lib/mediaProcessor.ts:97-111 | an image with a non-empty caption shows the caption in its fragment |
| Render.VideoHtmlShowsCaption | lib/mediaProcessor.ts:128-141 | a video with a non-empty caption shows the caption in its fragment |
| Render.ItemHtmlShows | lib/mediaProcessor.ts:94-143 | the fragment is empty exactly for types other than image and video; an image shows its URL and a video its embed URL as `src`, and both show a non-empty caption |
| Render.RenderMediaPlaceholders | lib/mediaProcessor.ts:90-149 | rendering with no items, or with items none of whose placeholders occur, returns the content unchanged |
| Render.RenderSingle | lib/mediaProcessor.ts:90-149 | a one-item list replaces the first occurrence of that item's placeholder by its fragment |
| Render.GeneratedIsBraced | lib/mediaProcessor.ts:152-154 | a placeholder built from a type and an id without braces is a braced token `{{…}}` with no brace inside |
| Render.FillFirstClaim | lib/mediaProcessor.ts:90-149 | a token claimed by item `k` and by no earlier item takes item `k`'s fragment |
| Render.FillUnclaimed | lib/mediaProcessor.ts:90-149 | a token no item claims keeps its text |
| Render.ReplaceInWeave | lib/mediaProcessor.ts:145 | in text without `{` around distinct braced tokens, replacing a placeholder replaces the token equal to it and nothing else |
| Render.ApplyWoven | lib/mediaProcessor.ts:90-149 | applying a list of items to text around tokens fills each token with the fragment of its first claiming item and keeps the text around the tokens |
| Render.RenderWoven | lib/mediaProcessor.ts:90-149 | rendering content of text around placeholder tokens fills each token as above and keeps the text around the tokens |
| Render.RenderClaimedToken | lib/mediaProcessor.ts:90-149 | the token claimed by item `k`, and by no earlier item, is rendered as item `k`'s fragment in its place |
| Render.RenderOneItem | lib/mediaProcessor.ts:145 | one item replaces the first occurrence of its placeholder by its fragment and keeps everything around it |
| Render.OtherTypeDeletesToken | lib/mediaProcessor.ts:94-145 | an item whose type is neither image nor video deletes its placeholder |
| Render.OrphanTokenStays | lib/mediaProcessor.ts:90-149 | a placeholder token no listed item claims stays in the output, also when other tokens around it are rendered |
| Render.OrphanSwallowedExample | lib/mediaProcessor.ts:94-145 | `{{MEDIA:image_a{{MEDIA:v_1}}` rendered with a `code` item for `{{MEDIA:v_1}}` becomes `{{MEDIA:image_a`: the outer token is not kept |
| Render.RenderImageExample | lib/mediaProcessor.ts:97-111 | an image item's placeholder in a paragraph renders as a figure whose `img` shows the item's URL |
| Upload.GetFileExtension | lib/upload.ts:4-6 | the extension is the dot-free suffix after the last `.`; it is the whole name exactly when the name has no `.`, and empty for a name ending in `.` |
| Upload.LastPieceIsSuffix | lib/upload.ts:5 | the last piece of a split is a suffix of the string, preceded by the separator when the separator occurs |
| Upload.ExtensionOfDotted | lib/upload.ts:4-6 | the extension of `base.ext` is `ext` for a dot-free `ext`, whatever dots `base` holds |
| Upload.ValidateFileType | lib/upload.ts:44-46 | a file type passes exactly when one of the allowed types is a prefix of it |
| Upload.NoAllowedTypesRefuses | lib/upload.ts:44-46 | an empty list of allowed types refuses every file |
| Upload.PrefixAdmitsSubtypes | lib/upload.ts:44-46 | an allowed prefix admits every type that extends it |
| Upload.ValidateFileSize | lib/upload.ts:48-52 | a file passes exactly when its size is at most the limit in mebibytes, a real number, times 1048576, rounded down |
| Upload.FileSizeBoundary | lib/upload.ts:48-52 | for every limit, the largest size that passes is the limit in bytes rounded down, and one byte more fails |
| Upload.FileSizeHalfMegabyte | lib/upload.ts:48-52 | a limit of half a mebibyte admits 524288 bytes and refuses 524289 |
| Upload.FileSizeMonotone | lib/upload.ts:48-52 | a smaller file under a larger limit passes whenever the original passes |
| Blog.ParseCategory | models/Blog.ts:84-88 | a category is accepted exactly when it is one of the five keys, and then names the category with that key |
| Blog.CategoryKeyRoundTrip | models/Blog.ts:42 | every category has one of the five keys, and its key parses back to it |
| Blog.ParseMediaType | models/Blog.ts:5-9 | a media type is accepted exactly when it is one of the six keys, and then names that type |
| Blog.MediaTypeKeyRoundTrip | models/Blog.ts:31 | every media type has one of the six keys, and its key parses back to it |
| Blog.MediaFromFields | models/Blog.ts:4-23 | a media element is stored exactly when its type is in the enumeration and its URL is non-empty, and is stored with that type and its URL, texts and position |
| Blog.MediaFromFieldsAll | models/Blog.ts:75 | the media array is stored exactly when every element is, element by element and in order |
| Blog.NewDocument | models/Blog.ts:57-119 | a document is accepted exactly when the trimmed title, slug and content are non-empty, the excerpt fits 200 characters, the category is a key and every media element is valid; an accepted post satisfies the schema |
| Blog.NewDocumentDefaults | models/Blog.ts:93-111 | absent fields take the defaults: no cover image, not published, five minutes of reading, and a new post has no views |
| Blog.NewDocumentSetters | models/Blog.ts:58-68 | the title and each tag are stored trimmed and the slug lower-cased |
| Blog.NewDocumentMedia | models/Blog.ts:75 | each media element is stored in order with the type it names, its URL, texts and position |
| Blog.NewDocumentCopies | models/Blog.ts:70-88 | content, raw content, excerpt, publication date and SEO fields are stored as given, and the category has the given key |
| Blog.Slugs | models/Blog.ts:66 | the set of slugs is exactly the slugs of the stored posts |
| Blog.InsertKeepsSlugsUnique | models/Blog.ts:66 | inserting a post whose slug is not taken keeps the slugs unique |
| BlogsCreate.CandidateInjective | app/api/blogs/route.ts:97-104 | different rounds of the slug loop try different slugs |
| BlogsCreate.CandidateIsSlug | app/api/blogs/route.ts:102 | a numbered variant of a slug is a slug |
| BlogsCreate.UntriedShrinks | app/api/blogs/route.ts:101-104 | each taken candidate shrinks the set of taken slugs not yet tried, which bounds the loop |
| BlogsCreate.FirstFree | app/api/blogs/route.ts:97-104 | the round the loop stops in is free, and every round before it is taken |
| BlogsCreate.FindUniqueSlug | app/api/blogs/route.ts:97-104 | the loop returns the first of `base`, `base-1`, `base-2`, … that is not taken, with all earlier ones taken |
| BlogsCreate.FindUniqueSlugIsFirstFree | app/api/blogs/route.ts:97-104 | the loop's slug is the first free candidate |
| BlogsCreate.UniqueSlug | app/api/blogs/route.ts:97-104 | the slug is not taken; it is the base exactly when the base is free, and otherwise the first free `base-k`, with `k` at most the number of stored slugs |
| BlogsCreate.RoundsBounded | app/api/blogs/route.ts:97-104 | the loop ends within one more round than there are stored slugs |
| BlogsCreate.StripTags | app/api/blogs/route.ts:110 | removing tags only deletes characters, and the result is no longer than the input |
| BlogsCreate.StripTagsLeavesNoTag | app/api/blogs/route.ts:110 | no `<` followed later by `>` survives tag removal |
| BlogsCreate.StripTagsKeepsTagless | app/api/blogs/route.ts:110 | text without tags is left as it is |
| BlogsCreate.StripTagsIdempotent | app/api/blogs/route.ts:110 | removing tags twice is removing them once |
| BlogsCreate.StripTagsPlainPrefix | app/api/blogs/route.ts:110 | text before the first `<` is kept as it is, ahead of the stripped rest |
| BlogsCreate.StripTagsDropsTag | app/api/blogs/route.ts:110 | a tag `<…>` is deleted through its first `>` and nothing else changes |
| BlogsCreate.StripTagsKeepsOrder | app/api/blogs/route.ts:110 | for plain text, a tag, plain text and a rest, the result is the two plain texts in order, then the stripped rest |
| BlogsCreate.AutoExcerpt | app/api/blogs/route.ts:110 | a made excerpt is at most 153 characters and always ends with `...` |
| BlogsCreate.AutoExcerptFits | models/Blog.ts:80-83 | a made excerpt always fits the schema's 200 characters |
| BlogsCreate.AutoExcerptOfShortText | app/api/blogs/route.ts:110 | tag-free content of at most 150 characters is kept whole, with `...` appended |
| BlogsCreate.ProcessItem | app/api/blogs/route.ts:113-120 | a media element keeps its URL and texts; its type is kept when given and is `image` otherwise; its position is kept when non-zero and is the index otherwise |
| BlogsCreate.ProcessMedia | app/api/blogs/route.ts:113-120 | an array keeps its length and order, and anything other than an array gives no media |
| BlogsCreate.RequestTags | app/api/blogs/route.ts:130 | an array is taken as it is; a non-empty string gives the trimmed comma-separated pieces, one per piece and in order; an empty string gives none |
| BlogsCreate.DocumentFields | app/api/blogs/route.ts:106-137 | the document keeps the title, slug, content and category; the excerpt is the given one or else the made one, so it and the SEO description are never empty; the SEO title falls back to the title; a publication date is set exactly when publishing; the read time is at least one |
| BlogsCreate.Submit | app/api/blogs/route.ts:122-147 | the document is stored, as the last post, exactly when the schema accepts it; otherwise the answer is 500 and the store is unchanged |
| BlogsCreate.Create | app/api/blogs/route.ts:71-165 | a created post is appended to the store, and every other answer leaves the store unchanged |
| BlogsCreate.CreateBadRequest | app/api/blogs/route.ts:79-95 | the answer is 400 exactly when a required field is missing or the slug has fewer than two characters, and it names the missing fields exactly when one is missing |
| BlogsCreate.CreateFailedIff | app/api/blogs/route.ts:122-163 | after the checks, the answer is 500 exactly when the category is unknown, a supplied excerpt is over 200 characters, or a media element has an unknown type or no URL |
| BlogsCreate.DocumentFieldsValid | app/api/blogs/route.ts:106-137 | the derived fields pass the schema exactly under those three conditions; the title and slug always pass |
| BlogsCreate.CreatedSlug | app/api/blogs/route.ts:87-104 | a created post's slug is the first free candidate built on the title's slug |
| BlogsCreate.CreateKeepsSlugsUnique | app/api/blogs/route.ts:97-139 | creating a post keeps the slugs of the store unique |
| BlogsCreate.CreateSlugFree | app/api/blogs/route.ts:97-104 | when the title's slug is free it is used as it is |
| BlogsCreate.CreateSlugSecond | app/api/blogs/route.ts:97-104 | when only the base slug is taken the post gets `base-1` |
| BlogsCreate.CandidateLength | app/api/blogs/route.ts:102 | a numbered variant is never shorter than the base |
| BlogsCreate.CreatedPostFields | app/api/blogs/route.ts:106-137 | a created post is published with the clock reading exactly when asked, has no views, the computed read time, the trimmed title, and the excerpt, SEO and raw-content fallbacks |
| BlogsCreate.CreatedPostIsDocument | app/api/blogs/route.ts:122-139 | a created post passed the checks and is the document built from the derived fields |
| BlogsCreate.CreatedPostTextTags | app/api/blogs/route.ts:130 | tags given as text are stored as the trimmed comma-separated pieces, empty ones included |
| BlogsCreate.TextTagsTrimmed | models/Blog.ts:89-92 | the schema's trim finds nothing left to do on tags given as text |
| BlogsList.ParseSort | app/api/blogs/route.ts:17-39 | `oldest` and `popular` select their orders, and anything else, absence included, selects newest |
| BlogsList.PublishedOnly | app/api/blogs/route.ts:18 | only the literal `false` lists unpublished posts too |
| BlogsList.Select | app/api/blogs/route.ts:20-24 | every selected post is stored and matches, and every matching stored post is selected; a tag filter compares the trimmed parameter, as the schema's `trim` setter on `tags` casts it |
| BlogsList.QueryTagTrimmed | app/api/blogs/route.ts:24 | the tag parameter ` react` selects exactly the posts tagged `react` |
| BlogsList.SelectCounts | app/api/blogs/route.ts:20-24 | each matching post is selected as many times as it is stored, and no other post is selected |
| BlogsList.SelectAppend | app/api/blogs/route.ts:20-24 | selection keeps store order: selecting from two parts one after the other selects from each in turn |
| BlogsList.PrecedesTotal | app/api/blogs/route.ts:27-39 | any two posts are comparable in each order |
| BlogsList.PrecedesTransitive | app/api/blogs/route.ts:27-39 | each order is transitive |
| BlogsList.PrecedesTies | app/api/blogs/route.ts:27-39 | two posts are tied in an order exactly when they have the same publication date and, for popular, the same views |
| BlogsList.NewestOrder | app/api/blogs/route.ts:35-37 | newest first: publication dates never increase, and undated posts come last |
| BlogsList.OldestOrder | app/api/blogs/route.ts:29-30 | oldest first: undated posts come first, then dates never decrease |
| BlogsList.PopularOrder | app/api/blogs/route.ts:32-33 | most viewed first, and equal view counts newest first |
| BlogsList.SortPosts | app/api/blogs/route.ts:45 | the sorted posts are a permutation of the selection, in the requested order |
| BlogsList.Window | app/api/blogs/route.ts:41-47 | a page is the run of consecutive posts after the skipped ones, no longer than the limit, and empty beyond the end |
| BlogsList.Skip | app/api/blogs/route.ts:41 | the skip is negative exactly when the page is below 1 with a positive limit or above 1 with a negative limit, and the first page skips nothing |
| BlogsList.TotalPages | app/api/blogs/route.ts:59 | for a positive limit the page count is the least number of pages that holds all posts; a zero limit has none |
| BlogsList.List | app/api/blogs/route.ts:8-68 | the answer fails exactly when the skip is negative, and otherwise echoes the page and counts the selection |
| BlogsList.WindowSorted | app/api/blogs/route.ts:45-47 | a page of a sorted list is sorted |
| BlogsList.WindowOfSelection | app/api/blogs/route.ts:43-48 | a page of any ordering of the selection holds only stored posts that match the query |
| BlogsList.ListedPostsMatch | app/api/blogs/route.ts:8-60 | every listed post is stored and matches the query, the page is in the requested order, and it is no longer than a positive limit |
| BlogsList.DraftsHidden | app/api/blogs/route.ts:18-22 | by default no unpublished post is listed |
| BlogsList.PagesArePrefix | app/api/blogs/route.ts:41-47 | pages `1 … k` one after another are the first `k * limit` sorted posts |
| BlogsList.PagesCoverAll | app/api/blogs/route.ts:41-59 | pages `1 … totalPages` list every selected post once and in order, and any later page is empty |
| Sorting.InsertSorted | app/analytics/page.tsx:94 | inserting into a sorted list keeps it sorted |
| Sorting.InsertionSort | app/analytics/page.tsx:94 | the sort is a permutation of its input and sorted |
| Sorting.InsertTies | app/analytics/page.tsx:94 | inserting an element puts it ahead of every element tied with it |
| Sorting.InsertionSortStable | app/analytics/page.tsx:94 | the sort is stable: for every element, the elements tied with it keep their input order |
| Sorting.SortedMembers | app/api/blogs/route.ts:45 | an element is in the sorted list exactly when it is in the input |
| Analytics.Published | app/analytics/page.tsx:63 | every kept post is stored and published, and every published stored post is kept |
| Analytics.PublishedCounts | app/analytics/page.tsx:63 | each published post is kept as many times as it is stored, and no draft is kept |
| Analytics.PublishedAppend | app/analytics/page.tsx:63 | the filter keeps store order: filtering two parts one after the other filters each in turn |
| Analytics.CountViewed | app/analytics/page.tsx:140 | no more posts have views than there are posts |
| Analytics.CountViewedAll | app/analytics/page.tsx:140 | every post counts as viewed exactly when all have views, and none does exactly when no post has views |
| Analytics.SumViewsBoundsEach | app/analytics/page.tsx:68 | the total views bound every post's views |
| Analytics.FirstMaxFrom | app/analytics/page.tsx:74 | the reduction ends at a post with the most views, and every post before it has fewer |
| Analytics.MostViewed | app/analytics/page.tsx:73-75 | there is no most viewed post exactly when there are no posts; otherwise it has the most views and is the earliest of those on a tie |
| Analytics.CategoriesPartition | app/analytics/page.tsx:78-87 | the five categories split the posts and their views between them |
| Analytics.Lookup | app/analytics/page.tsx:81-84 | a map entry found belongs to the category asked for, and none is found exactly when no entry has it |
| Analytics.AddPost | app/analytics/page.tsx:79-87 | one step of the loop adds one post and its views to its category's entry, creating it if needed, and leaves the other categories alone |
| Analytics.Tallies | app/analytics/page.tsx:78-87 | the map holds one entry per category present, with its post count, at least one, and its total views |
| Analytics.TallyEntries | app/analytics/page.tsx:89-93 | each entry is the count and the views of its own category |
| Analytics.TalliesTotals | app/analytics/page.tsx:78-87 | the entries' counts sum to the number of posts and their views to the total views |
| Analytics.StatRows | app/analytics/page.tsx:89-93 | every row holds a present category's count, views and rounded mean, and every present category has a row |
| Analytics.CategoryStats | app/analytics/page.tsx:89-94 | the category statistics are sorted by total views, most first |
| Analytics.CategoryStatsRows | app/analytics/page.tsx:78-94 | after sorting, every row is still a present category's figures, every present category still has a row, and no category has two rows, as the map keyed by category guarantees |
| Analytics.CategoryStatsPartition | app/analytics/page.tsx:89-94 | the rows' post counts sum to the published posts and their views to the total views |
| Analytics.SumByPermutation | app/analytics/page.tsx:94 | reordering the rows does not change their sums |
| Analytics.TopCategoryHasMostViews | app/analytics/page.tsx:142 | the top category has at least the views of every present category |
| Analytics.TopCategory | app/analytics/page.tsx:142 | the top category is empty exactly when there are no rows, and otherwise is the key that parses back to the first row's category |
| Analytics.ViewsWithinMonotone | app/analytics/page.tsx:127-137 | a wider window never counts fewer views, and no window counts more than the total |
| Analytics.ViewsWithin | app/analytics/page.tsx:127-137 | when every post was viewed within the window the figure is the total views, and when none was it is zero |
| Analytics.AverageWithinBounds | app/analytics/page.tsx:70 | the rounded mean lies between the smallest and the largest value |
| Analytics.EngagementRateBounds | app/analytics/page.tsx:141 | the engagement rate is at most 100, exactly 100 when every post has views, and 0 when none has |
| Analytics.AnalyticsData | app/analytics/page.tsx:63-142 | the counts are bounded by the post count, there is no most viewed post exactly when nothing is published, and with nothing published the averages are 0 |
| Analytics.RecentNested | app/analytics/page.tsx:127-137 | the 7-, 30- and 90-day figures are nested and bounded by the total views |
| Analytics.EngagementFigures | app/analytics/page.tsx:140-141 | the page's engagement rate is at most 100, 100 when every published post has views, and 0 when none has |
| Analytics.AverageViewsWithinRange | app/analytics/page.tsx:70 | the average views per post lie between the fewest and the most views of a published post |
| Editor.SlugEffect | components/Admin/BlogEditor.tsx:59-63 | in edit mode, or for an empty title, the slug stays; otherwise it becomes a slug no longer than the title |
| Editor.EditModeKeepsSlug | components/Admin/BlogEditor.tsx:59-63 | in edit mode no typing changes the slug |
| Editor.SlugFollowsLastTitle | components/Admin/BlogEditor.tsx:59-63 | for a new post the slug is that of the last non-empty title typed |
| Editor.SlugBeforeAnyTitle | components/Admin/BlogEditor.tsx:59-63 | until a non-empty title is typed the slug keeps its initial value |
| Editor.PreviewIsSlug | components/Admin/BlogEditor.tsx:45-63 | every value the slug preview takes is made of slug characters |
| Editor.InsertMedia | components/Admin/BlogEditor.tsx:65-79 | inserting appends exactly one item, at the position of the former length, and returns a placeholder that names the type twice |
| Editor.InsertKeepsPositions | components/Admin/BlogEditor.tsx:74-77 | positions equal to indexes stay so after an insertion |
| Editor.InsertedPlaceholderParse | components/Admin/BlogEditor.tsx:66-67 | the inserted placeholder parses to the type `<type>_<type>_<clock>` and the random suffix as the id |
| Editor.KeepNonEmpty | components/Admin/BlogEditor.tsx:111 | no empty string is kept, each non-empty one is kept as many times as it occurs, and nothing changes when none is empty |
| Editor.KeepNonEmptyAppend | components/Admin/BlogEditor.tsx:111 | dropping keeps order: filtering two parts one after the other filters each in turn |
| Editor.EditorTags | components/Admin/BlogEditor.tsx:111 | the tags are non-empty, trimmed and comma-free, at most one per comma-separated piece, and each non-empty trimmed piece gives a tag as many times as it occurs |
| Editor.EditorTagsCons | components/Admin/BlogEditor.tsx:111 | the first comma-separated piece, when not blank, gives the first tag, ahead of the tags of the rest |
| Editor.SplitJoinedTags | components/Admin/BlogEditor.tsx:48 | tags joined with `, ` split on commas into the tags with the space kept in front |
| Editor.EditorTagsRoundTrip | components/Admin/BlogEditor.tsx:48-111 | the tags of a loaded post, joined for the form and split on save, are the same tags |
| Editor.EditorTagsOfEmpty | components/Admin/BlogEditor.tsx:111 | an empty tag field saves no tags |
| Editor.SaveMedia | components/Admin/BlogEditor.tsx:94-103 | one entry per item, at its index, with the type defaulting to `image`, and URL and texts copied |
| Editor.Save | components/Admin/BlogEditor.tsx:81-117 | saving is refused exactly when the trimmed title or content is empty; otherwise the body has the trimmed fields, the SEO fallbacks, the publish flag and the editor's tags and media |
| Editor.SavedBodyHasRequiredFields | components/Admin/BlogEditor.tsx:82-110 | a body the editor sends with a category is never refused for a missing field |
| Editor.SavedPostKeepsTagsAndPositions | components/Admin/BlogEditor.tsx:94-111 | when the server stores the post, its tags are the editor's tags and each media entry sits at its index |
| ViewTracker.Effect | components/ViewTracker.tsx:15-28 | a view is reported exactly when the post is not in the session list and none was reported yet; the post is then appended and the flag set, and otherwise nothing changes |
| ViewTracker.RerunDoesNotTrack | components/ViewTracker.tsx:15-36 | the effect's rerun after the flag changes reports nothing and changes nothing |
| ViewTracker.OneReportPerMount | components/ViewTracker.tsx:13-23 | a component that reported a view reports no other, even for another post |
| ViewTracker.SessionRecordsReports | components/ViewTracker.tsx:26-27 | the session list at the end is the old list followed by the reported posts |
| ViewTracker.Reported | components/ViewTracker.tsx:17-28 | at most one report per visit, and every reported post was visited and was not in the list before |
| ViewTracker.ReportedAreNewVisits | components/ViewTracker.tsx:17-20 | a post is reported exactly when it was visited and was not already in the list |
| ViewTracker.ReportedOnce | components/ViewTracker.tsx:17-28 | over a session each post is reported at most once |
| ViewTracker.ViewLabel | components/ViewTracker.tsx:76 | the label is `view` for exactly one view and `views` otherwise |

## Left out

- Case mapping: lower-casing is modelled for `A`–`Z` only; every other code point is left as it is. JavaScript also lower-cases non-ASCII characters, and some of them become ASCII letters that the slug keeps: U+212A KELVIN SIGN becomes `k`, and U+0130 becomes `i` followed by U+0307. The model drops such characters instead.
- Strings are sequences of UTF-16 code units. Surrogate pairs are not treated as one character by `\w`, `\s` or `[^}]`, and neither does the model treat them so.
- `String.prototype.replace` expands `$` patterns in the replacement. The fragments are taken literally.
- `parseInt` of the page and limit parameters, with its `NaN` results, is not modelled. The query is given with integer page and limit.
- `Math.round` is applied to floating-point quotients in the source. It is modelled as exact rounding of the integer ratio. The engagement rate's `(p / n) * 100` is taken as `100 * p / n`.
- The monthly statistics of the analytics page, `formatDate` and `toLocaleString` depend on the date library and the locale.
- The database, the network, timers, the DOM, session storage and `console` output are not modelled.
  - The store is a sequence of posts.
  - The clock reading and the random media-id suffix are parameters.
  - The view ping and the periodic refresh of the view count are not modelled.
- `replaceMediaWithPlaceholders` and `extractMediaFromContent`: nothing in the modelled handlers calls them, and the second needs the DOM.
- Media `metadata`, `width` and `height` are not modelled. They are opaque to every modelled operation.
- BlogsList.SortPosts: ties are kept in store order, because the sort is stable. MongoDB does not promise any tie order.
- Other 500 answers of the create handler: the catch of `app/api/blogs/route.ts:148-163` also answers 500 for a body that is not JSON, for a `title` or `content` that is not a string (`generateSlug` or `calculateReadTime` throws), and for failures of `dbConnect`, `findOne` or `save`. The request is a typed record and the database never fails in the model.
- The duplicate-key race: two creates with the same title can both pass the `findOne` loop (route.ts:101) before either calls `save()` (route.ts:139), and the second then fails on the unique index with a 500. Requests are handled one at a time in the model.
- Render.RenderWoven: proved for items whose fragment holds no `{`. The templates hold none, so this is a condition on the item's URL, alt text and caption. OrphanSwallowedExample shows how a token is lost when the text between tokens holds a `{`.
- Render.OrphanTokenStays: proved only when no item's fragment holds a `{`. A fragment that holds one can form a copy of the orphan's token together with the text around it, and the later replace then lands there.
- Render.RenderClaimedToken: proved only when no item's fragment holds a `{`. Otherwise an earlier item's fragment can form a copy of the claimed token, and the claiming item's replace lands on that copy instead.
- The `categories` table of `lib/utils.ts` (names, icons, colours): only its five keys appear, as the category enumeration.
- BlogsCreate.RequestTags: a truthy tag value that is neither an array nor a string makes the source throw, which ends in a 500. The model's tag field is an array or a string only.
- BlogsCreate.ProcessMedia: an element of the media array that is not an object makes the source throw. Elements are records whose absent fields are `""` or `0`.
- The editor's save in edit mode goes to the update route of `app/api/blogs/[id]/route.ts`, which is not part of this model. Only the create path is connected.
- The slug preview in the editor is never sent with the save body. The server always derives the slug from the title.
- Render.VimeoRewrite: proved for URLs whose text before `vimeo.com/` has no `v` and no `y`, and whose text after the digits has no `y`. These conditions keep other matches out of the way, and the usual `https://vimeo.com/<digits>` form meets them.
- Render.YouTubeWatchRewrite: proved for URLs whose text before `youtube.com/` has no `y`, and which end with the id. The usual `https://www.youtube.com/watch?v=<id>` form meets these conditions.
- Render.YouTuBeRewrite: proved for the `https://youtu.be/<id>` form only.
- The upload request itself, `uploadFile`, is left out because it is network I/O.

=== FILE: analytics.dfy ===
/** The figures of the analytics page, `getAnalyticsData` in
    `app/analytics/page.tsx`, computed from the stored posts and a clock
    reading in milliseconds. */
module Analytics {
  import opened Wrappers
  import opened Numbers
  import opened Blog
  import opened Sorting

  const DayMs: nat := 24 * 60 * 60 * 1000
  const PercentScale: nat := 100

  // ---------------------------------------------------------------------
  // Sums and counts, folded from the left as `reduce` does
  // ---------------------------------------------------------------------

  function Published(s: seq<Post>): (r: seq<Post>)
    ensures |r| <= |s|
    ensures forall i :: 0 <= i < |r| ==> r[i].published && r[i] in s
    ensures forall i :: 0 <= i < |s| && s[i].published ==> s[i] in r
  {
    if |s| == 0 then []
    else Published(s[..|s| - 1]) + (if s[|s| - 1].published then [s[|s| - 1]] else [])
  }

  /** Every published post is kept as many times as the store holds it,
      every draft none. */
  lemma {:induction false} PublishedCounts(s: seq<Post>)
    ensures forall x :: multiset(Published(s))[x] == if x.published then multiset(s)[x] else 0
  {
    if |s| > 0 {
      var init, last := s[..|s| - 1], s[|s| - 1];
      PublishedCounts(init);
      assert s == init + [last];
    }
  }

  /** The filter keeps store order: filtering a concatenation filters each
      part. */
  lemma {:induction false} PublishedAppend(s: seq<Post>, t: seq<Post>)
    ensures Published(s + t) == Published(s) + Published(t)
    decreases |t|
  {
    if |t| == 0 {
      assert s + t == s;
    } else {
      var u := s + t;
      assert u[..|u| - 1] == s + t[..|t| - 1] && u[|u| - 1] == t[|t| - 1];
      PublishedAppend(s, t[..|t| - 1]);
    }
  }

  function SumViews(s: seq<Post>): nat {
    if |s| == 0 then 0 else SumViews(s[..|s| - 1]) + s[|s| - 1].views
  }

  function SumReadTime(s: seq<Post>): nat {
    if |s| == 0 then 0 else SumReadTime(s[..|s| - 1]) + s[|s| - 1].readTime
  }

  /** Posts viewed at least once. */
  function CountViewed(s: seq<Post>): (r: nat)
    ensures r <= |s|
  {
    if |s| == 0 then 0 else CountViewed(s[..|s| - 1]) + (if s[|s| - 1].views > 0 then 1 else 0)
  }

  /** Every post has at least one view exactly when all of them count. */
  lemma {:induction false} CountViewedAll(s: seq<Post>)
    ensures CountViewed(s) == |s| <==> forall i :: 0 <= i < |s| ==> s[i].views > 0
    ensures CountViewed(s) == 0 <==> forall i :: 0 <= i < |s| ==> s[i].views == 0
  {
    if |s| > 0 {
      var init := s[..|s| - 1];
      CountViewedAll(init);
      assert forall i :: 0 <= i < |init| ==> init[i] == s[i];
    }
  }

  /** The sum of the views bounds each post's views. */
  lemma {:induction false} SumViewsBoundsEach(s: seq<Post>, i: nat)
    requires i < |s|
    ensures s[i].views <= SumViews(s)
  {
    if i < |s| - 1 {
      SumViewsBoundsEach(s[..|s| - 1], i);
    }
  }

  // ---------------------------------------------------------------------
  // Most viewed post: `reduce` keeping the first post of highest views
  // ---------------------------------------------------------------------

  /** The reduction over `s[i..]` starting from the index `best`. */
  function FirstMaxFrom(s: seq<Post>, best: nat, i: nat): (r: nat)
    requires best < i <= |s|
    requires forall j :: 0 <= j < i ==> s[j].views <= s[best].views
    requires forall j :: 0 <= j < best ==> s[j].views < s[best].views
    ensures r < |s|
    ensures forall j :: 0 <= j < |s| ==> s[j].views <= s[r].views
    ensures forall j :: 0 <= j < r ==> s[j].views < s[r].views
    decreases |s| - i
  {
    if i == |s| then best
    else if s[i].views > s[best].views then FirstMaxFrom(s, i, i + 1)
    else FirstMaxFrom(s, best, i + 1)
  }

  /** The most viewed post; ties go to the earliest; `None` for no posts. */
  function MostViewed(s: seq<Post>): (r: Option<Post>)
    ensures r.None? <==> |s| == 0
    ensures r.Some? ==> exists k :: (0 <= k < |s| && r.value == s[k]
      && (forall j :: 0 <= j < |s| ==> s[j].views <= s[k].views)
      && (forall j :: 0 <= j < k ==> s[j].views < s[k].views))
  {
    if |s| == 0 then None else Some(s[FirstMaxFrom(s, 0, 1)])
  }

  // ---------------------------------------------------------------------
  // Category statistics
  // ---------------------------------------------------------------------

  /** The number and the total views of the posts of `c`. */
  function CountIn(s: seq<Post>, c: Category): nat {
    if |s| == 0 then 0 else CountIn(s[..|s| - 1], c) + (if s[|s| - 1].category == c then 1 else 0)
  }

  function ViewsIn(s: seq<Post>, c: Category): (r: nat)
    ensures CountIn(s, c) == 0 ==> r == 0
  {
    if |s| == 0 then 0 else ViewsIn(s[..|s| - 1], c) + (if s[|s| - 1].category == c then s[|s| - 1].views else 0)
  }

  /** The five categories split the posts and their views between them. */
  lemma {:induction false} CategoriesPartition(s: seq<Post>)
    ensures CountIn(s, SystemDesign) + CountIn(s, Dsa) + CountIn(s, LinkedIn)
      + CountIn(s, Interviews) + CountIn(s, StartupHiring) == |s|
    ensures ViewsIn(s, SystemDesign) + ViewsIn(s, Dsa) + ViewsIn(s, LinkedIn)
      + ViewsIn(s, Interviews) + ViewsIn(s, StartupHiring) == SumViews(s)
  {
    if |s| > 0 {
      CategoriesPartition(s[..|s| - 1]);
    }
  }

  /** One entry of the `categoryMap`. */
  datatype Tally = Tally(category: Category, postCount: nat, totalViews: nat)

  predicate DistinctCategories(g: seq<Tally>) {
    forall i, j :: 0 <= i < j < |g| ==> g[i].category != g[j].category
  }

  /** The entry of category `c` in the map, if any. */
  function Lookup(g: seq<Tally>, c: Category): (r: Option<Tally>)
    ensures r.Some? ==> r.value.category == c && r.value in g
    ensures r.None? <==> forall i :: 0 <= i < |g| ==> g[i].category != c
  {
    if |g| == 0 then None
    else if g[0].category == c then Some(g[0])
    else Lookup(g[1..], c)
  }

  /** The entry of a category after one more post of it. */
  function Bump(t: Option<Tally>, p: Post): Tally {
    match t
    case None => Tally(p.category, 1, p.views)
    case Some(x) => Tally(x.category, x.postCount + 1, x.totalViews + p.views)
  }

  /** One step of the `forEach`: the post's category gets an entry, at the
      end when it is new, and that entry one more post and its views. */
  function AddPost(g: seq<Tally>, p: Post): (r: seq<Tally>)
    requires DistinctCategories(g)
    ensures DistinctCategories(r)
    ensures forall c :: Lookup(r, c) == if c == p.category then Some(Bump(Lookup(g, c), p)) else Lookup(g, c)
    ensures (forall i :: 0 <= i < |g| ==> g[i].postCount > 0) ==> forall i :: 0 <= i < |r| ==> r[i].postCount > 0
  {
    if |g| == 0 then [Tally(p.category, 1, p.views)]
    else if g[0].category == p.category then
      assert Lookup(g[1..], p.category).None?;
      [Bump(Some(g[0]), p)] + g[1..]
    else
      var rest := AddPost(g[1..], p);
      assert Lookup(g[1..], g[0].category).None?;
      assert Lookup(rest, g[0].category).None?;
      [g[0]] + rest
  }

  /** `g` maps each category present in `s` to its post count and total
      views, and has no entry for the others. */
  predicate TalliesOf(s: seq<Post>, g: seq<Tally>) {
    forall c :: Lookup(g, c) == if CountIn(s, c) > 0 then Some(Tally(c, CountIn(s, c), ViewsIn(s, c))) else None
  }

  /** The `categoryMap` after the `forEach` over `s`: one entry per
      category present, holding its post count and its total views. */
  function Tallies(s: seq<Post>): (r: seq<Tally>)
    ensures DistinctCategories(r)
    ensures TalliesOf(s, r)
    ensures forall i :: 0 <= i < |r| ==> r[i].postCount > 0
  {
    if |s| == 0 then []
    else
      var prev := s[..|s| - 1];
      var g := Tallies(prev);
      var r := AddPost(g, s[|s| - 1]);
      TalliesExtend(s, g, r);
      r
  }

  /** Adding the last post to the tallies of the others gives the tallies
      of all. */
  lemma TalliesExtend(s: seq<Post>, g: seq<Tally>, r: seq<Tally>)
    requires |s| > 0 && TalliesOf(s[..|s| - 1], g)
    requires forall c :: Lookup(r, c) == if c == s[|s| - 1].category then Some(Bump(Lookup(g, c), s[|s| - 1])) else Lookup(g, c)
    ensures TalliesOf(s, r)
  {
    var prev, p := s[..|s| - 1], s[|s| - 1];
    TallyStep(s);
    forall c ensures Lookup(r, c) == if CountIn(s, c) > 0 then Some(Tally(c, CountIn(s, c), ViewsIn(s, c))) else None {
      if c == p.category {
        assert Lookup(r, c) == Some(Bump(Lookup(g, c), p));
      } else {
        assert Lookup(r, c) == Lookup(g, c);
      }
    }
  }

  /** The last post adds one to its own category's count and its views to
      that category's total, and leaves the other categories alone. */
  lemma TallyStep(s: seq<Post>)
    requires |s| > 0
    ensures var prev, p := s[..|s| - 1], s[|s| - 1];
      forall c :: CountIn(s, c) == CountIn(prev, c) + (if p.category == c then 1 else 0)
        && ViewsIn(s, c) == ViewsIn(prev, c) + (if p.category == c then p.views else 0)
  {
  }

  /** Each entry is the count and the views of its own category. */
  lemma TallyEntries(s: seq<Post>, i: nat)
    requires i < |Tallies(s)|
    ensures var t := Tallies(s)[i];
      t.postCount == CountIn(s, t.category) && t.totalViews == ViewsIn(s, t.category) && CountIn(s, t.category) > 0
  {
    var g := Tallies(s);
    LookupFindsMember(g, i);
  }

  /** In a map without repeated categories the lookup finds each entry. */
  lemma {:induction false} LookupFindsMember(g: seq<Tally>, i: nat)
    requires DistinctCategories(g) && i < |g|
    ensures Lookup(g, g[i].category) == Some(g[i])
  {
    if i > 0 {
      assert DistinctCategories(g[1..]);
      LookupFindsMember(g[1..], i - 1);
    }
  }

  /** One row of `categoryStats`. */
  datatype CategoryStat = CategoryStat(category: Category, postCount: nat, totalViews: nat, avgViews: nat)

  function ToStat(t: Tally): CategoryStat
    requires t.postCount > 0
  {
    CategoryStat(t.category, t.postCount, t.totalViews, RoundDiv(t.totalViews, t.postCount))
  }

  /** The comparator on total views, as an order: most views first. */
  function ByViews(): (CategoryStat, CategoryStat) -> bool {
    (a: CategoryStat, b: CategoryStat) => a.totalViews >= b.totalViews
  }

  lemma ByViewsIsPreorder()
    ensures Total(ByViews()) && Transitive(ByViews())
  {
  }

  /** The `categoryStats` rows in map order, before sorting: one per
      present category, holding its count, views and rounded mean. */
  function StatRows(s: seq<Post>): (rows: seq<CategoryStat>)
    ensures forall k :: 0 <= k < |rows| ==> RowOf(s, rows[k])
    ensures forall c :: CountIn(s, c) > 0 ==> exists k :: 0 <= k < |rows| && rows[k].category == c
    ensures DistinctRows(rows)
  {
    var g := Tallies(s);
    var rows := seq(|g|, i requires 0 <= i < |g| => ToStat(g[i]));
    forall k | 0 <= k < |rows| ensures RowOf(s, rows[k]) {
      TallyEntries(s, k);
    }
    forall c | CountIn(s, c) > 0 ensures exists k :: 0 <= k < |rows| && rows[k].category == c {
      var t := Lookup(g, c).value;
      var i :| 0 <= i < |g| && g[i] == t;
      assert rows[i].category == c;
    }
    rows
  }

  /** No two rows are about the same category. */
  predicate DistinctRows(r: seq<CategoryStat>) {
    forall i, j :: 0 <= i < j < |r| ==> r[i].category != r[j].category
  }

  /** In rows without a repeated category each row occurs at most once. */
  lemma {:induction false} DistinctRowsOnce(r: seq<CategoryStat>, x: CategoryStat)
    requires DistinctRows(r)
    ensures multiset(r)[x] <= 1
  {
    if |r| > 0 {
      assert r == [r[0]] + r[1..];
      assert DistinctRows(r[1..]);
      DistinctRowsOnce(r[1..], x);
      if r[0] == x {
        assert x !in r[1..];
      }
    }
  }

  /** An element found at two indices occurs at least twice. */
  lemma FoundTwice<T>(r: seq<T>, i: nat, j: nat)
    requires i < j < |r|
    ensures r[i] == r[j] ==> multiset(r)[r[i]] >= 2
  {
    assert r == r[..j] + r[j..];
    assert r[i] in r[..j] && r[j] in r[j..];
  }

  /** A row holds the count, the views and the rounded mean of the views
      of a category present in `s`. */
  predicate RowOf(s: seq<Post>, row: CategoryStat) {
    && CountIn(s, row.category) > 0
    && row.postCount == CountIn(s, row.category)
    && row.totalViews == ViewsIn(s, row.category)
    && row.avgViews == RoundDiv(row.totalViews, row.postCount)
  }

  /** `categoryStats`: the entries in map order, then sorted by total views,
      most first; `Array.prototype.sort` is stable, so ties keep map order. */
  function CategoryStats(s: seq<Post>): (r: seq<CategoryStat>)
    ensures SortedBy(ByViews(), r)
  {
    ByViewsIsPreorder();
    InsertionSort(ByViews(), StatRows(s))
  }

  /** Every row is the count, the views and the rounded mean of the views
      of one present category, every present category has a row, and no
      category has two. */
  lemma CategoryStatsRows(s: seq<Post>)
    ensures var r := CategoryStats(s);
      && (forall k :: 0 <= k < |r| ==> RowOf(s, r[k]))
      && (forall c :: CountIn(s, c) > 0 ==> exists k :: 0 <= k < |r| && r[k].category == c)
      && (forall i, j :: 0 <= i < j < |r| ==> r[i].category != r[j].category)
  {
    var rows := StatRows(s);
    ByViewsIsPreorder();
    var r := CategoryStats(s);
    forall k | 0 <= k < |r| ensures RowOf(s, r[k]) {
      SortedMembers(ByViews(), rows, r[k]);
    }
    forall c | CountIn(s, c) > 0 ensures exists k :: 0 <= k < |r| && r[k].category == c {
      var i :| 0 <= i < |rows| && rows[i].category == c;
      SortedMembers(ByViews(), rows, rows[i]);
    }
    forall i, j | 0 <= i < j < |r| ensures r[i].category != r[j].category {
      SortedMembers(ByViews(), rows, r[i]);
      SortedMembers(ByViews(), rows, r[j]);
      DistinctRowsOnce(rows, r[i]);
      FoundTwice(r, i, j);
    }
  }


  // ---------------------------------------------------------------------
  // The rows partition the totals
  // ---------------------------------------------------------------------

  /** The sum of `f` over the elements of `s`. */
  function SumBy<T>(s: seq<T>, f: T -> nat): nat {
    if |s| == 0 then 0 else SumBy(s[..|s| - 1], f) + f(s[|s| - 1])
  }

  lemma {:induction false} SumByAppend<T>(u: seq<T>, v: seq<T>, f: T -> nat)
    ensures SumBy(u + v, f) == SumBy(u, f) + SumBy(v, f)
    decreases |v|
  {
    if |v| > 0 {
      assert (u + v)[..|u + v| - 1] == u + v[..|v| - 1];
      SumByAppend(u, v[..|v| - 1], f);
    } else {
      assert u + v == u;
    }
  }

  /** Reordering does not change a sum. */
  lemma {:induction false} SumByPermutation<T>(a: seq<T>, b: seq<T>, f: T -> nat)
    requires multiset(a) == multiset(b)
    ensures SumBy(a, f) == SumBy(b, f)
    decreases |a|
  {
    if |a| == 0 {
      assert |multiset(b)| == 0;
    } else {
      var x := a[|a| - 1];
      MultisetRemove(a, |a| - 1);
      assert a[..|a| - 1] + a[|a|..] == a[..|a| - 1];
      var j := FindIn(b, x);
      MultisetRemove(b, j);
      SumByPermutation(a[..|a| - 1], b[..j] + b[j + 1..], f);
      SumByRemove(b, j, f);
    }
  }

  /** An element of the multiset of a sequence sits at some index. */
  lemma FindIn<T>(b: seq<T>, x: T) returns (j: nat)
    requires x in multiset(b)
    ensures j < |b| && b[j] == x
  {
    assert x in b;
    j :| 0 <= j < |b| && b[j] == x;
  }

  /** Taking one element out of a sequence takes it out of the multiset. */
  lemma MultisetRemove<T>(b: seq<T>, j: nat)
    requires j < |b|
    ensures multiset(b[..j] + b[j + 1..]) == multiset(b) - multiset{b[j]}
  {
    assert b == b[..j] + [b[j]] + b[j + 1..];
  }

  /** Taking one element out of a sequence takes its value off the sum. */
  lemma SumByRemove<T>(b: seq<T>, j: nat, f: T -> nat)
    requires j < |b|
    ensures SumBy(b, f) == SumBy(b[..j] + b[j + 1..], f) + f(b[j])
  {
    assert b == b[..j] + ([b[j]] + b[j + 1..]);
    SumByMiddle(b[..j], b[j], b[j + 1..], f);
  }

  lemma SumByMiddle<T>(u: seq<T>, y: T, w: seq<T>, f: T -> nat)
    ensures SumBy(u + ([y] + w), f) == SumBy(u + w, f) + f(y)
  {
    SumByAppend(u, [y] + w, f);
    SumByAppend([y], w, f);
    SumBySingle(y, f);
    SumByAppend(u, w, f);
  }

  lemma SumBySingle<T>(x: T, f: T -> nat)
    ensures SumBy([x], f) == f(x)
  {
    assert [x][..0] == [];
  }

  /** Sums of two sequences whose elements correspond one to one. */
  lemma {:induction false} SumByPointwise<T, U>(a: seq<T>, f: T -> nat, b: seq<U>, g: U -> nat)
    requires |a| == |b| && forall i :: 0 <= i < |a| ==> f(a[i]) == g(b[i])
    ensures SumBy(a, f) == SumBy(b, g)
    decreases |a|
  {
    if |a| > 0 {
      SumByPointwise(a[..|a| - 1], f, b[..|b| - 1], g);
    }
  }

  /** One more post adds one to the counts and its views to the views. */
  lemma {:induction false} AddPostTotals(g: seq<Tally>, p: Post)
    requires DistinctCategories(g)
    ensures SumBy(AddPost(g, p), (t: Tally) => t.postCount) == SumBy(g, (t: Tally) => t.postCount) + 1
    ensures SumBy(AddPost(g, p), (t: Tally) => t.totalViews) == SumBy(g, (t: Tally) => t.totalViews) + p.views
    decreases |g|
  {
    var fc := (t: Tally) => t.postCount;
    var fv := (t: Tally) => t.totalViews;
    if |g| == 0 {
      assert [Tally(p.category, 1, p.views)][..0] == [];
    } else {
      assert g == [g[0]] + g[1..];
      SumByAppend([g[0]], g[1..], fc);
      SumByAppend([g[0]], g[1..], fv);
      assert [g[0]][..0] == [];
      if g[0].category == p.category {
        var b := Bump(Some(g[0]), p);
        SumByAppend([b], g[1..], fc);
        SumByAppend([b], g[1..], fv);
        assert [b][..0] == [];
      } else {
        assert DistinctCategories(g[1..]);
        AddPostTotals(g[1..], p);
        var rest := AddPost(g[1..], p);
        SumByAppend([g[0]], rest, fc);
        SumByAppend([g[0]], rest, fv);
      }
    }
  }

  lemma {:induction false} TalliesTotals(s: seq<Post>)
    ensures SumBy(Tallies(s), (t: Tally) => t.postCount) == |s|
    ensures SumBy(Tallies(s), (t: Tally) => t.totalViews) == SumViews(s)
  {
    if |s| > 0 {
      var prev := s[..|s| - 1];
      TalliesTotals(prev);
      AddPostTotals(Tallies(prev), s[|s| - 1]);
    }
  }

  /** The post counts of the rows add up to the number of posts and
      their views to all the views: every post is counted in exactly one
      row. */
  lemma CategoryStatsPartition(s: seq<Post>)
    ensures SumBy(CategoryStats(s), (r: CategoryStat) => r.postCount) == |s|
    ensures SumBy(CategoryStats(s), (r: CategoryStat) => r.totalViews) == SumViews(s)
  {
    var g := Tallies(s);
    var rows := seq(|g|, i requires 0 <= i < |g| => ToStat(g[i]));
    ByViewsIsPreorder();
    var r := CategoryStats(s);
    assert r == InsertionSort(ByViews(), rows);
    TalliesTotals(s);
    var fc := (t: Tally) => t.postCount;
    var fv := (t: Tally) => t.totalViews;
    var hc := (x: CategoryStat) => x.postCount;
    var hv := (x: CategoryStat) => x.totalViews;
    SumByPointwise(g, fc, rows, hc);
    SumByPointwise(g, fv, rows, hv);
    SumByPermutation(rows, r, hc);
    SumByPermutation(rows, r, hv);
  }

  /** `topPerformingCategory`: the category of the first row, `""` when
      there are none. */
  function TopCategory(stats: seq<CategoryStat>): (r: string)
    ensures r == "" <==> |stats| == 0
    ensures |stats| > 0 ==> ParseCategory(r) == Some(stats[0].category)
  {
    if |stats| > 0 then
      CategoryKeyRoundTrip(stats[0].category);
      CategoryKey(stats[0].category)
    else ""
  }

  /** The top category has the most views of all categories. */
  lemma TopCategoryHasMostViews(s: seq<Post>, c: Category)
    requires CountIn(s, c) > 0
    ensures var r := CategoryStats(s);
      |r| > 0 && ViewsIn(s, r[0].category) >= ViewsIn(s, c) && TopCategory(r) == CategoryKey(r[0].category)
  {
    CategoryStatsRows(s);
    var r := CategoryStats(s);
    var k :| 0 <= k < |r| && r[k].category == c;
    if k > 0 {
      assert ByViews()(r[0], r[k]);
    }
  }

  // ---------------------------------------------------------------------
  // Recent performance and engagement
  // ---------------------------------------------------------------------

  /** The post has a last-view time at most `days` days before `now`. */
  predicate ViewedWithin(p: Post, now: int, days: nat) {
    p.lastViewed.Some? && now - p.lastViewed.value <= days * DayMs
  }

  /** The views of the posts last viewed within `days` days. */
  function ViewsWithin(s: seq<Post>, now: int, days: nat): (r: nat)
    ensures (forall i :: 0 <= i < |s| ==> ViewedWithin(s[i], now, days)) ==> r == SumViews(s)
    ensures (forall i :: 0 <= i < |s| ==> !ViewedWithin(s[i], now, days)) ==> r == 0
  {
    if |s| == 0 then 0
    else ViewsWithin(s[..|s| - 1], now, days) + (if ViewedWithin(s[|s| - 1], now, days) then s[|s| - 1].views else 0)
  }

  /** A wider window never counts fewer views, and no window counts more
      than all the views. */
  lemma {:induction false} ViewsWithinMonotone(s: seq<Post>, now: int, d1: nat, d2: nat)
    requires d1 <= d2
    ensures ViewsWithin(s, now, d1) <= ViewsWithin(s, now, d2) <= SumViews(s)
  {
    if |s| > 0 {
      ViewsWithinMonotone(s[..|s| - 1], now, d1, d2);
      MulMonotone(d1, d2, DayMs);
    }
  }

  datatype Recent = Recent(last7Days: nat, last30Days: nat, last90Days: nat)

  datatype Engagement = Engagement(postsWithViews: nat, engagementRate: nat, topPerformingCategory: string)

  /** `Math.round(x / n)` for an average over `n` posts, `0` for none. */
  function Average(x: nat, n: nat): nat {
    if n > 0 then RoundDiv(x, n) else 0
  }

  /** The rounded mean lies between the smallest and the largest value. */
  lemma AverageWithinBounds(x: nat, n: nat, lo: nat, hi: nat)
    requires n > 0 && lo * n <= x <= hi * n
    ensures lo <= Average(x, n) <= hi
  {
    var r := RoundDiv(x, n);
    RoundDivProduct(x, n);
    if r > hi {
      MulMonotone(hi + 1, r, n);
      MulSucc(n, hi);
    }
    if r < lo {
      MulMonotone(r + 1, lo, n);
      MulSucc(n, r);
    }
  }

  /** The engagement rate is a percentage from 0 to 100; it is 100 when
      every post was viewed and 0 when none was. */
  lemma EngagementRateBounds(viewed: nat, n: nat)
    requires viewed <= n
    ensures Average(PercentScale * viewed, n) <= PercentScale
    ensures n > 0 && viewed == n ==> Average(PercentScale * viewed, n) == PercentScale
    ensures viewed == 0 ==> Average(PercentScale * viewed, n) == 0
  {
    if n > 0 {
      AverageWithinBounds(PercentScale * viewed, n, if viewed == n then PercentScale else 0, PercentScale);
    }
  }

  datatype Figures = Figures(
    totalViews: nat,
    totalPosts: nat,
    publishedPosts: nat,
    totalReadTime: nat,
    avgViewsPerPost: nat,
    mostViewedPost: Option<Post>,
    categoryStats: seq<CategoryStat>,
    recentPerformance: Recent,
    engagementMetrics: Engagement)

  /** `getAnalyticsData` without the monthly figures. */
  function AnalyticsData(store: seq<Post>, now: int): (r: Figures)
    ensures r.publishedPosts <= r.totalPosts == |store|
    ensures r.engagementMetrics.postsWithViews <= r.publishedPosts
    ensures r.mostViewedPost.None? <==> r.publishedPosts == 0
    ensures r.publishedPosts == 0 ==> r.avgViewsPerPost == 0 && r.engagementMetrics.engagementRate == 0
  {
    var blogs := Published(store);
    var n := |blogs|;
    var stats := CategoryStats(blogs);
    Figures(
      totalViews := SumViews(blogs),
      totalPosts := |store|,
      publishedPosts := n,
      totalReadTime := SumReadTime(blogs),
      avgViewsPerPost := Average(SumViews(blogs), n),
      mostViewedPost := MostViewed(blogs),
      categoryStats := stats,
      recentPerformance := Recent(ViewsWithin(blogs, now, 7), ViewsWithin(blogs, now, 30), ViewsWithin(blogs, now, 90)),
      engagementMetrics := Engagement(CountViewed(blogs), Average(PercentScale * CountViewed(blogs), n), TopCategory(stats)))
  }

  /** The recent windows are nested and bounded by the total. */
  lemma RecentNested(store: seq<Post>, now: int)
    ensures var r := AnalyticsData(store, now);
      r.recentPerformance.last7Days <= r.recentPerformance.last30Days
        <= r.recentPerformance.last90Days <= r.totalViews
  {
    var blogs := Published(store);
    ViewsWithinMonotone(blogs, now, 7, 30);
    ViewsWithinMonotone(blogs, now, 30, 90);
  }

  /** The engagement rate is a percentage; it is 100 when every published
      post has views and 0 when none has. */
  lemma EngagementFigures(store: seq<Post>, now: int)
    ensures var r := AnalyticsData(store, now); var e := r.engagementMetrics;
      && e.engagementRate <= PercentScale
      && ((r.publishedPosts > 0 && forall i :: 0 <= i < |Published(store)| ==> Published(store)[i].views > 0)
          ==> e.engagementRate == PercentScale)
      && ((forall i :: 0 <= i < |Published(store)| ==> Published(store)[i].views == 0) ==> e.engagementRate == 0)
  {
    var blogs := Published(store);
    CountViewedAll(blogs);
    EngagementRateBounds(CountViewed(blogs), |blogs|);
  }

  /** The average views per post lies between the least and the most
      viewed published post. */
  lemma AverageViewsWithinRange(store: seq<Post>, now: int, lo: nat, hi: nat)
    requires |Published(store)| > 0
    requires forall i :: 0 <= i < |Published(store)| ==> lo <= Published(store)[i].views <= hi
    ensures lo <= AnalyticsData(store, now).avgViewsPerPost <= hi
  {
    var blogs := Published(store);
    SumViewsBetween(blogs, lo, hi);
    AverageWithinBounds(SumViews(blogs), |blogs|, lo, hi);
  }

  lemma {:induction false} SumViewsBetween(s: seq<Post>, lo: nat, hi: nat)
    requires forall i :: 0 <= i < |s| ==> lo <= s[i].views <= hi
    ensures lo * |s| <= SumViews(s) <= hi * |s|
  {
    if |s| > 0 {
      var init := s[..|s| - 1];
      assert forall i :: 0 <= i < |init| ==> init[i] == s[i];
      SumViewsBetween(init, lo, hi);
      MulSucc(lo, |init|);
      MulSucc(hi, |init|);
    }
  }
}

=== FILE: blog.dfy ===
/** The post record of `models/Blog.ts`: its enumerations, defaults,
    limits, the casting the schema applies and the validation it runs
    before a document is written. Timestamps are milliseconds. */
module Blog {
  import opened Wrappers
  import opened Text

  /** The five post categories; `lib/utils.ts` keys its `categories`
      table by the same five strings. */
  datatype Category = SystemDesign | Dsa | LinkedIn | Interviews | StartupHiring

  function CategoryKey(c: Category): string {
    match c
    case SystemDesign => "system-design"
    case Dsa => "dsa"
    case LinkedIn => "linkedin"
    case Interviews => "interviews"
    case StartupHiring => "startup-hiring"
  }

  const CategoryKeys: seq<string> := ["system-design", "dsa", "linkedin", "interviews", "startup-hiring"]

  /** The schema's `enum` check on `category`. */
  function ParseCategory(s: string): (r: Option<Category>)
    ensures r.Some? <==> s in CategoryKeys
    ensures r.Some? ==> CategoryKey(r.value) == s
  {
    if s == "system-design" then Some(SystemDesign)
    else if s == "dsa" then Some(Dsa)
    else if s == "linkedin" then Some(LinkedIn)
    else if s == "interviews" then Some(Interviews)
    else if s == "startup-hiring" then Some(StartupHiring)
    else None
  }

  /** Every category has one of the five keys, and its key names it back. */
  lemma CategoryKeyRoundTrip(c: Category)
    ensures CategoryKey(c) in CategoryKeys
    ensures ParseCategory(CategoryKey(c)) == Some(c)
  {
  }

  /** The six media kinds of the media sub-schema. */
  datatype MediaType = Image | Video | Code | Gist | Tweet | Embed

  function MediaTypeKey(t: MediaType): string {
    match t
    case Image => "image"
    case Video => "video"
    case Code => "code"
    case Gist => "gist"
    case Tweet => "tweet"
    case Embed => "embed"
  }

  const MediaTypeKeys: seq<string> := ["image", "video", "code", "gist", "tweet", "embed"]

  /** The type a media element gets when none is given, by the create
      handler and by the editor alike. */
  const DefaultMediaType: string := "image"

  function ParseMediaType(s: string): (r: Option<MediaType>)
    ensures r.Some? <==> s in MediaTypeKeys
    ensures r.Some? ==> MediaTypeKey(r.value) == s
  {
    if s == "image" then Some(Image)
    else if s == "video" then Some(Video)
    else if s == "code" then Some(Code)
    else if s == "gist" then Some(Gist)
    else if s == "tweet" then Some(Tweet)
    else if s == "embed" then Some(Embed)
    else None
  }

  lemma MediaTypeKeyRoundTrip(t: MediaType)
    ensures MediaTypeKey(t) in MediaTypeKeys
    ensures ParseMediaType(MediaTypeKey(t)) == Some(t)
  {
  }

  /** One stored media entry. `alt` and `caption` are `""` when absent. */
  datatype MediaEntry = MediaEntry(mediaType: MediaType, url: string, alt: string, caption: string, position: int)

  datatype Post = Post(
    title: string,
    slug: string,
    content: string,
    rawContent: string,
    media: seq<MediaEntry>,
    excerpt: string,
    category: Category,
    tags: seq<string>,
    coverImage: string,
    published: bool,
    publishedAt: Option<int>,
    readTime: nat,
    views: nat,
    lastViewed: Option<int>,
    seoTitle: string,
    seoDescription: string)

  const ExcerptMaxLength: nat := 200
  const DefaultCoverImage: string := ""
  const DefaultPublished: bool := false
  const DefaultReadTime: nat := 5
  const DefaultViews: nat := 0

  /** A media entry before the schema's `enum` check: its type is still text. */
  datatype MediaFields = MediaFields(mediaType: string, url: string, alt: string, caption: string, position: int)

  /** The fields handed to the model constructor; the optional ones fall
      back to the schema defaults. */
  datatype Fields = Fields(
    title: string,
    slug: string,
    content: string,
    rawContent: string,
    media: seq<MediaFields>,
    excerpt: string,
    category: string,
    tags: seq<string>,
    coverImage: Option<string>,
    published: Option<bool>,
    publishedAt: Option<int>,
    readTime: Option<nat>,
    seoTitle: string,
    seoDescription: string)

  /** Why a document fails validation. */
  datatype ValidationError =
    | TitleRequired
    | SlugRequired
    | ContentRequired
    | ExcerptTooLong
    | CategoryNotInEnum
    | MediaInvalid  // a media type outside the enumeration, or an empty url

  /** `e` is the stored form of `m`: the type `m` names, and its URL,
      texts and position unchanged. */
  predicate StoredAs(m: MediaFields, e: MediaEntry) {
    && MediaTypeKey(e.mediaType) == m.mediaType
    && e.url == m.url && e.alt == m.alt && e.caption == m.caption
    && e.position == m.position
  }

  /** The media sub-schema's `enum` check on the type and `required`
      check on the URL. */
  function MediaFromFields(m: MediaFields): (r: Option<MediaEntry>)
    ensures r.Some? <==> m.mediaType in MediaTypeKeys && m.url != ""
    ensures r.Some? ==> StoredAs(m, r.value)
  {
    match ParseMediaType(m.mediaType)
    case None => None
    case Some(t) => if m.url == "" then None else Some(MediaEntry(t, m.url, m.alt, m.caption, m.position))
  }

  function MediaFromFieldsAll(ms: seq<MediaFields>): (r: Option<seq<MediaEntry>>)
    ensures r.Some? <==> forall i :: 0 <= i < |ms| ==> MediaFromFields(ms[i]).Some?
    ensures r.Some? ==> |r.value| == |ms| && forall i :: 0 <= i < |ms| ==> r.value[i] == MediaFromFields(ms[i]).value
  {
    if |ms| == 0 then Some([])
    else match (MediaFromFields(ms[0]), MediaFromFieldsAll(ms[1..]))
      case (Some(e), Some(rest)) => Some([e] + rest)
      case _ => None
  }

  /** Constructing and validating a document: the `trim` setters on the
      title and on each tag and the `lowercase` setter on the slug are
      applied, absent optional fields take their defaults, a new post has
      no views, and then every `required`, `enum` and `maxlength` rule is
      checked. A string is missing for `required` when it is empty. */
  function NewDocument(f: Fields): (r: Result)
    ensures r.Ok? <==> FieldsValid(f)
    ensures r.Ok? ==> Valid(r.post)
  {
    var title := Trim(f.title);
    if title == "" then Invalid(TitleRequired)
    else if f.slug == "" then Invalid(SlugRequired)
    else if f.content == "" then Invalid(ContentRequired)
    else if |f.excerpt| > ExcerptMaxLength then Invalid(ExcerptTooLong)
    else match ParseCategory(f.category)
      case None => Invalid(CategoryNotInEnum)
      case Some(c) =>
        match MediaFromFieldsAll(f.media)
        case None => Invalid(MediaInvalid)
        case Some(media) => Ok(BuildPost(f, title, c, media))
  }

  /** The document the constructor builds once validation has passed. */
  function BuildPost(f: Fields, title: string, c: Category, media: seq<MediaEntry>): Post {
    Post(
      title := title,
      slug := LowerAscii(f.slug),
      content := f.content,
      rawContent := f.rawContent,
      media := media,
      excerpt := f.excerpt,
      category := c,
      tags := seq(|f.tags|, i requires 0 <= i < |f.tags| => Trim(f.tags[i])),
      coverImage := f.coverImage.GetOr(DefaultCoverImage),
      published := f.published.GetOr(DefaultPublished),
      publishedAt := f.publishedAt,
      readTime := f.readTime.GetOr(DefaultReadTime),
      views := DefaultViews,
      lastViewed := None,
      seoTitle := f.seoTitle,
      seoDescription := f.seoDescription)
  }

  /** A document that passes validation is built from the trimmed title,
      the category the key names and the parsed media. */
  lemma NewDocumentBuilds(f: Fields)
    requires NewDocument(f).Ok?
    ensures ParseCategory(f.category).Some? && MediaFromFieldsAll(f.media).Some?
    ensures NewDocument(f).post
         == BuildPost(f, Trim(f.title), ParseCategory(f.category).value, MediaFromFieldsAll(f.media).value)
  {
  }

  predicate FieldsValid(f: Fields) {
    && Trim(f.title) != "" && f.slug != "" && f.content != ""
    && |f.excerpt| <= ExcerptMaxLength && f.category in CategoryKeys
    && forall i :: 0 <= i < |f.media| ==> MediaFromFields(f.media[i]).Some?
  }

  datatype Result = Ok(post: Post) | Invalid(error: ValidationError)

  /** Fields left out take the schema defaults; a new post has no views. */
  lemma NewDocumentDefaults(f: Fields)
    requires NewDocument(f).Ok?
    ensures var p := NewDocument(f).post;
      && p.views == DefaultViews && p.lastViewed.None?
      && p.coverImage == f.coverImage.GetOr(DefaultCoverImage)
      && p.published == f.published.GetOr(DefaultPublished)
      && p.readTime == f.readTime.GetOr(DefaultReadTime)
  {
    NewDocumentBuilds(f);
  }

  /** The `trim` setters on the title and the tags and the `lowercase`
      setter on the slug. */
  lemma NewDocumentSetters(f: Fields)
    requires NewDocument(f).Ok?
    ensures var p := NewDocument(f).post;
      && p.title == Trim(f.title) && p.slug == LowerAscii(f.slug)
      && |p.tags| == |f.tags| && forall i :: 0 <= i < |f.tags| ==> p.tags[i] == Trim(f.tags[i])
  {
    NewDocumentBuilds(f);
  }

  /** Each media element is stored in order with the type it names, its
      URL, texts and position. */
  lemma NewDocumentMedia(f: Fields)
    requires NewDocument(f).Ok?
    ensures var p := NewDocument(f).post;
      && |p.media| == |f.media|
      && forall i :: 0 <= i < |f.media| ==> StoredAs(f.media[i], p.media[i]) && p.media[i].url != ""
  {
    var p := NewDocument(f).post;
    NewDocumentBuilds(f);
    forall i | 0 <= i < |f.media| ensures StoredAs(f.media[i], p.media[i]) && p.media[i].url != "" {
      assert MediaFromFields(f.media[i]).Some?;
      assert p.media[i] == MediaFromFields(f.media[i]).value;
    }
  }

  /** The fields stored as they were given. */
  lemma NewDocumentCopies(f: Fields)
    requires NewDocument(f).Ok?
    ensures var p := NewDocument(f).post;
      && p.content == f.content && p.rawContent == f.rawContent && p.excerpt == f.excerpt
      && p.publishedAt == f.publishedAt && p.seoTitle == f.seoTitle && p.seoDescription == f.seoDescription
      && CategoryKey(p.category) == f.category
  {
    NewDocumentBuilds(f);
  }

  /** The schema's constraints on one stored post. */
  predicate Valid(p: Post) {
    && p.title != "" && p.slug != "" && p.content != ""
    && |p.excerpt| <= ExcerptMaxLength
    && forall i :: 0 <= i < |p.media| ==> p.media[i].url != ""
  }

  /** The unique index on `slug`: no two stored posts share one. */
  predicate SlugsUnique(store: seq<Post>) {
    forall i, j :: 0 <= i < j < |store| ==> store[i].slug != store[j].slug
  }

  function Slugs(store: seq<Post>): (r: set<string>)
    ensures forall i :: 0 <= i < |store| ==> store[i].slug in r
    ensures forall s :: s in r ==> exists i :: 0 <= i < |store| && store[i].slug == s
  {
    set i | 0 <= i < |store| :: store[i].slug
  }

  /** Inserting a post whose slug is not yet taken keeps the index unique. */
  lemma InsertKeepsSlugsUnique(store: seq<Post>, p: Post)
    requires SlugsUnique(store)
    requires p.slug !in Slugs(store)
    ensures SlugsUnique(store + [p])
  {
  }
}

=== FILE: create.dfy ===
/** `POST /api/blogs` of `app/api/blogs/route.ts`: checks the request,
    derives a free slug, fills in the derived fields and stores the post
    when the schema accepts it. The database is the sequence of stored
    posts and the clock is a parameter. */
module BlogsCreate {
  import opened Wrappers
  import opened Text
  import opened Numbers
  import Utils
  import opened Blog

  // ---------------------------------------------------------------------
  // Request and response
  // ---------------------------------------------------------------------

  /** One element of the request's `media` array. A field that is absent
      or falsy is `""`, or `0` for the position. */
  datatype RawMedia = RawMedia(mediaType: string, url: string, alt: string, caption: string, position: int)

  /** The request's `media`: an array, or anything else. An absent field
      defaults to the empty array. */
  datatype MediaField = MediaArray(items: seq<RawMedia>) | MediaOther

  /** The request's `tags`: an array of strings, or a comma-separated
      string (`""` when absent or falsy). */
  datatype TagsField = TagArray(items: seq<string>) | TagText(text: string)

  /** The JSON body of the request. A string field that is absent or
      falsy is `""`. */
  datatype CreateRequest = CreateRequest(
    title: string,
    content: string,
    rawContent: string,
    media: MediaField,
    category: string,
    tags: TagsField,
    coverImage: string,
    published: bool,
    excerpt: string,
    seoTitle: string,
    seoDescription: string)

  datatype CreateResponse =
    | Created(post: Post)
    | BadRequest(message: string)
    | CreateFailed  // the document was refused by the schema

  function Status(r: CreateResponse): int {
    match r
    case Created(_) => 201
    case BadRequest(_) => 400
    case CreateFailed => 500
  }

  /** The response together with the store after the request. */
  datatype CreateOutcome = CreateOutcome(response: CreateResponse, store: seq<Post>)

  const RequiredMessage: string := "Title, content, and category are required"
  const SlugTooShortMessage: string := "Title must contain at least 2 valid characters for URL generation"
  const MinSlugLength: nat := 2
  const ExcerptSourceLength: nat := 150
  const Ellipsis: string := "..."

  /** `a || b` on strings. */
  function Or(a: string, b: string): string {
    if a != "" then a else b
  }

  // ---------------------------------------------------------------------
  // The unique slug
  // ---------------------------------------------------------------------

  /** The slug tried in round `k` of the loop: the base, then
      `base-1`, `base-2`, … */
  function Candidate(base: string, k: nat): string {
    if k == 0 then base else base + "-" + Dec(k)
  }

  /** Different rounds try different slugs. */
  lemma CandidateInjective(base: string, j: nat, k: nat)
    requires Candidate(base, j) == Candidate(base, k)
    ensures j == k
  {
    if j > 0 && k > 0 {
      assert Candidate(base, j)[|base| + 1..] == Dec(j);
      assert Candidate(base, k)[|base| + 1..] == Dec(k);
      DecInjective(j, k);
    }
  }

  /** A candidate built on a slug is a slug. */
  lemma CandidateIsSlug(base: string, k: nat)
    requires Utils.AllSlugChars(base)
    ensures Utils.AllSlugChars(Candidate(base, k))
  {
    if k > 0 {
      var c := Candidate(base, k);
      forall i | 0 <= i < |c| ensures Utils.IsSlugChar(c[i]) {
        if i < |base| { assert c[i] == base[i]; }
        else if i > |base| { assert c[i] == Dec(k)[i - |base| - 1]; }
      }
    }
  }

  function CandidatesBelow(base: string, k: nat): set<string> {
    set j | 0 <= j < k :: Candidate(base, j)
  }

  /** A taken candidate shrinks the set of taken slugs not yet tried. */
  lemma UntriedShrinks(base: string, taken: set<string>, k: nat)
    requires Candidate(base, k) in taken
    ensures |taken - CandidatesBelow(base, k + 1)| < |taken - CandidatesBelow(base, k)|
  {
    var c := Candidate(base, k);
    CandidatesBelowStep(base, k);
    assert taken - CandidatesBelow(base, k) == (taken - CandidatesBelow(base, k + 1)) + {c};
  }

  /** Round `k` adds a slug not tried before. */
  lemma CandidatesBelowStep(base: string, k: nat)
    ensures Candidate(base, k) !in CandidatesBelow(base, k)
    ensures CandidatesBelow(base, k + 1) == CandidatesBelow(base, k) + {Candidate(base, k)}
  {
    var c := Candidate(base, k);
    forall j | 0 <= j < k ensures Candidate(base, j) != c {
      if Candidate(base, j) == c { CandidateInjective(base, j, k); }
    }
  }

  /** The first round, from `k` on, whose candidate is not taken. */
  function FirstFree(base: string, taken: set<string>, k: nat): (r: nat)
    ensures k <= r
    ensures Candidate(base, r) !in taken
    ensures forall j :: k <= j < r ==> Candidate(base, j) in taken
    decreases |taken - CandidatesBelow(base, k)|
  {
    if Candidate(base, k) !in taken then k
    else
      UntriedShrinks(base, taken, k);
      FirstFree(base, taken, k + 1)
  }

  /** The loop that asks the store for the slug until it is free: the slug it leaves
      is free, and it is the candidate of the first round whose slug is
      free. */
  method FindUniqueSlug(base: string, taken: set<string>) returns (slug: string, rounds: nat)
    ensures slug == Candidate(base, rounds) && slug !in taken
    ensures forall j :: 0 <= j < rounds ==> Candidate(base, j) in taken
  {
    slug := base;
    var counter: nat := 1;
    while slug in taken
      invariant slug == Candidate(base, counter - 1)
      invariant forall j :: 0 <= j < counter - 1 ==> Candidate(base, j) in taken
      decreases |taken - CandidatesBelow(base, counter - 1)|
    {
      UntriedShrinks(base, taken, counter - 1);
      slug := base + "-" + Dec(counter);
      counter := counter + 1;
    }
    rounds := counter - 1;
  }

  /** The loop and the first free round agree. */
  lemma FindUniqueSlugIsFirstFree(base: string, taken: set<string>, rounds: nat)
    requires Candidate(base, rounds) !in taken
    requires forall j :: 0 <= j < rounds ==> Candidate(base, j) in taken
    ensures rounds == FirstFree(base, taken, 0)
  {
  }

  /** The first `k` rounds try `k` different slugs. */
  lemma {:induction false} CandidatesBelowCount(base: string, k: nat)
    ensures |CandidatesBelow(base, k)| == k
  {
    if k > 0 {
      CandidatesBelowCount(base, k - 1);
      CandidatesBelowStep(base, k - 1);
    }
  }

  /** The loop stops after at most as many rounds as there are taken
      slugs: every round before the last hit a different taken slug. */
  lemma RoundsBounded(base: string, taken: set<string>)
    ensures FirstFree(base, taken, 0) <= |taken|
  {
    var r := FirstFree(base, taken, 0);
    CandidatesBelowCount(base, r);
    assert CandidatesBelow(base, r) <= taken;
    SubsetCard(CandidatesBelow(base, r), taken);
  }

  lemma {:induction false} SubsetCard<T>(a: set<T>, b: set<T>)
    requires a <= b
    ensures |a| <= |b|
  {
    if a != {} {
      var x :| x in a;
      SubsetCard(a - {x}, b - {x});
    }
  }

  function UniqueSlug(base: string, store: seq<Post>): (r: string)
    ensures r !in Slugs(store)
    ensures r == base <==> base !in Slugs(store)
    ensures exists k :: 0 <= k <= |Slugs(store)| && r == Candidate(base, k)
                        && forall j :: 0 <= j < k ==> Candidate(base, j) in Slugs(store)
  {
    var k := FirstFree(base, Slugs(store), 0);
    RoundsBounded(base, Slugs(store));
    Candidate(base, k)
  }

  // ---------------------------------------------------------------------
  // The excerpt
  // ---------------------------------------------------------------------

  /** No `<` is followed, anywhere later, by a `>`: nothing for the
      pattern `<[^>]*>` to match. */
  predicate NoTag(s: string) {
    forall i, j :: 0 <= i < j < |s| && s[i] == '<' ==> s[j] != '>'
  }

  /** `.replace(/<[^>]*>/g, '')`: from left to right, each `<` with a `>`
      after it is deleted through the first such `>`; a `<` with none
      after it stays. */
  function StripTags(s: string): (r: string)
    ensures |r| <= |s|
    ensures forall i :: 0 <= i < |r| ==> r[i] in s
    decreases |s|
  {
    if |s| == 0 then ""
    else if s[0] == '<' then
      match IndexOfFrom(s, ">", 1)
      case Some(e) => StripTags(s[e + 1..])
      case None => [s[0]] + StripTags(s[1..])
    else [s[0]] + StripTags(s[1..])
  }

  /** The stripped text holds no tag. */
  lemma {:induction false} StripTagsLeavesNoTag(s: string)
    ensures NoTag(StripTags(s))
    decreases |s|
  {
    if |s| > 0 {
      if s[0] == '<' {
        match IndexOfFrom(s, ">", 1)
        case Some(e) => StripTagsLeavesNoTag(s[e + 1..]);
        case None =>
          StripTagsLeavesNoTag(s[1..]);
          var rest := StripTags(s[1..]);
          assert forall j :: 1 <= j < |s| ==> !OccursAt(s, ">", j);
          assert forall j :: 1 <= j < |s| ==> s[j] != '>' by {
            forall j | 1 <= j < |s| ensures s[j] != '>' {
              assert !OccursAt(s, ">", j);
              assert s[j..j + 1] == [s[j]];
            }
          }
          assert forall j :: 0 <= j < |rest| ==> rest[j] != '>';
      } else {
        StripTagsLeavesNoTag(s[1..]);
      }
    }
  }

  /** Text without tags is left as it is. */
  lemma {:induction false} StripTagsKeepsTagless(s: string)
    requires NoTag(s)
    ensures StripTags(s) == s
    decreases |s|
  {
    if |s| > 0 {
      assert NoTag(s[1..]);
      StripTagsKeepsTagless(s[1..]);
      if s[0] == '<' {
        NoCloseAfterOpen(s);
      }
      assert [s[0]] + s[1..] == s;
    }
  }

  /** In tag-free text a leading `<` finds no `>` to close it. */
  lemma NoCloseAfterOpen(s: string)
    requires |s| > 0 && s[0] == '<' && NoTag(s)
    ensures IndexOfFrom(s, ">", 1).None?
  {
  }

  /** Stripping twice is stripping once. */
  lemma StripTagsIdempotent(s: string)
    ensures StripTags(StripTags(s)) == StripTags(s)
  {
    StripTagsLeavesNoTag(s);
    StripTagsKeepsTagless(StripTags(s));
  }

  /** Text before the first `<` is kept as it is. */
  lemma {:induction false} StripTagsPlainPrefix(u: string, v: string)
    requires '<' !in u
    ensures StripTags(u + v) == u + StripTags(v)
    decreases |u|
  {
    if |u| == 0 {
      assert u + v == v;
    } else {
      assert u[0] in u;
      var w := u[1..] + v;
      assert u + v == [u[0]] + w;
      StripTagsPlainHead(u[0], w);
      StripTagsPlainPrefix(u[1..], v);
      assert [u[0]] + u[1..] == u;
    }
  }

  /** A first character other than `<` is kept. */
  lemma StripTagsPlainHead(c: char, w: string)
    requires c != '<'
    ensures StripTags([c] + w) == [c] + StripTags(w)
  {
    assert ([c] + w)[1..] == w;
  }

  /** A tag `<…>` is deleted through its first `>`, and what follows is
      stripped on its own. */
  lemma StripTagsDropsTag(t: string, v: string)
    requires '>' !in t
    ensures StripTags("<" + t + ">" + v) == StripTags(v)
  {
    var s := "<" + t + ">" + v;
    var e := |t| + 1;
    assert s[e..e + 1] == ">";
    assert OccursAt(s, ">", e);
    forall j | 1 <= j < e ensures !OccursAt(s, ">", j) {
      assert s[j] == t[j - 1];
      assert t[j - 1] in t;
      assert s[j..j + 1][0] == s[j];
    }
    match IndexOfFrom(s, ">", 1)
    case None =>
    case Some(x) => assert !(x < e);
    assert s[e + 1..] == v;
  }

  /** With the two lemmas above, the kept characters of a string split
      into plain runs and tags are the plain runs, in order. */
  lemma StripTagsKeepsOrder(u: string, t: string, w: string, v: string)
    requires '<' !in u && '>' !in t && '<' !in w
    ensures StripTags(u + ("<" + t + ">" + (w + v))) == u + w + StripTags(v)
  {
    StripTagsPlainPrefix(u, "<" + t + ">" + (w + v));
    StripTagsDropsTag(t, w + v);
    StripTagsPlainPrefix(w, v);
  }

  /** `s.substring(0, n)` for `n >= 0`. */
  function Prefix(s: string, n: nat): string {
    if n <= |s| then s[..n] else s
  }

  /** The excerpt made when none is given: the first 150 characters of the
      text without tags, then `...`. */
  function AutoExcerpt(content: string): (r: string)
    ensures |r| <= ExcerptSourceLength + |Ellipsis|
    ensures |r| >= |Ellipsis| && r[|r| - |Ellipsis|..] == Ellipsis
  {
    var body := Prefix(StripTags(content), ExcerptSourceLength);
    assert (body + Ellipsis)[|body|..] == Ellipsis;
    body + Ellipsis
  }

  /** A made excerpt always fits the schema's limit of 200 characters, so
      only a supplied excerpt can be too long. */
  lemma AutoExcerptFits(content: string)
    ensures |AutoExcerpt(content)| <= ExcerptMaxLength
  {
  }

  /** Tag-free content of at most 150 characters is kept whole. */
  lemma AutoExcerptOfShortText(content: string)
    requires NoTag(content) && |content| <= ExcerptSourceLength
    ensures AutoExcerpt(content) == content + Ellipsis
  {
    StripTagsKeepsTagless(content);
  }

  // ---------------------------------------------------------------------
  // Media and tags
  // ---------------------------------------------------------------------

  /** One media element: type defaults to `image`, and a falsy position,
      zero included, is replaced by the index. */
  function ProcessItem(m: RawMedia, index: nat): (r: MediaFields)
    ensures r.url == m.url && r.alt == m.alt && r.caption == m.caption
    ensures m.mediaType != "" ==> r.mediaType == m.mediaType
    ensures m.mediaType == "" ==> r.mediaType == "image"
    ensures m.position != 0 ==> r.position == m.position
    ensures m.position == 0 ==> r.position == index
  {
    MediaFields(
      Or(m.mediaType, DefaultMediaType), m.url, m.alt, m.caption,
      if m.position != 0 then m.position else index)
  }

  function ProcessMedia(field: MediaField): (r: seq<MediaFields>)
    ensures field.MediaOther? ==> r == []
    ensures field.MediaArray? ==> (|r| == |field.items|
      && forall i :: 0 <= i < |r| ==> r[i] == ProcessItem(field.items[i], i))
  {
    match field
    case MediaOther => []
    case MediaArray(items) => seq(|items|, i requires 0 <= i < |items| => ProcessItem(items[i], i))
  }

  /** `tags`: an array is taken as it is; a string is split on commas and
      each piece trimmed; an empty string gives no tags. */
  function RequestTags(field: TagsField): (r: seq<string>)
    ensures field.TagArray? ==> r == field.items
    ensures field.TagText? && field.text == "" ==> r == []
    ensures field.TagText? && field.text != "" ==>
      var pieces := SplitOn(field.text, ',');
      |r| == |pieces| && forall i :: 0 <= i < |pieces| ==> r[i] == Trim(pieces[i])
  {
    match field
    case TagArray(items) => items
    case TagText(text) =>
      if text == "" then []
      else
        var pieces := SplitOn(text, ',');
        seq(|pieces|, i requires 0 <= i < |pieces| => Trim(pieces[i]))
  }

  // ---------------------------------------------------------------------
  // The handler
  // ---------------------------------------------------------------------

  /** The fields the handler hands to the model for a request that passed
      its checks. */
  function DocumentFields(req: CreateRequest, slug: string, now: int): (r: Fields)
    ensures r.title == req.title && r.slug == slug && r.content == req.content && r.category == req.category
    ensures req.excerpt != "" ==> r.excerpt == req.excerpt
    ensures req.excerpt == "" ==> r.excerpt == AutoExcerpt(req.content)
    ensures r.excerpt != "" && r.seoDescription != ""
    ensures r.seoTitle == (if req.seoTitle != "" then req.seoTitle else req.title)
    ensures r.publishedAt.Some? <==> req.published
    ensures r.readTime.Some? && r.readTime.value >= 1
    ensures r.media == ProcessMedia(req.media) && r.tags == RequestTags(req.tags)
  {
    var finalExcerpt := Or(req.excerpt, AutoExcerpt(req.content));
    Fields(
      title := req.title,
      slug := slug,
      content := req.content,
      rawContent := Or(req.rawContent, req.content),
      media := ProcessMedia(req.media),
      excerpt := finalExcerpt,
      category := req.category,
      tags := RequestTags(req.tags),
      coverImage := Some(req.coverImage),
      published := Some(req.published),
      publishedAt := if req.published then Some(now) else None,
      readTime := Some(Utils.ReadTime(req.content)),
      seoTitle := Or(req.seoTitle, req.title),
      seoDescription := Or(req.seoDescription, finalExcerpt))
  }

  /** The model constructor and `save`: a document the schema accepts is
      stored, one it refuses answers 500. */
  function Submit(f: Fields, store: seq<Post>): (r: CreateOutcome)
    ensures r.response.Created? <==> FieldsValid(f)
    ensures r.response.Created? ==> r.store == store + [r.response.post] && r.response.post == NewDocument(f).post
    ensures !r.response.Created? ==> r.response == CreateFailed && r.store == store
  {
    match NewDocument(f)
    case Ok(post) => CreateOutcome(Created(post), store + [post])
    case Invalid(_) => CreateOutcome(CreateFailed, store)
  }

  /** `POST /api/blogs`. */
  function Create(req: CreateRequest, store: seq<Post>, now: int): (r: CreateOutcome)
    ensures r.response.Created? ==> r.store == store + [r.response.post]
    ensures !r.response.Created? ==> r.store == store
  {
    if req.title == "" || req.content == "" || req.category == "" then
      CreateOutcome(BadRequest(RequiredMessage), store)
    else
      var base := Utils.GenerateSlug(req.title);
      if |base| < MinSlugLength then
        CreateOutcome(BadRequest(SlugTooShortMessage), store)
      else
        Submit(DocumentFields(req, UniqueSlug(base, store), now), store)
  }

  /** The checks a request must pass before a document is built. */
  predicate PassesChecks(req: CreateRequest) {
    req.title != "" && req.content != "" && req.category != ""
    && |Utils.GenerateSlug(req.title)| >= MinSlugLength
  }

  /** The request is refused with 400 exactly when a required field is
      missing or the title has too few slug characters, and the message
      says which. */
  lemma CreateBadRequest(req: CreateRequest, store: seq<Post>, now: int)
    ensures var r := Create(req, store, now).response;
      && (r.BadRequest? <==> !PassesChecks(req))
      && (r == BadRequest(RequiredMessage) <==> req.title == "" || req.content == "" || req.category == "")
  {
  }

  /** A request past the checks is submitted with the derived fields. */
  lemma CreateSubmits(req: CreateRequest, store: seq<Post>, now: int)
    requires PassesChecks(req)
    ensures Create(req, store, now) == Submit(DocumentFields(req, UniqueSlug(Utils.GenerateSlug(req.title), store), now), store)
  {
  }

  /** The derived fields pass the schema exactly when the category is
      one of the five, a supplied excerpt fits, and every media element
      has a known type and a URL; the title and slug always pass. */
  lemma DocumentFieldsValid(req: CreateRequest, slug: string, now: int)
    requires PassesChecks(req) && slug != ""
    ensures FieldsValid(DocumentFields(req, slug, now)) <==>
      && req.category in CategoryKeys
      && (req.excerpt == "" || |req.excerpt| <= ExcerptMaxLength)
      && forall i :: 0 <= i < |ProcessMedia(req.media)| ==> MediaFromFields(ProcessMedia(req.media)[i]).Some?
  {
    var f := DocumentFields(req, slug, now);
    assert Trim(f.title) != "" by {
      if AllWs(req.title) {
        Utils.BlankTitleSlugShort(req.title);
      }
      TrimEmpty(req.title);
    }
    assert |f.excerpt| <= ExcerptMaxLength <==> req.excerpt == "" || |req.excerpt| <= ExcerptMaxLength by {
      AutoExcerptFits(req.content);
    }
    assert f.slug != "" && f.content != "" && f.category == req.category && f.media == ProcessMedia(req.media);
  }

  /** Past the request checks, the schema refuses the document, and the
      handler answers 500, exactly when the category is not one of the
      five, a supplied excerpt is longer than 200 characters, or a media
      element has an unknown type or no URL. */
  lemma CreateFailedIff(req: CreateRequest, store: seq<Post>, now: int)
    requires PassesChecks(req)
    ensures Create(req, store, now).response.CreateFailed? <==>
      || req.category !in CategoryKeys
      || (req.excerpt != "" && |req.excerpt| > ExcerptMaxLength)
      || exists i :: 0 <= i < |ProcessMedia(req.media)| && MediaFromFields(ProcessMedia(req.media)[i]).None?
  {
    var base := Utils.GenerateSlug(req.title);
    var slug := UniqueSlug(base, store);
    CandidateLength(base, FirstFree(base, Slugs(store), 0));
    DocumentFieldsValid(req, slug, now);
    CreateSubmits(req, store, now);
  }

  /** A candidate is at least as long as the base. */
  lemma CandidateLength(base: string, k: nat)
    ensures |Candidate(base, k)| >= |base|
  {
  }

  /** The slug a created post gets: the first candidate, from the base
      slug on, that no stored post has. */
  lemma CreatedSlug(req: CreateRequest, store: seq<Post>, now: int)
    requires Create(req, store, now).response.Created?
    ensures var base := Utils.GenerateSlug(req.title);
      Create(req, store, now).response.post.slug == UniqueSlug(base, store)
  {
    var base := Utils.GenerateSlug(req.title);
    var k := FirstFree(base, Slugs(store), 0);
    CandidateIsSlug(base, k);
    Utils.LowerAsciiOfSlug(Candidate(base, k));
    var f := DocumentFields(req, UniqueSlug(base, store), now);
    CreateSubmits(req, store, now);
    NewDocumentSetters(f);
  }

  /** A created post has a slug no stored post has, so the unique index
      holds after the insert; the slug is a numbered variant of the base
      slug whose earlier variants are all taken. */
  lemma CreateKeepsSlugsUnique(req: CreateRequest, store: seq<Post>, now: int)
    requires SlugsUnique(store)
    ensures SlugsUnique(Create(req, store, now).store)
  {
    var r := Create(req, store, now);
    if r.response.Created? {
      CreatedSlug(req, store, now);
      InsertKeepsSlugsUnique(store, r.response.post);
    }
  }

  /** When the base slug is free it is used as it is. */
  lemma CreateSlugFree(req: CreateRequest, store: seq<Post>, now: int)
    requires Create(req, store, now).response.Created?
    requires Utils.GenerateSlug(req.title) !in Slugs(store)
    ensures Create(req, store, now).response.post.slug == Utils.GenerateSlug(req.title)
  {
    CreatedSlug(req, store, now);
  }

  /** When only the base slug is taken the post gets `base-1`. */
  lemma CreateSlugSecond(req: CreateRequest, store: seq<Post>, now: int)
    requires Create(req, store, now).response.Created?
    requires var base := Utils.GenerateSlug(req.title); base in Slugs(store) && base + "-1" !in Slugs(store)
    ensures Create(req, store, now).response.post.slug == Utils.GenerateSlug(req.title) + "-1"
  {
    var base := Utils.GenerateSlug(req.title);
    CreatedSlug(req, store, now);
    assert Candidate(base, 0) in Slugs(store);
    CandidateOne(base);
    FindUniqueSlugIsFirstFree(base, Slugs(store), 1);
  }

  lemma CandidateOne(base: string)
    ensures Candidate(base, 1) == base + "-1"
  {
    assert Dec(1) == "1";
    assert base + "-" + "1" == base + "-1";
  }


  /** The derived fields of a created post: it is published with the
      request's clock reading exactly when the request asks for it, it has
      no views, its read time is computed from the content, and the
      excerpt and SEO fields fall back as the handler says. */
  lemma CreatedPostFields(req: CreateRequest, store: seq<Post>, now: int)
    requires Create(req, store, now).response.Created?
    ensures var p := Create(req, store, now).response.post;
      && p.published == req.published
      && (p.publishedAt.Some? <==> req.published)
      && (req.published ==> p.publishedAt == Some(now))
      && p.views == 0 && p.lastViewed.None?
      && p.readTime == Utils.ReadTime(req.content)
      && p.title == Trim(req.title)
      && p.excerpt == Or(req.excerpt, AutoExcerpt(req.content))
      && p.seoTitle == Or(req.seoTitle, req.title)
      && p.seoDescription == Or(req.seoDescription, p.excerpt)
      && p.rawContent == Or(req.rawContent, req.content)
      && p.coverImage == req.coverImage
  {
    CreatedPostIsDocument(req, store, now);
    var f := DocumentFields(req, UniqueSlug(Utils.GenerateSlug(req.title), store), now);
    var p := Create(req, store, now).response.post;
    assert p == NewDocument(f).post;
    NewDocumentDefaults(f);
    NewDocumentSetters(f);
    NewDocumentCopies(f);
    assert f.published == Some(req.published) && f.readTime == Some(Utils.ReadTime(req.content));
    assert f.coverImage == Some(req.coverImage);
  }

  /** A created post is the document built from the derived fields. */
  lemma CreatedPostIsDocument(req: CreateRequest, store: seq<Post>, now: int)
    requires Create(req, store, now).response.Created?
    ensures PassesChecks(req)
    ensures var f := DocumentFields(req, UniqueSlug(Utils.GenerateSlug(req.title), store), now);
      NewDocument(f).Ok? && Create(req, store, now).response.post == NewDocument(f).post
  {
    CreateSubmits(req, store, now);
  }

  /** Text tags are trimmed pieces, so trimming them again changes nothing. */
  lemma TextTagsTrimmed(text: string)
    requires text != ""
    ensures var pieces := SplitOn(text, ','); var tags := RequestTags(TagText(text));
      |tags| == |pieces| && forall i :: 0 <= i < |pieces| ==> Trim(tags[i]) == Trim(pieces[i])
  {
    var pieces := SplitOn(text, ',');
    forall i | 0 <= i < |pieces| ensures Trim(Trim(pieces[i])) == Trim(pieces[i]) {
      TrimOfTrimmed(Trim(pieces[i]));
    }
  }

  /** Tags given as text are stored as the trimmed comma-separated pieces:
      the schema's own trim finds nothing left to do. */
  lemma CreatedPostTextTags(req: CreateRequest, store: seq<Post>, now: int)
    requires Create(req, store, now).response.Created?
    requires req.tags.TagText? && req.tags.text != ""
    ensures var p := Create(req, store, now).response.post; var pieces := SplitOn(req.tags.text, ',');
      && |p.tags| == |pieces|
      && forall i :: 0 <= i < |pieces| ==> p.tags[i] == Trim(pieces[i])
  {
    CreatedPostIsDocument(req, store, now);
    var f := DocumentFields(req, UniqueSlug(Utils.GenerateSlug(req.title), store), now);
    var p := Create(req, store, now).response.post;
    NewDocumentSetters(f);
    var tags := RequestTags(req.tags);
    assert f.tags == tags;
    var pieces := SplitOn(req.tags.text, ',');
    TextTagsTrimmed(req.tags.text);
    forall i | 0 <= i < |pieces| ensures p.tags[i] == Trim(pieces[i]) {
      assert p.tags[i] == Trim(tags[i]);
    }
  }
}

=== FILE: editor.dfy ===
/** The post editor of `components/Admin/BlogEditor.tsx`: the slug
    preview that follows the title, inserting an uploaded media item, and
    the request body `handleSave` sends to the create handler. The clock
    and the random suffix of a media id are parameters. */
module Editor {
  import opened Wrappers
  import opened Text
  import opened Numbers
  import Utils
  import Placeholder
  import opened Blog
  import BlogsCreate

  // ---------------------------------------------------------------------
  // Editor state
  // ---------------------------------------------------------------------

  /** One entry of the editor's media list; an absent `alt` or `caption`
      is `""`. */
  datatype EditorMedia = EditorMedia(
    mediaType: string,
    url: string,
    alt: string,
    caption: string,
    placeholder: string,
    position: int)

  /** The form fields `handleSave` reads. */
  datatype Form = Form(
    title: string,
    content: string,
    category: string,
    tags: string,
    coverImage: string,
    excerpt: string,
    seoTitle: string,
    seoDescription: string,
    media: seq<EditorMedia>)


  // ---------------------------------------------------------------------
  // The slug preview
  // ---------------------------------------------------------------------

  /** The effect run when the title changes: a non-empty title of a new
      post sets the slug to the title's slug; in edit mode, or for an
      empty title, the slug stays as it was. */
  function SlugEffect(title: string, isEdit: bool, slug: string): (r: string)
    ensures isEdit || title == "" ==> r == slug
    ensures !isEdit && title != "" ==> Utils.AllSlugChars(r) && Utils.NoDoubleHyphen(r) && |r| <= |title|
  {
    if title != "" && !isEdit then Utils.GenerateSlug(title) else slug
  }

  /** The slug after the title took each value of `titles` in turn. */
  function SlugAfterTyping(titles: seq<string>, isEdit: bool, slug: string): string
    decreases |titles|
  {
    if |titles| == 0 then slug
    else SlugEffect(titles[|titles| - 1], isEdit, SlugAfterTyping(titles[..|titles| - 1], isEdit, slug))
  }

  /** In edit mode no amount of typing changes the slug. */
  lemma {:induction false} EditModeKeepsSlug(titles: seq<string>, slug: string)
    ensures SlugAfterTyping(titles, true, slug) == slug
    decreases |titles|
  {
    if |titles| > 0 {
      EditModeKeepsSlug(titles[..|titles| - 1], slug);
    }
  }

  /** For a new post the slug is the slug of the last non-empty title
      typed: clearing the title afterwards leaves it in place. */
  lemma {:induction false} SlugFollowsLastTitle(titles: seq<string>, slug: string, k: nat)
    requires k < |titles| && titles[k] != ""
    requires forall j :: k < j < |titles| ==> titles[j] == ""
    ensures SlugAfterTyping(titles, false, slug) == Utils.GenerateSlug(titles[k])
    decreases |titles|
  {
    var init := titles[..|titles| - 1];
    if k < |titles| - 1 {
      assert titles[|titles| - 1] == "";
      assert init[k] == titles[k];
      SlugFollowsLastTitle(init, slug, k);
    }
  }

  /** Until a non-empty title is typed the slug keeps its initial value. */
  lemma {:induction false} SlugBeforeAnyTitle(titles: seq<string>, isEdit: bool, slug: string)
    requires forall j :: 0 <= j < |titles| ==> titles[j] == ""
    ensures SlugAfterTyping(titles, isEdit, slug) == slug
    decreases |titles|
  {
    if |titles| > 0 {
      var init := titles[..|titles| - 1];
      assert titles[|titles| - 1] == "";
      SlugBeforeAnyTitle(init, isEdit, slug);
    }
  }

  /** The preview only ever shows a slug: starting from the empty slug,
      every value it takes is made of slug characters. */
  lemma {:induction false} PreviewIsSlug(titles: seq<string>, isEdit: bool)
    ensures Utils.AllSlugChars(SlugAfterTyping(titles, isEdit, ""))
    decreases |titles|
  {
    if |titles| > 0 {
      PreviewIsSlug(titles[..|titles| - 1], isEdit);
    }
  }

  // ---------------------------------------------------------------------
  // Inserting an uploaded media item
  // ---------------------------------------------------------------------

  /** The media id: the type, the clock reading and a random suffix, joined
      by `_`. */
  function MediaId(mediaType: string, now: nat, nonce: string): string {
    mediaType + "_" + Dec(now) + "_" + nonce
  }

  /** The placeholder returned to the text editor and the new media list. */
  datatype Inserted = Inserted(placeholder: string, media: seq<EditorMedia>)

  /** `handleMediaInsert`: appends exactly one item, at the position equal
      to the list's former length, and returns its placeholder, which
      names the type twice because the id already starts with it. */
  function InsertMedia(mediaType: string, url: string, alt: string, now: nat, nonce: string, media: seq<EditorMedia>): (r: Inserted)
    ensures |r.media| == |media| + 1 && r.media[..|media|] == media
    ensures var m := r.media[|media|];
      && m.position == |media| && m.placeholder == r.placeholder
      && m.mediaType == mediaType && m.url == url && m.alt == alt && m.caption == ""
    ensures StartsWith(r.placeholder, Placeholder.Open + mediaType + "_" + mediaType + "_")
  {
    var id := MediaId(mediaType, now, nonce);
    var p := Placeholder.Generate(id, mediaType);
    var head := Placeholder.Open + mediaType + "_" + mediaType + "_";
    assert p == head + Dec(now) + "_" + nonce + Placeholder.Close;
    assert p[..|head|] == head;
    Inserted(p, media + [EditorMedia(mediaType, url, alt, "", p, |media|)])
  }

  /** Positions equal to indexes stay so after an insertion. */
  lemma InsertKeepsPositions(mediaType: string, url: string, alt: string, now: nat, nonce: string, media: seq<EditorMedia>)
    requires forall i :: 0 <= i < |media| ==> media[i].position == i
    ensures var r := InsertMedia(mediaType, url, alt, now, nonce, media).media;
      forall i :: 0 <= i < |r| ==> r[i].position == i
  {
    var r := InsertMedia(mediaType, url, alt, now, nonce, media).media;
    forall i | 0 <= i < |r| ensures r[i].position == i {
      if i < |media| { assert r[i] == r[..|media|][i]; }
    }
  }

  /** The placeholder does not parse back to the inserted type: the
      placeholder pattern's greedy type group takes everything up to the
      id's last `_`, so it reads the type, the type again and the clock,
      and only the random suffix as the id. */
  lemma InsertedPlaceholderParse(mediaType: string, url: string, alt: string, now: nat, nonce: string, media: seq<EditorMedia>)
    requires Placeholder.ValidType(mediaType) && Placeholder.ParsableId(nonce)
    ensures var p := InsertMedia(mediaType, url, alt, now, nonce, media).placeholder;
      Placeholder.Parse(p) == Some(Placeholder.Parsed(mediaType + "_" + mediaType + "_" + Dec(now), nonce))
  {
    var d := Dec(now);
    var a := mediaType + "_" + d;
    TypeAndClockAreWordChars(mediaType, now);
    Placeholder.UnderscoreInIdShiftsSplit(a, nonce, mediaType);
    assert MediaId(mediaType, now, nonce) == a + "_" + nonce;
    assert InsertMedia(mediaType, url, alt, now, nonce, media).placeholder == Placeholder.Generate(a + "_" + nonce, mediaType);
    DoubledType(mediaType, d);
  }

  lemma DoubledType(t: string, d: string)
    ensures t + "_" + (t + "_" + d) == t + "_" + t + "_" + d
  {
  }

  lemma TypeAndClockAreWordChars(mediaType: string, now: nat)
    requires AllWordChars(mediaType)
    ensures AllWordChars(mediaType + "_" + Dec(now))
  {
    var a := mediaType + "_" + Dec(now);
    var d := Dec(now);
    forall i | 0 <= i < |a| ensures IsWordChar(a[i]) {
      if i > |mediaType| { assert a[i] == d[i - |mediaType| - 1]; }
    }
  }


  // ---------------------------------------------------------------------
  // Tags
  // ---------------------------------------------------------------------

  /** Dropping the falsy strings: the non-empty entries, in order. */
  function KeepNonEmpty(s: seq<string>): (r: seq<string>)
    ensures |r| <= |s|
    ensures forall i :: 0 <= i < |r| ==> r[i] != "" && r[i] in s
    ensures (forall i :: 0 <= i < |s| ==> s[i] != "") ==> r == s
    ensures multiset(r)[""] == 0
    ensures forall x :: x != "" ==> multiset(r)[x] == multiset(s)[x]
  {
    if |s| == 0 then []
    else
      assert s == [s[0]] + s[1..];
      if s[0] == "" then KeepNonEmpty(s[1..])
      else [s[0]] + KeepNonEmpty(s[1..])
  }

  /** Filtering a concatenation filters each part, keeping their order. */
  lemma {:induction false} KeepNonEmptyAppend(s: seq<string>, t: seq<string>)
    ensures KeepNonEmpty(s + t) == KeepNonEmpty(s) + KeepNonEmpty(t)
    decreases |s|
  {
    if |s| == 0 {
      assert s + t == t;
    } else {
      assert (s + t)[0] == s[0] && (s + t)[1..] == s[1..] + t;
      KeepNonEmptyAppend(s[1..], t);
    }
  }

  function TrimAll(s: seq<string>): (r: seq<string>)
    ensures |r| == |s| && forall i :: 0 <= i < |s| ==> r[i] == Trim(s[i])
  {
    seq(|s|, i requires 0 <= i < |s| => Trim(s[i]))
  }

  /** A trimmed piece of a comma split is trimmed and free of commas. */
  lemma TrimmedPieceClean(p: string)
    requires ',' !in p
    ensures Trim(Trim(p)) == Trim(p) && ',' !in Trim(p)
  {
    TrimIdempotent(p);
    TrimKeepsAbsent(p, ',');
  }

  lemma TrimmedPiecesClean(pieces: seq<string>)
    requires forall k :: 0 <= k < |pieces| ==> ',' !in pieces[k]
    ensures forall t :: t in TrimAll(pieces) ==> Trim(t) == t && ',' !in t
  {
    var trimmed := TrimAll(pieces);
    forall t | t in trimmed ensures Trim(t) == t && ',' !in t {
      var k :| 0 <= k < |trimmed| && trimmed[k] == t;
      TrimmedPieceClean(pieces[k]);
    }
  }

  /** The tag field split on commas, each piece trimmed, empty ones dropped:
      the tags are non-empty, trimmed and free of commas, at most one per
      piece. */
  function EditorTags(text: string): (r: seq<string>)
    ensures |r| <= |SplitOn(text, ',')|
    ensures forall i :: 0 <= i < |r| ==> CleanTag(r[i])
    ensures forall x :: x != "" ==> multiset(r)[x] == multiset(TrimAll(SplitOn(text, ',')))[x]
  {
    var pieces := SplitOn(text, ',');
    TrimmedPiecesClean(pieces);
    KeepNonEmpty(TrimAll(pieces))
  }

  /** The first comma-separated piece gives the first tag (when it is not
      blank), ahead of the tags of the rest of the field. */
  lemma EditorTagsCons(a: string, b: string)
    requires ',' !in a
    ensures EditorTags(a + "," + b) == (if Trim(a) == "" then [] else [Trim(a)]) + EditorTags(b)
  {
    var pieces := SplitOn(b, ',');
    SplitOnFirst(a, b, ',');
    TrimAllCons(a, pieces);
    KeepNonEmptyAppend([Trim(a)], TrimAll(pieces));
    KeepNonEmptySingle(Trim(a));
  }

  lemma TrimAllCons(a: string, pieces: seq<string>)
    ensures TrimAll([a] + pieces) == [Trim(a)] + TrimAll(pieces)
  {
    var l, r := TrimAll([a] + pieces), [Trim(a)] + TrimAll(pieces);
    assert |l| == |r|;
    forall i | 0 <= i < |l| ensures l[i] == r[i] {
      if i > 0 { assert ([a] + pieces)[i] == pieces[i - 1]; }
    }
  }

  lemma KeepNonEmptySingle(t: string)
    ensures KeepNonEmpty([t]) == if t == "" then [] else [t]
  {
    assert [t][1..] == [];
  }

  /** Joining with a separator string. */
  function JoinWith(parts: seq<string>, sep: string): string {
    if |parts| == 0 then ""
    else if |parts| == 1 then parts[0]
    else parts[0] + sep + JoinWith(parts[1..], sep)
  }

  /** A tag as the form shows it: non-empty, trimmed, no comma. */
  predicate CleanTag(t: string) {
    t != "" && Trim(t) == t && ',' !in t
  }

  /** The pieces `", "`-joined tags split into on commas: every tag after
      the first keeps the space in front of it. */
  function Spaced(tags: seq<string>): (r: seq<string>)
    ensures |r| == |tags|
    ensures |tags| > 0 ==> r[0] == tags[0]
    ensures forall i :: 0 < i < |tags| ==> r[i] == " " + tags[i]
  {
    if |tags| == 0 then [] else [tags[0]] + seq(|tags| - 1, i requires 0 <= i < |tags| - 1 => " " + tags[i + 1])
  }

  lemma {:induction false} JoinWithIsJoinSpaced(tags: seq<string>)
    ensures JoinWith(tags, ", ") == Join(Spaced(tags), ',')
    decreases |tags|
  {
    if |tags| >= 2 {
      var rest := tags[1..];
      JoinWithIsJoinSpaced(rest);
      var sp := Spaced(rest);
      JoinConsHead(' ', sp, ',');
      assert [[' '] + sp[0]] + sp[1..] == Spaced(tags)[1..];
    }
  }

  /** A clean tag with a space in front trims back to itself. */
  lemma TrimSpacedTag(t: string)
    requires CleanTag(t)
    ensures Trim(" " + t) == t
  {
    assert (" " + t)[1..] == t;
    assert TrimStart(" " + t) == TrimStart(t);
  }

  /** The `", "` join of clean tags splits on commas into the spaced tags. */
  lemma SplitJoinedTags(tags: seq<string>)
    requires |tags| > 0
    requires forall i :: 0 <= i < |tags| ==> CleanTag(tags[i])
    ensures SplitOn(JoinWith(tags, ", "), ',') == Spaced(tags)
  {
    JoinWithIsJoinSpaced(tags);
    forall i | 0 <= i < |tags| ensures ',' !in tags[i] {
      assert CleanTag(tags[i]);
    }
    SpacedCommaFree(tags);
    SplitJoin(Spaced(tags), ',');
  }

  lemma SpacedCommaFree(tags: seq<string>)
    requires forall i :: 0 <= i < |tags| ==> ',' !in tags[i]
    ensures forall k :: 0 <= k < |Spaced(tags)| ==> ',' !in Spaced(tags)[k]
  {
    var sp := Spaced(tags);
    forall k | 0 <= k < |sp| ensures ',' !in sp[k] {
      if k > 0 { assert sp[k] == " " + tags[k]; }
    }
  }

  lemma TrimSpaced(tags: seq<string>)
    requires forall i :: 0 <= i < |tags| ==> CleanTag(tags[i])
    ensures TrimAll(Spaced(tags)) == tags
  {
    var sp := Spaced(tags);
    var t := TrimAll(sp);
    forall k | 0 <= k < |sp| ensures t[k] == tags[k] {
      if k > 0 {
        TrimSpacedTag(tags[k]);
      } else {
        TrimOfTrimmed(tags[0]);
      }
    }
  }

  /** Loading a post puts its tags in the form joined with `", "`; saving
      splits them again. For clean tags this gives back the same tags. */
  lemma EditorTagsRoundTrip(tags: seq<string>)
    requires forall i :: 0 <= i < |tags| ==> CleanTag(tags[i])
    ensures EditorTags(JoinWith(tags, ", ")) == tags
  {
    if |tags| == 0 {
      assert JoinWith(tags, ", ") == "";
      EditorTagsOfEmpty();
    } else {
      EditorTagsOfJoined(tags);
    }
  }

  lemma EditorTagsOfJoined(tags: seq<string>)
    requires |tags| > 0
    requires forall i :: 0 <= i < |tags| ==> CleanTag(tags[i])
    ensures EditorTags(JoinWith(tags, ", ")) == tags
  {
    var text := JoinWith(tags, ", ");
    var pieces := SplitOn(text, ',');
    SplitJoinedTags(tags);
    assert pieces == Spaced(tags);
    TrimSpaced(tags);
    assert TrimAll(pieces) == tags;
    assert forall i :: 0 <= i < |tags| ==> tags[i] != "";
    assert KeepNonEmpty(tags) == tags;
    assert EditorTags(text) == KeepNonEmpty(TrimAll(pieces));
  }


  /** An empty tag field saves no tags. */
  lemma EditorTagsOfEmpty()
    ensures EditorTags("") == []
  {
    var pieces := SplitOn("", ',');
    assert pieces == [""];
    assert TrimAll(pieces) == [""];
  }



  // ---------------------------------------------------------------------
  // Saving
  // ---------------------------------------------------------------------

  /** The media sent on save: one entry per item, at its index, with the
      type defaulting to `image`. The placeholder is not sent. */
  function SaveMedia(media: seq<EditorMedia>): (r: seq<BlogsCreate.RawMedia>)
    ensures |r| == |media|
    ensures forall i :: 0 <= i < |r| ==>
      && r[i].position == i && r[i].mediaType != ""
      && (media[i].mediaType != "" ==> r[i].mediaType == media[i].mediaType)
      && (media[i].mediaType == "" ==> r[i].mediaType == "image")
      && r[i].url == media[i].url && r[i].alt == media[i].alt && r[i].caption == media[i].caption
  {
    seq(|media|, i requires 0 <= i < |media| =>
      BlogsCreate.RawMedia(BlogsCreate.Or(media[i].mediaType, DefaultMediaType), media[i].url, media[i].alt, media[i].caption, i))
  }

  /** `handleSave`: refused when the trimmed title or the trimmed content
      is empty; otherwise the body sent to the server. */
  function Save(form: Form, publish: bool): (r: Option<BlogsCreate.CreateRequest>)
    ensures r.None? <==> AllWs(form.title) || AllWs(form.content)
    ensures r.Some? ==> var q := r.value;
      && q.title == Trim(form.title) && q.title != ""
      && q.content == form.content && q.rawContent == form.content
      && q.category == form.category
      && q.published == publish
      && q.coverImage == Trim(form.coverImage) && q.excerpt == Trim(form.excerpt)
      && q.seoTitle != ""
      && (AllWs(form.seoTitle) ==> q.seoTitle == q.title)
      && (!AllWs(form.seoTitle) ==> q.seoTitle == Trim(form.seoTitle))
      && (AllWs(form.seoDescription) ==> q.seoDescription == q.excerpt)
      && (!AllWs(form.seoDescription) ==> q.seoDescription == Trim(form.seoDescription))
      && q.tags == BlogsCreate.TagArray(EditorTags(form.tags))
      && q.media == BlogsCreate.MediaArray(SaveMedia(form.media))
  {
    var title := Trim(form.title);
    if title == "" || Trim(form.content) == "" then None
    else
      var excerpt := Trim(form.excerpt);
      Some(BlogsCreate.CreateRequest(
        title := title,
        content := form.content,
        rawContent := form.content,
        media := BlogsCreate.MediaArray(SaveMedia(form.media)),
        category := form.category,
        tags := BlogsCreate.TagArray(EditorTags(form.tags)),
        coverImage := Trim(form.coverImage),
        published := publish,
        excerpt := excerpt,
        seoTitle := BlogsCreate.Or(Trim(form.seoTitle), title),
        seoDescription := BlogsCreate.Or(Trim(form.seoDescription), excerpt)))
  }

  /** A body the editor sends with a category chosen is never refused for
      a missing field. */
  lemma SavedBodyHasRequiredFields(form: Form, publish: bool, store: seq<Post>, now: int)
    requires Save(form, publish).Some? && form.category != ""
    ensures BlogsCreate.Create(Save(form, publish).value, store, now).response != BlogsCreate.BadRequest(BlogsCreate.RequiredMessage)
  {
    var q := Save(form, publish).value;
    assert q.content != "" by {
      if q.content == "" { assert AllWs(form.content); }
    }
    BlogsCreate.CreateBadRequest(q, store, now);
  }

  /** When the server stores the post, its tags are exactly the editor's
      tags and every media entry sits at its index in the list. */
  lemma SavedPostKeepsTagsAndPositions(form: Form, publish: bool, store: seq<Post>, now: int)
    requires Save(form, publish).Some?
    requires BlogsCreate.Create(Save(form, publish).value, store, now).response.Created?
    ensures var p := BlogsCreate.Create(Save(form, publish).value, store, now).response.post;
      && p.tags == EditorTags(form.tags)
      && |p.media| == |form.media|
      && forall i :: 0 <= i < |p.media| ==> p.media[i].position == i
  {
    var q := Save(form, publish).value;
    BlogsCreate.CreatedPostIsDocument(q, store, now);
    var f := BlogsCreate.DocumentFields(q, BlogsCreate.UniqueSlug(Utils.GenerateSlug(q.title), store), now);
    var p := BlogsCreate.Create(q, store, now).response.post;
    NewDocumentSetters(f);
    var tags := EditorTags(form.tags);
    assert f.tags == tags;
    forall i | 0 <= i < |tags| ensures p.tags[i] == tags[i] {
      assert p.tags[i] == Trim(tags[i]);
    }
    NewDocumentMedia(f);
    var ms := BlogsCreate.ProcessMedia(q.media);
    assert f.media == ms;
    forall i | 0 <= i < |p.media| ensures p.media[i].position == i {
      assert ms[i] == BlogsCreate.ProcessItem(SaveMedia(form.media)[i], i);
    }
  }
}

=== FILE: listing.dfy ===
/** `GET /api/blogs` of `app/api/blogs/route.ts`: filter the stored posts,
    sort them, and return one page. The database query is modelled over
    the sequence of stored posts. */
module BlogsList {
  import opened Wrappers
  import opened Text
  import opened Numbers
  import opened Blog
  import opened Sorting

  /** The `sort` parameter: `oldest`, `popular`, and `newest` for anything
      else, the absent parameter included. */
  datatype SortOrder = Oldest | Popular | Newest

  function ParseSort(s: string): (r: SortOrder)
    ensures r == Oldest <==> s == "oldest"
    ensures r == Popular <==> s == "popular"
  {
    if s == "oldest" then Oldest else if s == "popular" then Popular else Newest
  }

  /** Only the literal `false` lists unpublished posts too. */
  function PublishedOnly(param: Option<string>): (r: bool)
    ensures !r <==> param == Some("false")
  {
    param != Some("false")
  }

  /** The parsed query. `category` and `tag` are `""` when absent. */
  datatype ListQuery = ListQuery(
    category: string, tag: string, page: int, limit: int, sort: SortOrder, publishedOnly: bool)

  predicate Matches(q: ListQuery, p: Post) {
    && (!q.publishedOnly || p.published)
    && (q.category == "" || CategoryKey(p.category) == q.category)
    && (q.tag == "" || Trim(q.tag) in p.tags)
  }

  /** The tag parameter goes through the schema's `trim` setter of `tags`
      before it is compared: `?tag=%20react` finds the posts tagged
      `react`. */
  lemma QueryTagTrimmed(q: ListQuery, p: Post)
    requires q.tag == " react" && !q.publishedOnly && q.category == ""
    ensures Matches(q, p) <==> "react" in p.tags
  {
    var t := q.tag;
    assert IsWs(t[0]);
    TrimOfTrimmed(t[1..]);
    assert Trim(t) == Trim(t[1..]);
  }

  /** The posts the query selects, in store order. */
  function Select(q: ListQuery, store: seq<Post>): (r: seq<Post>)
    ensures |r| <= |store|
    ensures forall i :: 0 <= i < |r| ==> Matches(q, r[i]) && r[i] in store
    ensures forall i :: 0 <= i < |store| && Matches(q, store[i]) ==> store[i] in r
  {
    if |store| == 0 then []
    else if Matches(q, store[0]) then [store[0]] + Select(q, store[1..])
    else Select(q, store[1..])
  }

  /** Every matching post is selected as many times as the store holds it,
      every other post none. */
  lemma {:induction false} SelectCounts(q: ListQuery, store: seq<Post>)
    ensures forall p :: multiset(Select(q, store))[p] == if Matches(q, p) then multiset(store)[p] else 0
  {
    if |store| > 0 {
      SelectCounts(q, store[1..]);
      assert store == [store[0]] + store[1..];
    }
  }

  /** Selection keeps store order: selecting from a concatenation selects
      from each part. */
  lemma {:induction false} SelectAppend(q: ListQuery, s: seq<Post>, t: seq<Post>)
    ensures Select(q, s + t) == Select(q, s) + Select(q, t)
    decreases |s|
  {
    if |s| == 0 {
      assert s + t == t;
    } else {
      assert (s + t)[0] == s[0] && (s + t)[1..] == s[1..] + t;
      SelectAppend(q, s[1..], t);
    }
  }

  // ---------------------------------------------------------------------
  // Sorting
  // ---------------------------------------------------------------------

  /** Ascending order on a date that may be missing: a missing date sorts
      before every date. */
  predicate DateAtMost(a: Option<int>, b: Option<int>) {
    match (a, b)
    case (None, _) => true
    case (Some(_), None) => false
    case (Some(x), Some(y)) => x <= y
  }

  /** `a` may come before `b` in the order. */
  predicate Precedes(o: SortOrder, a: Post, b: Post) {
    match o
    case Oldest => DateAtMost(a.publishedAt, b.publishedAt)
    case Newest => DateAtMost(b.publishedAt, a.publishedAt)
    case Popular => a.views > b.views || (a.views == b.views && DateAtMost(b.publishedAt, a.publishedAt))
  }

  /** Any two posts are comparable. */
  lemma PrecedesTotal(o: SortOrder, a: Post, b: Post)
    ensures Precedes(o, a, b) || Precedes(o, b, a)
  {
  }

  /** Two posts are tied, each may come first, exactly when they agree on
      what the order looks at. */
  lemma PrecedesTies(o: SortOrder, a: Post, b: Post)
    ensures Precedes(o, a, b) && Precedes(o, b, a) <==>
      a.publishedAt == b.publishedAt && (o.Popular? ==> a.views == b.views)
  {
  }

  lemma PrecedesTransitive(o: SortOrder, a: Post, b: Post, c: Post)
    requires Precedes(o, a, b) && Precedes(o, b, c)
    ensures Precedes(o, a, c)
  {
  }

  function Order(o: SortOrder): (Post, Post) -> bool {
    (a, b) => Precedes(o, a, b)
  }

  lemma OrderIsPreorder(o: SortOrder)
    ensures Total(Order(o)) && Transitive(Order(o))
  {
    forall a, b ensures Order(o)(a, b) || Order(o)(b, a) {
      PrecedesTotal(o, a, b);
    }
    forall a, b, c | Order(o)(a, b) && Order(o)(b, c) ensures Order(o)(a, c) {
      PrecedesTransitive(o, a, b, c);
    }
  }

  /** Newest first: dates never increase along the list, and undated
      posts come after every dated one. */
  lemma NewestOrder(s: seq<Post>, i: nat, j: nat)
    requires SortedBy(Order(Newest), s) && i < j < |s|
    ensures s[i].publishedAt.None? ==> s[j].publishedAt.None?
    ensures s[i].publishedAt.Some? && s[j].publishedAt.Some? ==> s[i].publishedAt.value >= s[j].publishedAt.value
  {
    assert Order(Newest)(s[i], s[j]);
  }

  /** Oldest first: undated posts come first, then dates never decrease. */
  lemma OldestOrder(s: seq<Post>, i: nat, j: nat)
    requires SortedBy(Order(Oldest), s) && i < j < |s|
    ensures s[j].publishedAt.None? ==> s[i].publishedAt.None?
    ensures s[i].publishedAt.Some? && s[j].publishedAt.Some? ==> s[i].publishedAt.value <= s[j].publishedAt.value
  {
    assert Order(Oldest)(s[i], s[j]);
  }

  /** Most viewed first; equal view counts are ordered newest first. */
  lemma PopularOrder(s: seq<Post>, i: nat, j: nat)
    requires SortedBy(Order(Popular), s) && i < j < |s|
    ensures s[i].views >= s[j].views
    ensures s[i].views == s[j].views && s[i].publishedAt.Some? && s[j].publishedAt.Some? ==>
      s[i].publishedAt.value >= s[j].publishedAt.value
  {
    assert Order(Popular)(s[i], s[j]);
  }

  /** The sort the query asks for. Posts that compare equal keep their
      store order. */
  function SortPosts(o: SortOrder, s: seq<Post>): (r: seq<Post>)
    ensures multiset(r) == multiset(s)
    ensures SortedBy(Order(o), r)
  {
    OrderIsPreorder(o);
    InsertionSort(Order(o), s)
  }

  // ---------------------------------------------------------------------
  // Paging
  // ---------------------------------------------------------------------

  /** `.skip(skip).limit(limit)` on a sorted result; a limit of zero means
      no limit and a negative one is taken by its magnitude. */
  function Window(s: seq<Post>, skip: nat, limit: int): (r: seq<Post>)
    ensures limit != 0 ==> |r| <= if limit > 0 then limit else -limit
    ensures skip >= |s| ==> r == []
    ensures forall i :: 0 <= i < |r| ==> skip + i < |s| && r[i] == s[skip + i]
  {
    var from := if skip <= |s| then skip else |s|;
    var count := if limit == 0 then |s| else if limit > 0 then limit else -limit;
    var to := if from + count <= |s| then from + count else |s|;
    s[from..to]
  }

  /** `Math.ceil(total / limit)`; `None` for the division by zero that
      gives `Infinity` or `NaN`. */
  function TotalPages(total: nat, limit: int): (r: Option<int>)
    ensures limit > 0 ==> r.Some? && (r.value - 1) * limit < total <= r.value * limit
    ensures limit == 0 <==> r.None?
  {
    if limit > 0 then Some(CeilDiv(total, limit))
    else if limit < 0 then Some(-(total / -limit))
    else None
  }

  datatype ListResponse =
    | Listed(blogs: seq<Post>, total: nat, page: int, totalPages: Option<int>)
    | FetchFailed  // a negative skip, refused by the database

  /** The number of posts before the requested page. */
  function Skip(q: ListQuery): (r: int)
    ensures r < 0 <==> (q.page < 1 && q.limit > 0) || (q.page > 1 && q.limit < 0)
    ensures q.page == 1 ==> r == 0
  {
    (q.page - 1) * q.limit
  }

  /** `GET /api/blogs`. */
  function List(q: ListQuery, store: seq<Post>): (r: ListResponse)
    ensures r.FetchFailed? <==> Skip(q) < 0
    ensures r.Listed? ==> r.page == q.page && r.total == |Select(q, store)|
  {
    var skip := Skip(q);
    if skip < 0 then FetchFailed
    else
      var selected := Select(q, store);
      Listed(Window(SortPosts(q.sort, selected), skip, q.limit), |selected|, q.page, TotalPages(|selected|, q.limit))
  }

  /** A window of a sorted list is sorted. */
  lemma WindowSorted(o: SortOrder, s: seq<Post>, skip: nat, limit: int)
    requires SortedBy(Order(o), s)
    ensures SortedBy(Order(o), Window(s, skip, limit))
  {
    var w := Window(s, skip, limit);
    forall i, j | 0 <= i < j < |w| ensures Order(o)(w[i], w[j]) {
      assert w[i] == s[skip + i] && w[j] == s[skip + j];
    }
  }

  /** Every post of a window of a list is in the list. */
  lemma WindowMembers(s: seq<Post>, skip: nat, limit: int)
    ensures forall i :: 0 <= i < |Window(s, skip, limit)| ==> Window(s, skip, limit)[i] in s
  {
    var w := Window(s, skip, limit);
    forall i | 0 <= i < |w| ensures w[i] in s {
      assert w[i] == s[skip + i];
    }
  }

  /** A window of any ordering of the selection holds only selected posts. */
  lemma WindowOfSelection(q: ListQuery, store: seq<Post>, sorted: seq<Post>, skip: nat, limit: int)
    requires multiset(sorted) == multiset(Select(q, store))
    ensures forall i :: 0 <= i < |Window(sorted, skip, limit)| ==>
      Matches(q, Window(sorted, skip, limit)[i]) && Window(sorted, skip, limit)[i] in store
  {
    var selected := Select(q, store);
    var w := Window(sorted, skip, limit);
    WindowMembers(sorted, skip, limit);
    forall i | 0 <= i < |w| ensures Matches(q, w[i]) && w[i] in store {
      assert w[i] in multiset(sorted);
      assert w[i] in multiset(selected);
      assert w[i] in selected;
    }
  }

  /** Every listed post is stored, matches the query, and the page is in
      the requested order and no longer than the limit. */
  lemma ListedPostsMatch(q: ListQuery, store: seq<Post>)
    requires List(q, store).Listed?
    ensures var r := List(q, store);
      && (forall i :: 0 <= i < |r.blogs| ==> Matches(q, r.blogs[i]) && r.blogs[i] in store)
      && SortedBy(Order(q.sort), r.blogs)
      && (q.limit > 0 ==> |r.blogs| <= q.limit)
  {
    var selected := Select(q, store);
    var sorted := SortPosts(q.sort, selected);
    var skip: nat := Skip(q);
    assert List(q, store).blogs == Window(sorted, skip, q.limit);
    WindowSorted(q.sort, sorted, skip, q.limit);
    WindowOfSelection(q, store, sorted, skip, q.limit);
  }

  /** With the default `published` parameter no draft is ever listed. */
  lemma DraftsHidden(q: ListQuery, store: seq<Post>)
    requires q.publishedOnly && List(q, store).Listed?
    ensures forall i :: 0 <= i < |List(q, store).blogs| ==> List(q, store).blogs[i].published
  {
    ListedPostsMatch(q, store);
  }

  /** The pages `1 … k` of a sorted result, one after the other. */
  function Pages(s: seq<Post>, limit: nat, k: nat): seq<Post>
    requires limit > 0
  {
    if k == 0 then [] else Pages(s, limit, k - 1) + Window(s, (k - 1) * limit, limit)
  }

  /** The first `k` pages are the first `k * limit` posts. */
  lemma {:induction false} PagesArePrefix(s: seq<Post>, limit: nat, k: nat)
    requires limit > 0
    ensures Pages(s, limit, k) == s[..if k * limit <= |s| then k * limit else |s|]
  {
    if k > 0 {
      PagesArePrefix(s, limit, k - 1);
      MulSucc(limit, k - 1);
      MulMonotone(0, k - 1, limit);
      PrefixThenWindow(s, (k - 1) * limit, limit);
    }
  }

  /** The window after the first `x` posts continues that prefix. */
  lemma PrefixThenWindow(s: seq<Post>, x: nat, limit: nat)
    requires limit > 0
    ensures s[..if x <= |s| then x else |s|] + Window(s, x, limit)
         == s[..if x + limit <= |s| then x + limit else |s|]
  {
    var a := if x <= |s| then x else |s|;
    var b := if x + limit <= |s| then x + limit else |s|;
    assert Window(s, x, limit) == s[a..b];
    assert s[..a] + s[a..b] == s[..b];
  }

  /** Walking through the pages `1 … totalPages` lists every selected post
      exactly once, in order, and any later page is empty. */
  lemma PagesCoverAll(s: seq<Post>, limit: nat, page: int)
    requires limit > 0
    ensures Pages(s, limit, TotalPages(|s|, limit).value) == s
    ensures page > TotalPages(|s|, limit).value ==> Window(s, (page - 1) * limit, limit) == []
  {
    var n := TotalPages(|s|, limit).value;
    assert |s| <= n * limit;
    PagesArePrefix(s, limit, n);
    assert s[..|s|] == s;
    if page > n {
      MulMonotone(n, page - 1, limit);
      assert |s| <= (page - 1) * limit;
    }
  }
}

=== FILE: numbers.dfy ===
/** The integer arithmetic behind JavaScript's `Math.ceil`, `Math.round`
    and the decimal rendering of a counter in a template literal. */
module Numbers {
  import opened Text

  /** `Math.ceil(a / b)` for a positive divisor: the least integer `r` with
      `a <= r * b`. */
  function CeilDiv(a: int, b: int): (r: int)
    requires b > 0
    ensures (r - 1) * b < a <= r * b
  {
    var q := (a + b - 1) / b;
    assert q * b <= a + b - 1 < q * b + b;
    q
  }

  lemma CeilDivMonotone(a: int, a': int, b: int)
    requires b > 0 && a <= a'
    ensures CeilDiv(a, b) <= CeilDiv(a', b)
  {
    var r, r' := CeilDiv(a, b), CeilDiv(a', b);
    if r > r' {
      assert (r - 1) * b >= r' * b by {
        assert r - 1 >= r';
        MulMonotone(r', r - 1, b);
      }
    }
  }

  lemma MulMonotone(x: int, y: int, b: int)
    requires x <= y && b > 0
    ensures x * b <= y * b
  {
  }

  lemma MulSucc(a: nat, n: nat)
    ensures a * (n + 1) == a * n + a
    ensures (n + 1) * a == n * a + a
  {
  }

  /** `Math.round(a / b)` for a non-negative ratio: the nearest integer to
      `a / b`, halves rounded up. */
  function RoundDiv(a: nat, b: nat): (r: nat)
    requires b > 0
    ensures (2 * r - 1) * b <= 2 * a < (2 * r + 1) * b
  {
    var q := (2 * a + b) / (2 * b);
    assert q * (2 * b) <= 2 * a + b < q * (2 * b) + 2 * b;
    q
  }

  /** The rounding bound with the product `r * b` multiplied out. */
  lemma RoundDivProduct(a: nat, b: nat)
    requires b > 0
    ensures var rb := RoundDiv(a, b) * b; 2 * rb - b <= 2 * a < 2 * rb + b
  {
    var r := RoundDiv(a, b);
    assert (2 * r - 1) * b == 2 * (r * b) - b;
    assert (2 * r + 1) * b == 2 * (r * b) + b;
  }

  /** A ratio of at most one rounds to at most one. */
  lemma RoundDivAtMostOne(a: nat, b: nat)
    requires b > 0 && a <= b
    ensures RoundDiv(a, b) <= 1
  {
    var r := RoundDiv(a, b);
    if r >= 2 {
      MulMonotone(3, 2 * r - 1, b);
    }
  }

  function DigitChar(d: nat): (c: char)
    requires d < 10
    ensures IsDigit(c) && c as int - '0' as int == d
  {
    ('0' as int + d) as char
  }

  /** The decimal rendering of a natural number, as a template literal
      prints it. */
  function Dec(n: nat): (r: string)
    ensures |r| >= 1 && AllDigits(r)
    ensures |r| > 1 ==> r[0] != '0'
  {
    if n < 10 then [DigitChar(n)] else Dec(n / 10) + [DigitChar(n % 10)]
  }

  /** The value of a string of decimal digits. */
  function DecValue(s: string): nat
    requires AllDigits(s)
  {
    if |s| == 0 then 0 else DecValue(s[..|s| - 1]) * 10 + (s[|s| - 1] as int - '0' as int)
  }

  /** Reading back a rendered number gives the number. */
  lemma {:induction false} DecRoundTrip(n: nat)
    ensures DecValue(Dec(n)) == n
  {
    if n >= 10 {
      DecRoundTrip(n / 10);
      var s := Dec(n);
      assert s[..|s| - 1] == Dec(n / 10);
    }
  }

  /** Distinct numbers render as distinct strings. */
  lemma DecInjective(m: nat, n: nat)
    requires Dec(m) == Dec(n)
    ensures m == n
  {
    DecRoundTrip(m);
    DecRoundTrip(n);
  }
}

=== FILE: placeholder.dfy ===
/** The media placeholder micro-format `{{MEDIA:<type>_<id>}}`:
    `generateMediaPlaceholder` and `parseMediaPlaceholder`, defined
    identically in `lib/mediaProcessor.ts` and `lib/upload.ts`. */
module Placeholder {
  import opened Wrappers
  import opened Text

  const Open: string := "{{MEDIA:"
  const Close: string := "}}"
  const DefaultType: string := "image"

  /** The `{ type, id }` object a successful parse returns. */
  datatype Parsed = Parsed(mediaType: string, id: string)

  /** `generateMediaPlaceholder(mediaId, type)`. */
  function Generate(id: string, mediaType: string): (r: string)
    ensures |r| == |Open| + |mediaType| + 1 + |id| + |Close|
    ensures StartsWith(r, Open) && r[|r| - |Close|..] == Close
    ensures r[|Open|..|Open| + |mediaType|] == mediaType && r[|Open| + |mediaType|] == '_'
    ensures r[|Open| + |mediaType| + 1..|r| - |Close|] == id
  {
    Open + mediaType + "_" + id + Close
  }

  /** `generateMediaPlaceholder(mediaId)` with the type left at its default. */
  function GenerateDefault(id: string): (r: string)
    ensures |r| == |Open| + |DefaultType| + 1 + |id| + |Close|
    ensures StartsWith(r, "{{MEDIA:image_") && r[|r| - |Close|..] == Close
    ensures r[|Open| + |DefaultType| + 1..|r| - |Close|] == id
  {
    Generate(id, DefaultType)
  }

  // ---------------------------------------------------------------------
  // The regular expression /\{\{MEDIA:(\w+)_([^}]+)\}\}/ without flags:
  // the leftmost start position at which the pattern matches wins; at that
  // position the greedy `\w+` first takes the longest run of word
  // characters and gives characters back one at a time until a `_`
  // follows and the rest of the pattern matches.
  // ---------------------------------------------------------------------

  /** How far the greedy `\w+` reaches before backtracking. */
  function WordRunEnd(s: string, from: nat): (r: nat)
    requires from <= |s|
    ensures from <= r <= |s|
    ensures forall i :: from <= i < r ==> IsWordChar(s[i])
    ensures r < |s| ==> !IsWordChar(s[r])
  {
    RunEnd(s, from, IsWordChar)
  }

  predicate NotBrace(c: char) { c != '}' }

  /** The index of the first `}` at or after `from`, or `|s|`: how far the
      greedy `[^}]+` reaches. */
  function BraceFreeEnd(s: string, from: nat): (r: nat)
    requires from <= |s|
    ensures from <= r <= |s|
    ensures forall i :: from <= i < r ==> s[i] != '}'
    ensures r < |s| ==> s[r] == '}'
  {
    RunEnd(s, from, NotBrace)
  }

  /** `([^}]+)\}\}` at `q`: the end of the id group when it matches. Only
      the greedy choice can be followed by `}`: a shorter group would be
      followed by a character that is not `}`. */
  function MatchIdAndClose(s: string, q: nat): (r: Option<nat>)
    requires q <= |s|
    ensures r.Some? ==> q < r.value <= |s| && OccursAt(s, Close, r.value)
    ensures r.Some? ==> forall i :: q <= i < r.value ==> s[i] != '}'
  {
    var f := BraceFreeEnd(s, q);
    if f > q && OccursAt(s, Close, f) then Some(f) else None
  }

  /** Backtracking of the type group `(\w+)` that starts at `p`: its end
      is tried at `k`, then `k - 1`, … down to `p + 1`. */
  function TrySplit(s: string, p: nat, k: nat): (r: Option<Parsed>)
    requires p <= k <= |s|
    decreases k
  {
    if k <= p then None
    else if k < |s| && s[k] == '_' && MatchIdAndClose(s, k + 1).Some? then
      Some(Parsed(s[p..k], s[k + 1..MatchIdAndClose(s, k + 1).value]))
    else TrySplit(s, p, k - 1)
  }

  /** The pattern anchored at index `i`. */
  function MatchAt(s: string, i: nat): Option<Parsed>
  {
    if OccursAt(s, Open, i) then TrySplit(s, i + |Open|, WordRunEnd(s, i + |Open|)) else None
  }

  /** `parseMediaPlaceholder`: the groups of the leftmost match anywhere in
      `s`, or `None` (the source's `null`) when the pattern matches nowhere. */
  function Parse(s: string): (r: Option<Parsed>)
    ensures r.Some? ==> exists j :: 0 <= j <= |s| && MatchAt(s, j) == r && forall m :: 0 <= m < j ==> MatchAt(s, m).None?
    ensures r.None? <==> forall j :: 0 <= j <= |s| ==> MatchAt(s, j).None?
  {
    FirstMatchFrom(s, 0, MatchAt)
  }

  // ---------------------------------------------------------------------
  // Properties
  // ---------------------------------------------------------------------

  /** A type the `\w+` group can reproduce. */
  predicate ValidType(t: string) {
    |t| > 0 && AllWordChars(t)
  }

  /** An id that comes back unchanged from a parse. */
  predicate ParsableId(id: string) {
    |id| > 0 && '_' !in id && '}' !in id
  }

  /** Backtracking passes over every end position that is not followed by `_`. */
  lemma {:induction false} TrySplitSkips(s: string, p: nat, k: nat, k': nat)
    requires p <= k' <= k <= |s|
    requires forall j :: k' < j <= k && j < |s| ==> s[j] != '_'
    ensures TrySplit(s, p, k) == TrySplit(s, p, k')
    decreases k
  {
    if k > k' {
      TrySplitSkips(s, p, k - 1, k');
    }
  }

  /** `x` is spelled out in `s` from index `from` on. */
  predicate SpellsAt(s: string, from: nat, x: string) {
    from + |x| <= |s| && forall j :: from <= j < from + |x| ==> s[j] == x[j - from]
  }

  /** From `p` on, `s` holds the type, `_`, the id and the closing braces. */
  predicate TypeAndIdAt(s: string, p: nat, t: string, id: string) {
    var sep := p + |t|;
    && SpellsAt(s, p, t) && sep < |s| && s[sep] == '_'
    && SpellsAt(s, sep + 1, id) && OccursAt(s, Close, sep + 1 + |id|)
  }

  /** From `b` on, `s` is laid out as the placeholder of `t` and `id`. */
  predicate LaidOut(s: string, b: nat, id: string, t: string) {
    OccursAt(s, Open, b) && TypeAndIdAt(s, b + |Open|, t, id)
  }

  /** Where the parts of a generated placeholder sit inside it. */
  lemma GeneratedParts(id: string, t: string)
    ensures var g := Generate(id, t); var sep := |Open| + |t|;
      && |g| == sep + 1 + |id| + |Close|
      && g[..|Open|] == Open && g[|Open|..sep] == t && g[sep] == '_'
      && g[sep + 1..sep + 1 + |id|] == id && g[sep + 1 + |id|..] == Close
  {
  }

  /** Slices of `g` are slices of any text holding `g` at `b`. */
  lemma SliceOfInfix(s: string, b: nat, g: string, i: nat, j: nat)
    requires b + |g| <= |s| && s[b..b + |g|] == g && i <= j <= |g|
    ensures s[b + i..b + j] == g[i..j]
  {
    forall k | 0 <= k < j - i ensures s[b + i..b + j][k] == g[i..j][k] {
      assert s[b + i + k] == s[b..b + |g|][i + k];
    }
  }

  /** A slice is spelled out where it starts. */
  lemma SpellsAtSlice(s: string, from: nat, x: string)
    requires from + |x| <= |s| && s[from..from + |x|] == x
    ensures SpellsAt(s, from, x)
  {
    forall j | from <= j < from + |x| ensures s[j] == x[j - from] {
      assert s[j] == s[from..from + |x|][j - from];
    }
  }

  /** Where the parts of a generated placeholder sit inside a text. */
  lemma GeneratedLayout(x: string, id: string, t: string, rest: string)
    ensures LaidOut(x + Generate(id, t) + rest, |x|, id, t)
  {
    var g := Generate(id, t);
    var s := x + g + rest;
    var b := |x|;
    var sep := |Open| + |t|;
    GeneratedParts(id, t);
    assert s[b..b + |g|] == g;
    SliceOfInfix(s, b, g, 0, |Open|);
    SliceOfInfix(s, b, g, |Open|, sep);
    SliceOfInfix(s, b, g, sep + 1, sep + 1 + |id|);
    SliceOfInfix(s, b, g, sep + 1 + |id|, |g|);
    assert s[b + sep] == g[sep];
    SpellsAtSlice(s, b + |Open|, t);
    SpellsAtSlice(s, b + sep + 1, id);
  }

  /** The placeholder of a word-character type and an id without `_` and
      `}` matches at its own start with exactly that type and id, whatever
      follows it. */
  lemma MatchGenerated(x: string, id: string, t: string, rest: string)
    requires ValidType(t) && ParsableId(id)
    ensures MatchAt(x + Generate(id, t) + rest, |x|) == Some(Parsed(t, id))
  {
    GeneratedLayout(x, id, t, rest);
    MatchLaidOut(x + Generate(id, t) + rest, |x|, id, t);
  }

  /** The same, for any text laid out as a placeholder from index `b` on. */
  lemma MatchLaidOut(s: string, b: nat, id: string, t: string)
    requires ValidType(t) && ParsableId(id) && LaidOut(s, b, id, t)
    ensures MatchAt(s, b) == Some(Parsed(t, id))
  {
    var p := b + |Open|;
    TypeGroupBacktracks(s, p, t, id);
    TypeGroupSplits(s, p, t, id);
  }

  /** The type group of a laid-out placeholder runs past the separator,
      then backtracks to it. */
  lemma TypeGroupBacktracks(s: string, p: nat, t: string, id: string)
    requires ValidType(t) && ParsableId(id) && TypeAndIdAt(s, p, t, id)
    ensures TrySplit(s, p, WordRunEnd(s, p)) == TrySplit(s, p, p + |t|)
  {
    var e := WordRunEnd(s, p);
    WordRunOverType(s, p, t, id);
    BacktrackToSeparator(s, p, t, id, e);
  }

  /** From any end between the separator and the closing braces the type
      group backtracks to the separator: the id holds no `_`. */
  lemma BacktrackToSeparator(s: string, p: nat, t: string, id: string, e: nat)
    requires ParsableId(id) && TypeAndIdAt(s, p, t, id)
    requires p + |t| < e <= p + |t| + 1 + |id|
    ensures TrySplit(s, p, e) == TrySplit(s, p, p + |t|)
  {
    var sep := p + |t|;
    CloseAt(s, sep + 1 + |id|);
    NoUnderscoreInId(s, id, sep, e);
    TrySplitSkips(s, p, e, sep);
  }

  /** Split at the separator, a laid-out placeholder gives its type and id. */
  lemma TypeGroupSplits(s: string, p: nat, t: string, id: string)
    requires ValidType(t) && ParsableId(id) && TypeAndIdAt(s, p, t, id)
    ensures TrySplit(s, p, p + |t|) == Some(Parsed(t, id))
  {
    var sep := p + |t|;
    var close := sep + 1 + |id|;
    CloseAt(s, close);
    BraceFreeOverId(s, id, sep + 1);
    SliceIs(s, p, t);
    SliceIs(s, sep + 1, id);
    SplitAtSeparator(s, p, sep, close);
  }

  /** The closing `}}` begins with a `}`. */
  lemma CloseAt(s: string, i: nat)
    requires OccursAt(s, Close, i)
    ensures i < |s| && s[i] == '}'
  {
    assert s[i] == s[i..i + |Close|][0];
  }

  /** A spelled-out string is a slice. */
  lemma SliceIs(s: string, from: nat, x: string)
    requires SpellsAt(s, from, x)
    ensures s[from..from + |x|] == x
  {
  }

  /** An `_` at `sep` followed by a closed id ends the type group there. */
  lemma SplitAtSeparator(s: string, p: nat, sep: nat, close: nat)
    requires p < sep < close <= |s| && s[sep] == '_'
    requires MatchIdAndClose(s, sep + 1) == Some(close)
    ensures TrySplit(s, p, sep) == Some(Parsed(s[p..sep], s[sep + 1..close]))
  {
  }

  lemma NoUnderscoreInId(s: string, id: string, sep: nat, e: nat)
    requires '_' !in id && SpellsAt(s, sep + 1, id) && sep + 1 + |id| < |s| && s[sep + 1 + |id|] == '}'
    requires sep < e <= sep + 1 + |id|
    ensures forall j :: sep < j <= e && j < |s| ==> s[j] != '_'
  {
    forall j | sep < j <= e && j < |s| ensures s[j] != '_' {
      if j < sep + 1 + |id| { assert id[j - sep - 1] in id; }
    }
  }

  lemma WordRunOverType(s: string, p: nat, t: string, id: string)
    requires ValidType(t) && TypeAndIdAt(s, p, t, id)
    ensures p + |t| < WordRunEnd(s, p) <= p + |t| + 1 + |id|
  {
    var sep := p + |t|;
    var close := sep + 1 + |id|;
    CloseAt(s, close);
    var e := WordRunEnd(s, p);
    assert forall j :: p <= j < sep ==> IsWordChar(s[j]) by {
      forall j | p <= j < sep ensures IsWordChar(s[j]) {
        assert s[j] == t[j - p];
      }
    }
    assert e <= close by {
      assert !IsWordChar(s[close]);
    }
    assert e > sep by {
      assert IsWordChar(s[sep]);
    }
  }

  lemma BraceFreeOverId(s: string, id: string, q: nat)
    requires '}' !in id && SpellsAt(s, q, id) && q + |id| < |s| && s[q + |id|] == '}'
    ensures BraceFreeEnd(s, q) == q + |id|
  {
    assert forall j :: q <= j < q + |id| ==> s[j] != '}' by {
      forall j | q <= j < q + |id| ensures s[j] != '}' {
        assert id[j - q] in id;
      }
    }
  }

  /** Round trip: parsing a generated placeholder gives back its type and
      id, also when other text precedes it (the pattern is unanchored, so
      any text free of `{` may come first) or follows it. */
  lemma ParseGenerated(x: string, id: string, t: string, rest: string)
    requires ValidType(t) && ParsableId(id)
    requires '{' !in x
    ensures Parse(x + Generate(id, t) + rest) == Some(Parsed(t, id))
  {
    var s := x + Generate(id, t) + rest;
    MatchGenerated(x, id, t, rest);
    forall m | 0 <= m < |x| ensures s[m] != '{' {
      assert s[m] == x[m];
      assert x[m] in x;
    }
    OccursAtHead(s, Open);
    FirstMatchFromAt(s, 0, |x|, MatchAt);
  }

  lemma ParseGeneratedAlone(id: string, t: string)
    requires ValidType(t) && ParsableId(id)
    ensures Parse(Generate(id, t)) == Some(Parsed(t, id))
  {
    var g := Generate(id, t);
    ParseGenerated("", id, t, "");
    EmptyAround(g);
  }

  lemma EmptyAround(g: string)
    ensures "" + g + "" == g
  {
  }

  /** An id holding `_` is not returned whole: the greedy type group
      swallows everything up to the id's last `_`, so the type gets longer
      and the id shorter. */
  lemma UnderscoreInIdShiftsSplit(a: string, b: string, t: string)
    requires ValidType(t) && AllWordChars(a) && ParsableId(b)
    ensures Generate(a + "_" + b, t) == Generate(b, t + "_" + a)
    ensures Parse(Generate(a + "_" + b, t)) == Some(Parsed(t + "_" + a, b))
  {
    assert Generate(a + "_" + b, t) == Generate(b, t + "_" + a);
    assert ValidType(t + "_" + a);
    ParseGeneratedAlone(b, t + "_" + a);
  }

  /** The ids the editor produces hold underscores, so a placeholder such
      as `{{MEDIA:image_img_1_0}}` parses to type `image_img_1` and id `0`. */
  lemma UnderscoreExample()
    ensures Parse("{{MEDIA:image_img_1_0}}") == Some(Parsed("image_img_1", "0"))
  {
    var a, b, t := "img_1", "0", "image";
    assert ValidType(t) && AllWordChars(a) && ParsableId(b);
    UnderscoreInIdShiftsSplit(a, b, t);
    UnderscoreExampleSpelling();
  }

  lemma UnderscoreExampleSpelling()
    ensures Generate("img_1" + "_" + "0", "image") == "{{MEDIA:image_img_1_0}}"
    ensures "image" + "_" + "img_1" == "image_img_1"
  {
  }

  // ---------------------------------------------------------------------
  // Soundness: what a parse reports is spelled out in the text
  // ---------------------------------------------------------------------

  /** A successful split spells out its type, `_`, its id and `}}` from
      `p` on; the type is made of word characters and the id is non-empty
      and free of `}`. */
  lemma {:induction false} TrySplitSound(s: string, p: nat, k: nat)
    requires p <= k <= |s| && TrySplit(s, p, k).Some?
    requires forall i :: p <= i < k ==> IsWordChar(s[i])
    ensures var r := TrySplit(s, p, k).value;
      && TypeAndIdAt(s, p, r.mediaType, r.id)
      && ValidType(r.mediaType) && |r.id| > 0 && '}' !in r.id
    decreases k
  {
    if k < |s| && s[k] == '_' && MatchIdAndClose(s, k + 1).Some? {
      var c := MatchIdAndClose(s, k + 1).value;
      SplitSound(s, p, k, c);
    } else {
      TrySplitSound(s, p, k - 1);
    }
  }

  /** Splitting at `k` with the closing braces at `c`. */
  lemma SplitSound(s: string, p: nat, k: nat, c: nat)
    requires p < k && k + 1 < c <= |s| && s[k] == '_' && OccursAt(s, Close, c)
    requires forall i :: p <= i < k ==> IsWordChar(s[i])
    requires forall i :: k < i < c ==> s[i] != '}'
    ensures TypeAndIdAt(s, p, s[p..k], s[k + 1..c])
    ensures ValidType(s[p..k]) && |s[k + 1..c]| > 0 && '}' !in s[k + 1..c]
  {
    var t, id := s[p..k], s[k + 1..c];
    forall j | 0 <= j < |id| ensures id[j] != '}' {
      assert id[j] == s[k + 1 + j];
    }
    forall j | 0 <= j < |t| ensures IsWordChar(t[j]) {
      assert t[j] == s[p + j];
    }
    SpellsAtSlice(s, p, t);
    SpellsAtSlice(s, k + 1, id);
  }

  /** A match at `i` is a placeholder laid out from `i` on. */
  lemma MatchAtSound(s: string, i: nat)
    requires MatchAt(s, i).Some?
    ensures var r := MatchAt(s, i).value;
      && LaidOut(s, i, r.id, r.mediaType)
      && ValidType(r.mediaType) && |r.id| > 0 && '}' !in r.id
  {
    var p := i + |Open|;
    TrySplitSound(s, p, WordRunEnd(s, p));
  }

  /** Whatever `Parse` reports is the placeholder of that type and id,
      spelled out at the leftmost match in the text. */
  lemma ParseSound(s: string)
    requires Parse(s).Some?
    ensures var r := Parse(s).value;
      && ValidType(r.mediaType) && |r.id| > 0 && '}' !in r.id
      && exists j :: 0 <= j <= |s| && LaidOut(s, j, r.id, r.mediaType)
  {
    var j :| 0 <= j <= |s| && MatchAt(s, j) == Parse(s) && forall m :: 0 <= m < j ==> MatchAt(s, m).None?;
    MatchAtSound(s, j);
  }

  /** A text without the opening `{{MEDIA:` holds no placeholder. */
  lemma ParseNeedsOpen(s: string)
    requires forall j :: 0 <= j <= |s| ==> !OccursAt(s, Open, j)
    ensures Parse(s).None?
  {
  }
}

=== FILE: render.dfy ===
/** `renderMediaPlaceholders` of `lib/mediaProcessor.ts`: every listed
    media item's placeholder is replaced, first occurrence only, by an
    HTML fragment; video URLs of YouTube and Vimeo are rewritten to their
    embeddable form. */
module Render {
  import opened Wrappers
  import opened Text
  import Placeholder

  /** The `MediaItem` interface. `alt` and `caption` are `""` when absent;
      the type is the text stored with the item. */
  datatype MediaItem = MediaItem(
    id: string, mediaType: string, url: string, alt: string, caption: string,
    placeholder: string, position: int)

  // ---------------------------------------------------------------------
  // Video URL rewrite
  // ---------------------------------------------------------------------

  const YouTubeEmbedPrefix: string := "https://www.youtube.com/embed/"
  const VimeoPlayerPrefix: string := "https://player.vimeo.com/video/"
  const YouTubeIdLength: nat := 11

  /** The class `[^"&?\/\s]` of a YouTube video id. */
  predicate IsYouTubeIdChar(c: char) {
    c != '"' && c != '&' && c != '?' && c != '/' && !IsWs(c)
  }

  predicate NotSlash(c: char) { c != '/' }

  predicate NotLineTerminator(c: char) { !IsLineTerminator(c) }

  /** The group `([^"&?\/\s]{11})` at index `k`. */
  function YouTubeIdAt(s: string, k: nat): (r: Option<string>)
    ensures r.Some? ==> |r.value| == YouTubeIdLength
    ensures r.Some? <==> k + YouTubeIdLength <= |s| && forall j :: k <= j < k + YouTubeIdLength ==> IsYouTubeIdChar(s[j])
  {
    if k + YouTubeIdLength <= |s| && forall j :: k <= j < k + YouTubeIdLength ==> IsYouTubeIdChar(s[j])
    then Some(s[k..k + YouTubeIdLength]) else None
  }

  /** `\/` followed by the id group, at index `j`. */
  function SlashThenId(s: string, j: nat): (r: Option<string>)
    ensures r.Some? ==> |r.value| == YouTubeIdLength
  {
    if j < |s| && s[j] == '/' then YouTubeIdAt(s, j + 1) else None
  }

  /** `[?&]v=` followed by the id group, at index `j`. */
  function QueryThenId(s: string, j: nat): (r: Option<string>)
    ensures r.Some? ==> |r.value| == YouTubeIdLength
  {
    if j < |s| && (s[j] == '?' || s[j] == '&') && OccursAt(s, "v=", j + 1) then YouTubeIdAt(s, j + 3) else None
  }

  /** `[^\/]+\/.+\/(id)` after `youtube.com/`: the greedy `[^\/]+` must stop
      at the first `/`; the greedy `.+` runs to the end of the line and
      gives back characters until a `/` and an id follow. */
  function PathForm(s: string, q: nat): (r: Option<string>)
    requires q <= |s|
    ensures r.Some? ==> |r.value| == YouTubeIdLength
  {
    var m := RunEnd(s, q, NotSlash);
    if m == q || m == |s| then None
    else
      var lineEnd := RunEnd(s, m + 1, NotLineTerminator);
      LastMatchDown(s, m + 2, lineEnd, SlashThenId)
  }

  /** `(?:v|e(?:mbed)?)\/(id)` after `youtube.com/`. */
  function VersionForm(s: string, q: nat): (r: Option<string>)
    ensures r.Some? ==> |r.value| == YouTubeIdLength
  {
    if OccursAt(s, "v/", q) then YouTubeIdAt(s, q + 2)
    else if OccursAt(s, "embed/", q) then YouTubeIdAt(s, q + 6)
    else if OccursAt(s, "e/", q) then YouTubeIdAt(s, q + 2)
    else None
  }

  /** `.*[?&]v=(id)` after `youtube.com/`: the greedy `.*` makes the last
      `v=` parameter on the line win. */
  function QueryForm(s: string, q: nat): (r: Option<string>)
    requires q <= |s|
    ensures r.Some? ==> |r.value| == YouTubeIdLength
  {
    LastMatchDown(s, q, RunEnd(s, q, NotLineTerminator), QueryThenId)
  }

  /** The YouTube pattern anchored at `i`: `youtube.com/` followed by the
      path form, the `v/` or `e(mbed)/` form or the query form, in that
      order, or else `youtu.be/`; then the eleven-character id. */
  function YouTubeAt(s: string, i: nat): (r: Option<string>)
    ensures r.Some? ==> |r.value| == YouTubeIdLength
  {
    var viaDotCom :=
      if OccursAt(s, "youtube.com/", i) then
        var q := i + 12;
        var a := PathForm(s, q);
        if a.Some? then a
        else var b := VersionForm(s, q);
        if b.Some? then b else QueryForm(s, q)
      else None;
    if viaDotCom.Some? then viaDotCom
    else if OccursAt(s, "youtu.be/", i) then YouTubeIdAt(s, i + 9)
    else None
  }

  /** The pattern `vimeo\.com\/(\d+)` anchored at `i`. */
  function VimeoAt(s: string, i: nat): (r: Option<string>)
    ensures r.Some? ==> |r.value| > 0 && AllDigits(r.value)
  {
    if OccursAt(s, "vimeo.com/", i) then
      var e := RunEnd(s, i + 10, IsDigit);
      if e > i + 10 then Some(s[i + 10..e]) else None
    else None
  }

  /** The id the YouTube pattern captures at its leftmost match. */
  function YouTubeId(url: string): (r: Option<string>)
    ensures r.Some? ==> |r.value| == YouTubeIdLength
  {
    FirstMatchFrom(url, 0, YouTubeAt)
  }

  /** The digits the Vimeo pattern captures at its leftmost match. */
  function VimeoId(url: string): (r: Option<string>)
    ensures r.Some? ==> |r.value| > 0 && AllDigits(r.value)
  {
    FirstMatchFrom(url, 0, VimeoAt)
  }

  predicate IsYouTubeEmbed(r: string) {
    |r| == |YouTubeEmbedPrefix| + YouTubeIdLength && r[..|YouTubeEmbedPrefix|] == YouTubeEmbedPrefix
  }

  predicate IsVimeoPlayer(r: string) {
    |r| > |VimeoPlayerPrefix| && r[..|VimeoPlayerPrefix|] == VimeoPlayerPrefix && AllDigits(r[|VimeoPlayerPrefix|..])
  }

  /** The embed URL of a video item: a YouTube embed URL, a Vimeo player
      URL, or the item's own URL. */
  function EmbedUrl(url: string): (r: string)
    ensures r == url || IsYouTubeEmbed(r) || IsVimeoPlayer(r)
    ensures !Contains(url, "youtube.com") && !Contains(url, "youtu.be") && !Contains(url, "vimeo.com") ==> r == url
  {
    if Contains(url, "youtube.com") || Contains(url, "youtu.be") then
      match YouTubeId(url)
      case Some(id) => assert (YouTubeEmbedPrefix + id)[..|YouTubeEmbedPrefix|] == YouTubeEmbedPrefix; YouTubeEmbedPrefix + id
      case None => url
    else if Contains(url, "vimeo.com") then
      match VimeoId(url)
      case Some(d) =>
        assert (VimeoPlayerPrefix + d)[..|VimeoPlayerPrefix|] == VimeoPlayerPrefix;
        assert (VimeoPlayerPrefix + d)[|VimeoPlayerPrefix|..] == d;
        VimeoPlayerPrefix + d
      case None => url
    else url
  }

  /** No character of `s` is `c`. */
  predicate Lacks(s: string, c: char) {
    forall i :: 0 <= i < |s| ==> s[i] != c
  }

  /** Both YouTube alternatives begin with `y`. */
  lemma YouTubeAtNeedsY(s: string, i: nat)
    requires i < |s| && s[i] != 'y'
    ensures YouTubeAt(s, i).None?
  {
    OccursAtHead(s, "youtube.com/");
    OccursAtHead(s, "youtu.be/");
  }

  /** The Vimeo pattern begins with `v`. */
  lemma VimeoAtNeedsV(s: string, i: nat)
    requires i < |s| && s[i] != 'v'
    ensures VimeoAt(s, i).None?
  {
    OccursAtHead(s, "vimeo.com/");
  }

  /** A URL without `y` is never rewritten as a YouTube URL. */
  lemma NoYMeansNoYouTube(url: string)
    requires Lacks(url, 'y')
    ensures !Contains(url, "youtube.com") && !Contains(url, "youtu.be")
  {
    NotContainsFirstChar(url, "youtube.com");
    NotContainsFirstChar(url, "youtu.be");
  }

  /** The Vimeo pattern at the start of `vimeo.com/<digits>`. */
  lemma VimeoAtDigits(url: string, b: nat, d: string)
    requires |d| > 0 && AllDigits(d)
    requires b + 10 + |d| <= |url| && url[b..b + 10] == "vimeo.com/" && url[b + 10..b + 10 + |d|] == d
    requires b + 10 + |d| == |url| || !IsDigit(url[b + 10 + |d|])
    ensures VimeoAt(url, b) == Some(d)
  {
    assert OccursAt(url, "vimeo.com/", b);
    var e := RunEnd(url, b + 10, IsDigit);
    assert forall j :: b + 10 <= j < b + 10 + |d| ==> url[j] == d[j - b - 10];
    assert e == b + 10 + |d|;
  }

  /** A `vimeo.com/<digits>` URL becomes the player URL of those digits. */
  lemma VimeoRewrite(x: string, d: string, rest: string)
    requires |d| > 0 && AllDigits(d)
    requires Lacks(x, 'v') && Lacks(x, 'y') && Lacks(rest, 'y')
    requires |rest| == 0 || !IsDigit(rest[0])
    ensures EmbedUrl(x + "vimeo.com/" + d + rest) == VimeoPlayerPrefix + d
  {
    var url := x + "vimeo.com/" + d + rest;
    var b := |x|;
    assert Lacks(url, 'y') by {
      forall i | 0 <= i < |url| ensures url[i] != 'y' {
        if i < b { assert url[i] == x[i]; }
        else if i < b + 10 { assert url[i] == "vimeo.com/"[i - b]; }
        else if i < b + 10 + |d| { assert url[i] == d[i - b - 10]; }
        else { assert url[i] == rest[i - b - 10 - |d|]; }
      }
    }
    NoYMeansNoYouTube(url);
    assert url[b..b + 10] == "vimeo.com/";
    assert url[b..b + 9] == "vimeo.com";
    assert OccursAt(url, "vimeo.com", b);
    ContainsIff(url, "vimeo.com");
    assert url[b + 10..b + 10 + |d|] == d;
    if |rest| > 0 { assert url[b + 10 + |d|] == rest[0]; }
    VimeoAtDigits(url, b, d);
    forall m | 0 <= m < b ensures VimeoAt(url, m).None? {
      assert url[m] == x[m];
      VimeoAtNeedsV(url, m);
    }
    FirstMatchFromAt(url, 0, b, VimeoAt);
  }

  /** The `.*[?&]v=` alternative finds the id of a URL ending `?v=<id>`. */
  lemma QueryFormAtEnd(url: string, q: nat, id: string)
    requires |id| == YouTubeIdLength && forall i :: 0 <= i < |id| ==> IsYouTubeIdChar(id[i])
    requires q + 3 + |id| <= |url|
    requires url[|url| - |id| - 3..] == "?v=" + id
    requires forall j :: q <= j < |url| ==> !IsLineTerminator(url[j])
    ensures QueryForm(url, q) == Some(id)
  {
    var k := |url| - |id| - 3;
    var lineEnd := RunEnd(url, q, NotLineTerminator);
    assert lineEnd == |url|;
    assert forall j :: k <= j < |url| ==> url[j] == ("?v=" + id)[j - k];
    assert url[k] == '?';
    assert url[k + 1..k + 3] == "v=";
    assert OccursAt(url, "v=", k + 1);
    assert forall j :: k + 3 <= j < |url| ==> url[j] == id[j - k - 3];
    assert url[k + 3..k + 3 + YouTubeIdLength] == id;
    assert YouTubeIdAt(url, k + 3) == Some(id);
    assert QueryThenId(url, k) == Some(id);
    forall m | k < m <= |url| ensures QueryThenId(url, m).None? {
      if m < |url| {
        if m < k + 3 { assert url[m] == "?v="[m - k]; } else { assert url[m] == id[m - k - 3]; }
      }
    }
    LastMatchDownAt(url, q, lineEnd, k, QueryThenId);
  }

  /** `youtube.com/` followed by a slash-free query ending `?v=<id>`: only
      the third alternative of the pattern applies. */
  lemma YouTubeAtQuery(url: string, b: nat, id: string)
    requires |id| == YouTubeIdLength && forall i :: 0 <= i < |id| ==> IsYouTubeIdChar(id[i])
    requires b + 12 + 3 + |id| <= |url|
    requires url[b..b + 12] == "youtube.com/"
    requires url[b + 12] != 'v' && url[b + 12] != 'e'
    requires forall j :: b + 12 <= j < |url| ==> url[j] != '/' && !IsLineTerminator(url[j])
    requires url[|url| - |id| - 3..] == "?v=" + id
    ensures YouTubeAt(url, b) == Some(id)
  {
    var q := b + 12;
    assert OccursAt(url, "youtube.com/", b);
    assert RunEnd(url, q, NotSlash) == |url|;
    assert PathForm(url, q).None?;
    OccursAtHead(url, "v/");
    OccursAtHead(url, "embed/");
    OccursAtHead(url, "e/");
    assert VersionForm(url, q).None?;
    QueryFormAtEnd(url, q, id);
  }

  /** Without a `y` before `b` the YouTube pattern starts nowhere before `b`. */
  lemma NoYouTubeBefore(url: string, b: nat)
    requires b <= |url| && forall m :: 0 <= m < b ==> url[m] != 'y'
    ensures forall m :: 0 <= m < b ==> YouTubeAt(url, m).None?
  {
    forall m | 0 <= m < b ensures YouTubeAt(url, m).None? {
      YouTubeAtNeedsY(url, m);
    }
  }

  /** At the `y` of `youtube.com/watch?v=<id>` the pattern captures the id. */
  lemma YouTubeAtWatch(x: string, id: string)
    requires |id| == YouTubeIdLength && forall i :: 0 <= i < |id| ==> IsYouTubeIdChar(id[i])
    ensures YouTubeAt(x + "youtube.com/watch?v=" + id, |x|) == Some(id)
  {
    var host := "youtube.com/watch?v=";
    var url := x + host + id;
    var b := |x|;
    assert url[b..b + 12] == host[..12] == "youtube.com/";
    assert url[b + 12] == host[12] == 'w';
    assert forall j :: b + 12 <= j < b + |host| ==> url[j] == host[j - b];
    assert forall j :: b + |host| <= j < |url| ==> url[j] == id[j - b - |host|];
    assert url[|url| - |id| - 3..] == "?v=" + id;
    YouTubeAtQuery(url, b, id);
  }

  /** `<x>youtube.com/watch?v=<id>` with no `y` in `x`: the pattern matches
      at the `y` of `youtube.com` and captures the id. */
  lemma YouTubeIdOfWatch(x: string, id: string)
    requires |id| == YouTubeIdLength && forall i :: 0 <= i < |id| ==> IsYouTubeIdChar(id[i])
    requires Lacks(x, 'y')
    ensures YouTubeId(x + "youtube.com/watch?v=" + id) == Some(id)
  {
    var url := x + "youtube.com/watch?v=" + id;
    YouTubeAtWatch(x, id);
    assert forall m :: 0 <= m < |x| ==> url[m] == x[m];
    NoYouTubeBefore(url, |x|);
    FirstMatchFromAt(url, 0, |x|, YouTubeAt);
  }

  /** A `youtube.com/watch?v=<id>` URL (`https://www.` or any other lead-in
      without a `y`) becomes the embed URL of the id. */
  lemma YouTubeWatchRewrite(x: string, id: string)
    requires |id| == YouTubeIdLength && forall i :: 0 <= i < |id| ==> IsYouTubeIdChar(id[i])
    requires Lacks(x, 'y')
    ensures EmbedUrl(x + "youtube.com/watch?v=" + id) == YouTubeEmbedPrefix + id
  {
    var host := "youtube.com/watch?v=";
    var url := x + host + id;
    assert url[|x|..|x| + 11] == host[..11] == "youtube.com";
    assert OccursAt(url, "youtube.com", |x|);
    ContainsIff(url, "youtube.com");
    YouTubeIdOfWatch(x, id);
  }

  /** `https://youtu.be/<id>`: only the short-link alternative applies. */
  lemma YouTubeIdOfShortLink(id: string)
    requires |id| == YouTubeIdLength && forall i :: 0 <= i < |id| ==> IsYouTubeIdChar(id[i])
    ensures YouTubeId("https://youtu.be/" + id) == Some(id)
  {
    var url := "https://youtu.be/" + id;
    var b := 8;
    assert url[b..b + 9] == "youtu.be/";
    assert !OccursAt(url, "youtube.com/", b) by {
      assert url[b..b + 12][5] == url[13] == '.';
      assert "youtube.com/"[5] == 'b';
    }
    assert url[17..28] == id;
    assert forall j :: 17 <= j < 28 ==> url[j] == id[j - 17];
    assert YouTubeAt(url, b) == Some(id);
    forall m | 0 <= m < b ensures YouTubeAt(url, m).None? {
      YouTubeAtNeedsY(url, m);
    }
    FirstMatchFromAt(url, 0, b, YouTubeAt);
  }

  /** A `youtu.be/<id>` short link becomes the embed URL of the id. */
  lemma YouTuBeRewrite(id: string)
    requires |id| == YouTubeIdLength && forall i :: 0 <= i < |id| ==> IsYouTubeIdChar(id[i])
    ensures EmbedUrl("https://youtu.be/" + id) == YouTubeEmbedPrefix + id
  {
    var url := "https://youtu.be/" + id;
    assert url[8..16] == "youtu.be";
    assert OccursAt(url, "youtu.be", 8);
    ContainsIff(url, "youtu.be");
    YouTubeIdOfShortLink(id);
  }

  // ---------------------------------------------------------------------
  // HTML fragments
  // ---------------------------------------------------------------------

  const ImageHead: string := "\n          <figure class=\"my-6\">\n            <div class=\"relative rounded-lg overflow-hidden bg-gray-100 dark:bg-gray-800\">\n              <img \n                "
  const ImageBeforeAlt: string := " \n                alt=\""
  const ImageBeforeCaption: string := "\" \n                class=\"w-full h-auto max-h-[500px] object-contain\"\n                loading=\"lazy\"\n              />\n            </div>\n            "
  const ImageEnd: string := "\n          </figure>\n        "
  const FigcaptionOpen: string := "<figcaption class=\"text-center text-gray-600 dark:text-gray-400 mt-2 text-sm\">"
  const FigcaptionClose: string := "</figcaption>"

  const VideoHead: string := "\n          <div class=\"my-6 video-embed\">\n            <div class=\"aspect-video rounded-lg overflow-hidden\">\n              <iframe \n                "
  const VideoBeforeCaption: string := " \n                class=\"w-full h-full\"\n                allow=\"accelerometer; autoplay; clipboard-write; encrypted-media; gyroscope; picture-in-picture\"\n                allowfullscreen\n                frameborder=\"0\"\n              ></iframe>\n            </div>\n            "
  const VideoEnd: string := "\n          </div>\n        "
  const VideoCaptionOpen: string := "<p class=\"text-center text-gray-600 dark:text-gray-400 mt-2 text-sm\">"
  const VideoCaptionClose: string := "</p>"

  /** A caption element, or nothing when the caption is empty. */
  function CaptionHtml(caption: string, open: string, close: string): string {
    if caption != "" then open + caption + close else ""
  }

  /** The attribute `src="<url>"`. */
  function SrcAttr(url: string): string {
    "src=\"" + url + "\""
  }

  function ImageHtml(url: string, alt: string, caption: string): string {
    ImageHead + (SrcAttr(url) + (ImageBeforeAlt + alt + ImageBeforeCaption
    + CaptionHtml(caption, FigcaptionOpen, FigcaptionClose) + ImageEnd))
  }

  function VideoHtml(src: string, caption: string): string {
    VideoHead + (SrcAttr(src) + (VideoBeforeCaption + CaptionHtml(caption, VideoCaptionOpen, VideoCaptionClose) + VideoEnd))
  }

  /** The fragment of one item: a figure for `image`, an iframe for
      `video`, and nothing for every other type. */
  function ItemHtml(item: MediaItem): string {
    if item.mediaType == "image" then ImageHtml(item.url, item.alt, item.caption)
    else if item.mediaType == "video" then VideoHtml(EmbedUrl(item.url), item.caption)
    else ""
  }

  /** The image fragment shows the item's URL as the `src` attribute. */
  lemma ImageHtmlShowsUrl(url: string, alt: string, caption: string)
    ensures Contains(ImageHtml(url, alt, caption), SrcAttr(url))
  {
    ContainsMiddle(ImageHead, SrcAttr(url), ImageBeforeAlt + alt + ImageBeforeCaption
      + CaptionHtml(caption, FigcaptionOpen, FigcaptionClose) + ImageEnd);
  }

  /** The video fragment's iframe shows the embed URL as its `src`. */
  lemma VideoHtmlShowsUrl(src: string, caption: string)
    ensures Contains(VideoHtml(src, caption), SrcAttr(src))
  {
    ContainsMiddle(VideoHead, SrcAttr(src), VideoBeforeCaption
      + CaptionHtml(caption, VideoCaptionOpen, VideoCaptionClose) + VideoEnd);
  }

  /** What a string contains, the string with a prefix contains too. */
  lemma ContainsAfterPrefix(a: string, h: string, p: string)
    requires Contains(h, p)
    ensures Contains(a + h, p)
  {
    ContainsInside(a, h, "", p);
    assert a + h + "" == a + h;
  }

  lemma ImageHtmlShowsCaption(url: string, alt: string, caption: string)
    requires caption != ""
    ensures Contains(ImageHtml(url, alt, caption), caption)
  {
    var c := CaptionHtml(caption, FigcaptionOpen, FigcaptionClose);
    ContainsMiddle(FigcaptionOpen, caption, FigcaptionClose);
    var t := ImageBeforeAlt + alt + ImageBeforeCaption + c + ImageEnd;
    ContainsInside(ImageBeforeAlt + alt + ImageBeforeCaption, c, ImageEnd, caption);
    ContainsAfterPrefix(SrcAttr(url), t, caption);
    ContainsAfterPrefix(ImageHead, SrcAttr(url) + t, caption);
  }

  lemma VideoHtmlShowsCaption(src: string, caption: string)
    requires caption != ""
    ensures Contains(VideoHtml(src, caption), caption)
  {
    var c := CaptionHtml(caption, VideoCaptionOpen, VideoCaptionClose);
    ContainsMiddle(VideoCaptionOpen, caption, VideoCaptionClose);
    var t := VideoBeforeCaption + c + VideoEnd;
    ContainsInside(VideoBeforeCaption, c, VideoEnd, caption);
    ContainsAfterPrefix(SrcAttr(src), t, caption);
    ContainsAfterPrefix(VideoHead, SrcAttr(src) + t, caption);
  }

  /** A string containing a non-empty one is not empty. */
  lemma ContainsNonEmpty(s: string, p: string)
    requires |p| > 0 && Contains(s, p)
    ensures s != ""
  {
  }

  /** An `image` item shows its URL as the `src`, a `video` item the
      embed URL of its URL, and both show a non-empty caption; every
      other type renders as nothing. */
  lemma ItemHtmlShows(item: MediaItem)
    ensures ItemHtml(item) == "" <==> item.mediaType != "image" && item.mediaType != "video"
    ensures item.mediaType == "image" ==> Contains(ItemHtml(item), SrcAttr(item.url))
    ensures item.mediaType == "video" ==> Contains(ItemHtml(item), SrcAttr(EmbedUrl(item.url)))
    ensures (item.mediaType == "image" || item.mediaType == "video") && item.caption != "" ==>
      Contains(ItemHtml(item), item.caption)
  {
    if item.mediaType == "image" {
      ImageHtmlShowsUrl(item.url, item.alt, item.caption);
      ContainsNonEmpty(ItemHtml(item), SrcAttr(item.url));
      if item.caption != "" {
        ImageHtmlShowsCaption(item.url, item.alt, item.caption);
      }
    } else if item.mediaType == "video" {
      var src := EmbedUrl(item.url);
      VideoHtmlShowsUrl(src, item.caption);
      ContainsNonEmpty(ItemHtml(item), SrcAttr(src));
      if item.caption != "" {
        VideoHtmlShowsCaption(src, item.caption);
      }
    }
  }

  // ---------------------------------------------------------------------
  // renderMediaPlaceholders
  // ---------------------------------------------------------------------

  /** The items applied in list order, each replacing the first
      occurrence of its placeholder by the fragment `frag` makes of it. */
  function ApplyItems(content: string, media: seq<MediaItem>, frag: MediaItem -> string): (r: string)
    ensures |media| == 0 ==> r == content
    ensures (forall k :: 0 <= k < |media| ==> !Contains(content, media[k].placeholder)) ==> r == content
    decreases |media|
  {
    if |media| == 0 then content
    else ApplyItems(ReplaceFirst(content, media[0].placeholder, frag(media[0])), media[1..], frag)
  }

  /** `renderMediaPlaceholders`: the items are applied in list order with
      the fragments of `ItemHtml`. */
  function RenderMediaPlaceholders(content: string, media: seq<MediaItem>): (r: string)
    ensures |media| == 0 ==> r == content
    ensures (forall k :: 0 <= k < |media| ==> !Contains(content, media[k].placeholder)) ==> r == content
  {
    ApplyItems(content, media, ItemHtml)
  }

  /** One item replaces the first occurrence of its placeholder by its
      fragment and leaves everything around it, later occurrences
      included, as it was. */
  lemma RenderOneItem(x: string, item: MediaItem, y: string)
    requires forall j :: 0 <= j < |x| ==> !OccursAt(x + item.placeholder + y, item.placeholder, j)
    ensures RenderMediaPlaceholders(x + item.placeholder + y, [item]) == x + ItemHtml(item) + y
  {
    RenderSingle(x + item.placeholder + y, item);
    ReplaceFirstAt(x, item.placeholder, y, ItemHtml(item));
  }

  /** A one-item list renders that item alone. */
  lemma RenderSingle(content: string, item: MediaItem)
    ensures RenderMediaPlaceholders(content, [item]) == ReplaceFirst(content, item.placeholder, ItemHtml(item))
  {
    assert [item][1..] == [];
  }

  /** An item whose type is neither `image` nor `video` deletes its token. */
  lemma OtherTypeDeletesToken(x: string, item: MediaItem, y: string)
    requires item.mediaType != "image" && item.mediaType != "video"
    requires forall j :: 0 <= j < |x| ==> !OccursAt(x + item.placeholder + y, item.placeholder, j)
    ensures RenderMediaPlaceholders(x + item.placeholder + y, [item]) == x + y
  {
    RenderOneItem(x, item, y);
  }

  // ---------------------------------------------------------------------
  // Content made of text and placeholder tokens
  // ---------------------------------------------------------------------

  /** A braced token `{{…}}`: two opening braces, two closing braces and
      no brace between them. A placeholder built from a type and an id
      without braces has this shape. */
  predicate BracedToken(t: string) {
    && |t| >= 4 && t[0] == '{' && t[1] == '{' && t[|t| - 2] == '}' && t[|t| - 1] == '}'
    && forall i :: 2 <= i < |t| - 2 ==> t[i] != '{' && t[i] != '}'
  }

  /** The placeholder of a type and an id without braces is a braced
      token. */
  lemma GeneratedIsBraced(id: string, mediaType: string)
    requires '{' !in id && '}' !in id && '{' !in mediaType && '}' !in mediaType
    ensures BracedToken(Placeholder.Generate(id, mediaType))
  {
    var t := Placeholder.Generate(id, mediaType);
    var o := |Placeholder.Open|;
    assert t[..o] == "{{MEDIA:";
    assert t[0] == t[..o][0] && t[1] == t[..o][1];
    assert t[|t| - 2] == t[|t| - 2..][0] && t[|t| - 1] == t[|t| - 2..][1];
    forall i | 2 <= i < |t| - 2 ensures t[i] != '{' && t[i] != '}' {
      if i < o {
        assert t[i] == t[..o][i];
      } else if i < o + |mediaType| {
        assert t[i] == t[o..o + |mediaType|][i - o];
      } else if i > o + |mediaType| {
        assert t[i] == t[o + |mediaType| + 1..|t| - 2][i - o - |mediaType| - 1];
      }
    }
  }

  /** `xs[0] + ss[0] + xs[1] + … + ss[n - 1] + xs[n]`: the text pieces
      `xs` with the slots `ss` between them. */
  function Weave(xs: seq<string>, ss: seq<string>): string
    requires |xs| == |ss| + 1
    decreases |ss|
  {
    if |ss| == 0 then xs[0] else xs[0] + ss[0] + Weave(xs[1..], ss[1..])
  }

  /** Text pieces without `{`, and slots that are each either a braced
      token or text without `{`, with no braced token in two slots. */
  predicate Woven(xs: seq<string>, ss: seq<string>) {
    && |xs| == |ss| + 1
    && (forall j :: 0 <= j < |xs| ==> '{' !in xs[j])
    && (forall j :: 0 <= j < |ss| ==> BracedToken(ss[j]) || '{' !in ss[j])
    && (forall i, j :: 0 <= i < j < |ss| && BracedToken(ss[i]) ==> ss[i] != ss[j])
  }

  /** Content as an editor leaves it: text without `{` around distinct
      placeholder tokens. */
  predicate TokenContent(xs: seq<string>, ss: seq<string>) {
    Woven(xs, ss) && forall j :: 0 <= j < |ss| ==> BracedToken(ss[j])
  }

  /** An item whose placeholder is a braced token and whose fragment
      under `frag` holds no `{`. */
  predicate PlainItem(frag: MediaItem -> string, item: MediaItem) {
    BracedToken(item.placeholder) && '{' !in frag(item)
  }

  /** What a slot holding `t` shows once the items are applied: the
      fragment of the first item whose placeholder is `t`, or `t` itself. */
  function Fill(frag: MediaItem -> string, media: seq<MediaItem>, t: string): string
    decreases |media|
  {
    if |media| == 0 then t
    else if media[0].placeholder == t then frag(media[0])
    else Fill(frag, media[1..], t)
  }

  function FillAll(frag: MediaItem -> string, media: seq<MediaItem>, ss: seq<string>): (r: seq<string>)
    ensures |r| == |ss| && forall j :: 0 <= j < |ss| ==> r[j] == Fill(frag, media, ss[j])
  {
    seq(|ss|, j requires 0 <= j < |ss| => Fill(frag, media, ss[j]))
  }

  /** A slot claimed by item `k`, and by no item before it, shows that
      item's fragment. */
  lemma {:induction false} FillFirstClaim(frag: MediaItem -> string, media: seq<MediaItem>, t: string, k: nat)
    requires k < |media| && media[k].placeholder == t
    requires forall i :: 0 <= i < k ==> media[i].placeholder != t
    ensures Fill(frag, media, t) == frag(media[k])
    decreases k
  {
    if k > 0 {
      FillFirstClaim(frag, media[1..], t, k - 1);
    }
  }

  /** A slot no item claims keeps its token. */
  lemma {:induction false} FillUnclaimed(frag: MediaItem -> string, media: seq<MediaItem>, t: string)
    requires forall k :: 0 <= k < |media| ==> media[k].placeholder != t
    ensures Fill(frag, media, t) == t
    decreases |media|
  {
    if |media| > 0 {
      FillUnclaimed(frag, media[1..], t);
    }
  }

  /** Text without `{` is claimed by no braced placeholder. */
  lemma PlainTextUnclaimed(frag: MediaItem -> string, media: seq<MediaItem>, h: string)
    requires forall k :: 0 <= k < |media| ==> BracedToken(media[k].placeholder)
    requires '{' !in h
    ensures Fill(frag, media, h) == h
  {
    forall k | 0 <= k < |media| ensures media[k].placeholder != h {
      assert media[k].placeholder[0] in media[k].placeholder;
    }
    FillUnclaimed(frag, media, h);
  }

  /** A braced token cannot start where the text has no `{`. */
  lemma NoTokenInPlainText(u: string, w: string, p: string, j: nat)
    requires '{' !in u && BracedToken(p) && j < |u|
    ensures !OccursAt(u + w, p, j)
  {
    OccursAtHead(u + w, p);
    assert (u + w)[j] == u[j];
  }

  /** A braced token occurs inside another braced token only as the
      whole of it. */
  lemma TokenInToken(t: string, w: string, p: string, j: nat)
    requires BracedToken(t) && BracedToken(p) && j < |t|
    ensures OccursAt(t + w, p, j) ==> j == 0 && p == t
  {
    var s := t + w;
    if OccursAt(s, p, j) {
      forall k | 0 <= k < |p| ensures s[j + k] == p[k] {
        assert s[j..j + |p|][k] == s[j + k];
      }
      assert s[j] == t[j] == p[0];
      assert j + 1 < |t| && s[j + 1] == t[j + 1] == p[1];
      assert j == 0;
      assert |p| - 2 < |t| ==> s[|p| - 2] == t[|p| - 2];
      assert |t| - 2 < |p| ==> s[|t| - 2] == p[|t| - 2];
      assert |p| == |t|;
      assert s[..|t|] == t;
    }
  }

  /** A braced token starts nowhere inside a slot that is not that token. */
  lemma NoStartInSlot(v: string, u: string, w: string, p: string)
    requires BracedToken(p) && (BracedToken(u) || '{' !in u) && u != p
    ensures forall j :: |v| <= j < |v| + |u| ==> !OccursAt(v + u + w, p, j)
  {
    forall j | |v| <= j < |v| + |u| ensures !OccursAt(v + u + w, p, j) {
      assert v + u + w == v + (u + w);
      OccursAfter(v, u + w, p, j - |v|);
      if BracedToken(u) {
        TokenInToken(u, w, p, j - |v|);
      } else {
        NoTokenInPlainText(u, w, p, j - |v|);
      }
    }
  }

  /** The slots with every copy of `p` replaced by `h`. */
  function Swap(ss: seq<string>, p: string, h: string): (r: seq<string>)
    ensures |r| == |ss| && forall j :: 0 <= j < |ss| ==> r[j] == if ss[j] == p then h else ss[j]
  {
    seq(|ss|, j requires 0 <= j < |ss| => if ss[j] == p then h else ss[j])
  }

  /** Replacing the first occurrence of a braced token in woven content
      replaces the slot holding it, if any, and nothing else. */
  lemma {:induction false} ReplaceInWeave(xs: seq<string>, ss: seq<string>, p: string, h: string)
    requires Woven(xs, ss) && BracedToken(p)
    ensures ReplaceFirst(Weave(xs, ss), p, h) == Weave(xs, Swap(ss, p, h))
    decreases |ss|
  {
    var x := xs[0];
    if |ss| == 0 {
      forall j ensures !OccursAt(x, p, j) {
        if 0 <= j < |x| {
          NoTokenInPlainText(x, "", p, j);
          assert x + "" == x;
        }
      }
      assert Swap(ss, p, h) == [];
    } else {
      var rest := Weave(xs[1..], ss[1..]);
      var sw := Swap(ss, p, h);
      assert sw[1..] == Swap(ss[1..], p, h);
      assert Weave(xs, sw) == x + sw[0] + Weave(xs[1..], sw[1..]);
      forall j | 0 <= j < |x| ensures !OccursAt(x + ss[0] + rest, p, j) {
        assert x + ss[0] + rest == x + (ss[0] + rest);
        NoTokenInPlainText(x, ss[0] + rest, p, j);
      }
      if ss[0] == p {
        ReplaceFirstAt(x, p, rest, h);
        assert Swap(ss[1..], p, h) == ss[1..] by {
          forall j | 0 <= j < |ss| - 1 ensures ss[1..][j] != p {
            assert ss[1..][j] == ss[j + 1];
          }
        }
      } else {
        NoStartInSlot(x, ss[0], rest, p);
        ReplaceFirstSkip(x + ss[0], rest, p, h);
        ReplaceInWeave(xs[1..], ss[1..], p, h);
      }
    }
  }

  /** Putting text without `{` into the slots keeps content woven. */
  lemma SwapKeepsWoven(xs: seq<string>, ss: seq<string>, p: string, h: string)
    requires Woven(xs, ss) && '{' !in h
    ensures Woven(xs, Swap(ss, p, h))
  {
    var sw := Swap(ss, p, h);
    forall i, j | 0 <= i < j < |sw| && BracedToken(sw[i]) ensures sw[i] != sw[j] {
      assert sw[i][0] in sw[i];
      assert sw[i] == ss[i];
    }
  }

  /** Applying items to content made of text without `{` and distinct
      braced slots: each slot shows the fragment of the first item
      claiming its token, a slot no item claims keeps its token, and the
      text around the slots is unchanged. */
  lemma {:induction false} ApplyWoven(xs: seq<string>, ss: seq<string>, media: seq<MediaItem>, frag: MediaItem -> string)
    requires Woven(xs, ss)
    requires forall k :: 0 <= k < |media| ==> PlainItem(frag, media[k])
    ensures ApplyItems(Weave(xs, ss), media, frag) == Weave(xs, FillAll(frag, media, ss))
    decreases |media|
  {
    if |media| == 0 {
      assert FillAll(frag, media, ss) == ss;
    } else {
      var m := media[0];
      var h := frag(m);
      ReplaceInWeave(xs, ss, m.placeholder, h);
      var sw := Swap(ss, m.placeholder, h);
      SwapKeepsWoven(xs, ss, m.placeholder, h);
      ApplyWoven(xs, sw, media[1..], frag);
      forall j | 0 <= j < |ss| ensures Fill(frag, media[1..], sw[j]) == Fill(frag, media, ss[j]) {
        if ss[j] == m.placeholder {
          PlainTextUnclaimed(frag, media[1..], h);
        }
      }
      assert FillAll(frag, media[1..], sw) == FillAll(frag, media, ss);
    }
  }

  /** A woven string contains what each slot holds. */
  lemma {:induction false} WeaveContainsSlot(xs: seq<string>, ss: seq<string>, j: nat)
    requires |xs| == |ss| + 1 && j < |ss|
    ensures Contains(Weave(xs, ss), ss[j])
    decreases |ss|
  {
    if j == 0 {
      ContainsMiddle(xs[0], ss[0], Weave(xs[1..], ss[1..]));
    } else {
      WeaveContainsSlot(xs[1..], ss[1..], j - 1);
      ContainsInside(xs[0] + ss[0], Weave(xs[1..], ss[1..]), "", ss[j]);
      assert xs[0] + ss[0] + Weave(xs[1..], ss[1..]) + "" == Weave(xs, ss);
    }
  }

  /** A token no item claims is still in the content after the items are
      applied. */
  lemma ApplyKeepsOrphan(xs: seq<string>, ss: seq<string>, media: seq<MediaItem>, frag: MediaItem -> string, j: nat)
    requires Woven(xs, ss)
    requires forall k :: 0 <= k < |media| ==> PlainItem(frag, media[k])
    requires j < |ss| && forall k :: 0 <= k < |media| ==> media[k].placeholder != ss[j]
    ensures Contains(ApplyItems(Weave(xs, ss), media, frag), ss[j])
  {
    ApplyWoven(xs, ss, media, frag);
    var r := FillAll(frag, media, ss);
    FillUnclaimed(frag, media, ss[j]);
    WeaveContainsSlot(xs, r, j);
  }

  /** Rendering content made of text without `{` around distinct
      placeholder tokens: each token shows the fragment of the first
      item claiming it, a token no item claims stays as it is, and the
      text around the tokens is unchanged. */
  lemma RenderWoven(xs: seq<string>, ss: seq<string>, media: seq<MediaItem>)
    requires TokenContent(xs, ss)
    requires forall k :: 0 <= k < |media| ==> PlainItem(ItemHtml, media[k])
    ensures RenderMediaPlaceholders(Weave(xs, ss), media) == Weave(xs, FillAll(ItemHtml, media, ss))
  {
    ApplyWoven(xs, ss, media, ItemHtml);
  }

  /** A placeholder token claimed by item `k`, and by no item before it,
      is rendered as that item's fragment. */
  lemma RenderClaimedToken(xs: seq<string>, ss: seq<string>, media: seq<MediaItem>, j: nat, k: nat)
    requires TokenContent(xs, ss)
    requires forall i :: 0 <= i < |media| ==> PlainItem(ItemHtml, media[i])
    requires j < |ss| && k < |media| && media[k].placeholder == ss[j]
    requires forall i :: 0 <= i < k ==> media[i].placeholder != ss[j]
    ensures var r := FillAll(ItemHtml, media, ss);
      && RenderMediaPlaceholders(Weave(xs, ss), media) == Weave(xs, r)
      && r[j] == ItemHtml(media[k])
  {
    ApplyWoven(xs, ss, media, ItemHtml);
    FillFirstClaim(ItemHtml, media, ss[j], k);
  }

  /** A placeholder token no listed item claims stays in the output, even
      when other tokens around it are rendered. */
  lemma OrphanTokenStays(xs: seq<string>, ss: seq<string>, media: seq<MediaItem>, j: nat)
    requires TokenContent(xs, ss)
    requires forall k :: 0 <= k < |media| ==> PlainItem(ItemHtml, media[k])
    requires j < |ss| && forall k :: 0 <= k < |media| ==> media[k].placeholder != ss[j]
    ensures Contains(RenderMediaPlaceholders(Weave(xs, ss), media), ss[j])
  {
    ApplyKeepsOrphan(xs, ss, media, ItemHtml, j);
  }

  /** Without the brace condition a token can be lost: the content
      `{{MEDIA:image_a{{MEDIA:v_1}}` holds an image token whose id runs
      into a second token; an item for that second token, of a type that
      renders nothing, removes its closing braces and leaves
      `{{MEDIA:image_a` behind. */
  lemma OrphanSwallowedExample(item: MediaItem)
    requires item.placeholder == "{{MEDIA:v_1}}" && item.mediaType == "code"
    ensures var x := "{{MEDIA:image_a";
      RenderMediaPlaceholders(x + item.placeholder, [item]) == x && !Contains(x, x + item.placeholder)
  {
    var x := "{{MEDIA:image_a";
    SwallowedTokenFirst(x, item.placeholder);
    OtherTypeDeletesToken(x, item, "");
    assert x + item.placeholder + "" == x + item.placeholder;
    assert x + "" == x;
    LongerNotContained(x, x + item.placeholder);
  }

  /** `{{MEDIA:v_1}}` first occurs in `{{MEDIA:image_a{{MEDIA:v_1}}` after
      the image token's opening part. */
  lemma SwallowedTokenFirst(x: string, p: string)
    requires x == "{{MEDIA:image_a" && p == "{{MEDIA:v_1}}"
    ensures forall j :: 0 <= j < |x| ==> !OccursAt(x + p + "", p, j)
  {
    var s := x + p + "";
    OccursAtHead(s, p);
    forall j | 0 <= j < |x| ensures !OccursAt(s, p, j) {
      assert s[j] == x[j];
      assert j == 0 ==> s[j..j + |p|][8] == s[8] == 'i' && p[8] == 'v';
      assert j == 1 ==> s[j..j + |p|][1] == s[2] == 'M' && p[1] == '{';
    }
  }

  /** A string does not contain a longer one. */
  lemma LongerNotContained(s: string, p: string)
    requires |s| < |p|
    ensures !Contains(s, p)
  {
    ContainsIff(s, p);
  }

  /** `<p>Hi {{MEDIA:image_1}}</p>` with an image item for that token
      renders the figure, whose `img` shows the item's URL, in its place. */
  lemma RenderImageExample(item: MediaItem)
    requires item.placeholder == "{{MEDIA:image_1}}" && item.mediaType == "image"
    ensures var r := RenderMediaPlaceholders("<p>Hi " + item.placeholder + "</p>", [item]);
      && r == "<p>Hi " + ImageHtml(item.url, item.alt, item.caption) + "</p>"
      && Contains(r, SrcAttr(item.url))
  {
    var x, y := "<p>Hi ", "</p>";
    assert item.placeholder[0] == '{';
    NotBeforeInfix(x, item.placeholder, y);
    RenderOneItem(x, item, y);
    ImageHtmlShowsUrl(item.url, item.alt, item.caption);
    ContainsInside(x, ImageHtml(item.url, item.alt, item.caption), y, SrcAttr(item.url));
  }
}

=== FILE: sorting.dfy ===
/** A stable insertion sort over any total preorder, shared by the
    listing order of the posts and the ranking of the categories. */
module Sorting {

  ghost predicate Total<T(!new)>(le: (T, T) -> bool) {
    forall a, b :: le(a, b) || le(b, a)
  }

  ghost predicate Transitive<T(!new)>(le: (T, T) -> bool) {
    forall a, b, c :: le(a, b) && le(b, c) ==> le(a, c)
  }

  /** Every element may come before every later one. */
  predicate SortedBy<T>(le: (T, T) -> bool, s: seq<T>) {
    forall i, j :: 0 <= i < j < |s| ==> le(s[i], s[j])
  }

  /** `x` goes in front of the first element it may precede. */
  function Insert<T>(le: (T, T) -> bool, x: T, s: seq<T>): (r: seq<T>)
    ensures multiset(r) == multiset(s) + multiset{x}
  {
    if |s| == 0 then [x]
    else if le(x, s[0]) then [x] + s
    else
      assert s == [s[0]] + s[1..];
      [s[0]] + Insert(le, x, s[1..])
  }

  lemma {:induction false} InsertSorted<T(!new)>(le: (T, T) -> bool, x: T, s: seq<T>)
    requires Total(le) && Transitive(le) && SortedBy(le, s)
    ensures SortedBy(le, Insert(le, x, s))
  {
    if |s| > 0 && !le(x, s[0]) {
      InsertSorted(le, x, s[1..]);
      var t := Insert(le, x, s[1..]);
      forall k | 0 <= k < |t| ensures le(s[0], t[k]) {
        assert t[k] in multiset(t);
        if t[k] != x {
          assert t[k] in multiset(s[1..]);
          var m :| 0 <= m < |s[1..]| && s[1..][m] == t[k];
          assert s[m + 1] == t[k];
        }
      }
    }
  }

  /** The elements of `s` in order; equal elements keep their order in `s`
      because each one is put in front of the equal ones after it. */
  function InsertionSort<T(!new)>(le: (T, T) -> bool, s: seq<T>): (r: seq<T>)
    requires Total(le) && Transitive(le)
    ensures multiset(r) == multiset(s)
    ensures SortedBy(le, r)
  {
    if |s| == 0 then []
    else
      var rest := InsertionSort(le, s[1..]);
      InsertSorted(le, s[0], rest);
      assert s == [s[0]] + s[1..];
      Insert(le, s[0], rest)
  }

  /** The elements of `s` tied with `x` (each may precede the other), in
      their order in `s`. */
  function Ties<T>(le: (T, T) -> bool, x: T, s: seq<T>): seq<T> {
    if |s| == 0 then []
    else (if le(x, s[0]) && le(s[0], x) then [s[0]] else []) + Ties(le, x, s[1..])
  }

  /** Inserting `y` puts it in front of every element tied with it. */
  lemma {:induction false} InsertTies<T(!new)>(le: (T, T) -> bool, x: T, y: T, s: seq<T>)
    requires Transitive(le)
    ensures Ties(le, x, Insert(le, y, s)) == Ties(le, x, [y]) + Ties(le, x, s)
  {
    if |s| == 0 {
      TiesHead(le, x, [y]);
    } else if le(y, s[0]) {
      TiesHead(le, x, [y] + s);
      assert ([y] + s)[1..] == s;
    } else {
      var t := Insert(le, y, s[1..]);
      InsertTies(le, x, y, s[1..]);
      TiesHead(le, x, [s[0]] + t);
      assert ([s[0]] + t)[1..] == t;
      TiesHead(le, x, s);
      // `y` and `s[0]` are not both tied with `x`: that would let `y`
      // precede `s[0]`.
      assert Ties(le, x, [s[0]]) == [] || Ties(le, x, [y]) == [];
    }
  }

  lemma TiesHead<T>(le: (T, T) -> bool, x: T, s: seq<T>)
    requires |s| > 0
    ensures Ties(le, x, s) == Ties(le, x, [s[0]]) + Ties(le, x, s[1..])
  {
    assert [s[0]][1..] == [];
  }

  /** The sort is stable: the elements tied with any `x` keep their input
      order. */
  lemma {:induction false} InsertionSortStable<T(!new)>(le: (T, T) -> bool, x: T, s: seq<T>)
    requires Total(le) && Transitive(le)
    ensures Ties(le, x, InsertionSort(le, s)) == Ties(le, x, s)
  {
    if |s| > 0 {
      var rest := InsertionSort(le, s[1..]);
      InsertionSortStable(le, x, s[1..]);
      InsertTies(le, x, s[0], rest);
      TiesHead(le, x, s);
      assert InsertionSort(le, s) == Insert(le, s[0], rest);
    }
  }

  /** Sorting changes no element's presence: what is in the result is in
      the input, and the other way round. */
  lemma SortedMembers<T(!new)>(le: (T, T) -> bool, s: seq<T>, x: T)
    requires Total(le) && Transitive(le)
    ensures x in InsertionSort(le, s) <==> x in s
  {
    assert x in multiset(InsertionSort(le, s)) <==> x in multiset(s);
  }
}

=== FILE: text.dfy ===
/** String primitives with the meaning JavaScript gives them: the `\s`
    character class, `trim`, `includes`, `indexOf`, `startsWith`,
    `replace` with a string pattern, and `split` on one character.
    Strings are sequences of characters; one character stands for one
    UTF-16 code unit of the source. */
module Text {
  import opened Wrappers

  /** The ECMAScript WhiteSpace and LineTerminator code points: the set
      matched by `\s` and removed by `String.prototype.trim`. */
  predicate IsWs(c: char) {
    || c == ' ' || c == '\t' || c == '\n' || c == '\U{000B}' || c == '\U{000C}' || c == '\r'
    || c == '\U{00A0}' || c == '\U{1680}' || ('\U{2000}' <= c <= '\U{200A}')
    || c == '\U{2028}' || c == '\U{2029}' || c == '\U{202F}' || c == '\U{205F}'
    || c == '\U{3000}' || c == '\U{FEFF}'
  }

  /** The characters a regular-expression `.` does not match. */
  predicate IsLineTerminator(c: char) {
    c == '\n' || c == '\r' || c == '\U{2028}' || c == '\U{2029}'
  }

  predicate IsDigit(c: char) { '0' <= c <= '9' }

  predicate IsAsciiLower(c: char) { 'a' <= c <= 'z' }

  predicate IsAsciiUpper(c: char) { 'A' <= c <= 'Z' }

  /** The regular-expression class `\w`, that is `[A-Za-z0-9_]`. */
  predicate IsWordChar(c: char) {
    IsAsciiLower(c) || IsAsciiUpper(c) || IsDigit(c) || c == '_'
  }

  predicate AllWs(s: string) {
    forall i :: 0 <= i < |s| ==> IsWs(s[i])
  }

  predicate AllDigits(s: string) {
    forall i :: 0 <= i < |s| ==> IsDigit(s[i])
  }

  predicate AllWordChars(s: string) {
    forall i :: 0 <= i < |s| ==> IsWordChar(s[i])
  }

  /** `toLowerCase` restricted to the ASCII letters. */
  function ToLowerAscii(c: char): (r: char)
    ensures !IsAsciiUpper(r)
    ensures IsAsciiUpper(c) ==> IsAsciiLower(r) && r as int - c as int == 32
    ensures !IsAsciiUpper(c) ==> r == c
  {
    if IsAsciiUpper(c) then (c as int + 32) as char else c
  }

  function LowerAscii(s: string): (r: string)
    ensures |r| == |s|
    ensures forall i :: 0 <= i < |s| ==> r[i] == ToLowerAscii(s[i])
  {
    seq(|s|, i requires 0 <= i < |s| => ToLowerAscii(s[i]))
  }

  /** Drops the leading whitespace: the result is the suffix of `s` that
      starts at its first non-whitespace character. */
  function TrimStart(s: string): (r: string)
    ensures |r| <= |s| && r == s[|s| - |r|..]
    ensures AllWs(s[..|s| - |r|])
    ensures |r| == 0 || !IsWs(r[0])
  {
    if |s| > 0 && IsWs(s[0]) then TrimStart(s[1..]) else s
  }

  /** Drops the trailing whitespace: the result is the prefix of `s` that
      ends at its last non-whitespace character. */
  function TrimEnd(s: string): (r: string)
    ensures |r| <= |s| && r == s[..|r|]
    ensures AllWs(s[|r|..])
    ensures |r| == 0 || !IsWs(r[|r| - 1])
  {
    if |s| > 0 && IsWs(s[|s| - 1]) then TrimEnd(s[..|s| - 1]) else s
  }

  /** `String.prototype.trim`. */
  function Trim(s: string): (r: string)
    ensures |r| <= |s|
    ensures |r| == 0 || (!IsWs(r[0]) && !IsWs(r[|r| - 1]))
    ensures |r| == 0 <==> AllWs(s)
  {
    TrimEmpty(s);
    TrimEnd(TrimStart(s))
  }

  /** The trimmed string is the infix `s[k..k + n]` of `s` left between a
      whitespace prefix and a whitespace suffix. */
  lemma TrimIsInfix(s: string) returns (k: nat, n: nat)
    ensures k + n <= |s| && Trim(s) == s[k..k + n] && AllWs(s[..k]) && AllWs(s[k + n..])
  {
    var t := TrimStart(s);
    var r := TrimEnd(t);
    k, n := |s| - |t|, |r|;
    InfixOfSuffix(s, k, t, r);
  }

  /** A prefix `r` of the suffix `t == s[k..]` whose rest is whitespace is
      the infix of `s` at `k`, followed by whitespace in `s`. */
  lemma InfixOfSuffix(s: string, k: nat, t: string, r: string)
    requires k <= |s| && t == s[k..] && |r| <= |t| && r == t[..|r|] && AllWs(t[|r|..])
    ensures k + |r| <= |s| && r == s[k..k + |r|] && AllWs(s[k + |r|..])
  {
    assert t[|r|..] == s[k + |r|..];
  }

  lemma TrimEmpty(s: string)
    ensures |TrimEnd(TrimStart(s))| == 0 <==> AllWs(s)
  {
    var t := TrimStart(s);
    EmptyIffAllWs(s, |s| - |t|, t, TrimEnd(t));
  }

  /** The facts of `TrimStart` and `TrimEnd` on their own: what is left is
      empty exactly when everything was whitespace. */
  lemma EmptyIffAllWs(s: string, k: nat, t: string, r: string)
    requires k <= |s| && t == s[k..] && AllWs(s[..k]) && (|t| == 0 || !IsWs(t[0]))
    requires |r| <= |t| && AllWs(t[|r|..])
    ensures |r| == 0 <==> AllWs(s)
  {
    if |r| == 0 {
      assert t[0..] == t;
      AllWsJoin(s, k);
    } else {
      assert t[0] == s[k];
    }
  }

  /** Whitespace before and after `k` is whitespace throughout. */
  lemma AllWsJoin(s: string, k: nat)
    requires k <= |s| && AllWs(s[..k]) && AllWs(s[k..])
    ensures AllWs(s)
  {
    forall i | 0 <= i < |s| ensures IsWs(s[i]) {
      if i < k { assert s[i] == s[..k][i]; } else { assert s[i] == s[k..][i - k]; }
    }
  }

  lemma TrimOfTrimmed(s: string)
    requires |s| == 0 || (!IsWs(s[0]) && !IsWs(s[|s| - 1]))
    ensures Trim(s) == s
  {
  }

  lemma TrimIdempotent(s: string)
    ensures Trim(Trim(s)) == Trim(s)
  {
    TrimOfTrimmed(Trim(s));
  }

  /** Trimming only removes characters, so it adds none. */
  lemma TrimKeepsAbsent(s: string, c: char)
    requires c !in s
    ensures c !in Trim(s)
  {
    var k, n := TrimIsInfix(s);
    forall i | 0 <= i < n ensures Trim(s)[i] != c {
      assert Trim(s)[i] == s[k + i];
    }
  }

  predicate StartsWith(s: string, prefix: string) {
    |prefix| <= |s| && s[..|prefix|] == prefix
  }

  /** `p` occurs in `s` starting at index `i`. */
  predicate OccursAt(s: string, p: string, i: int) {
    0 <= i && i + |p| <= |s| && s[i..i + |p|] == p
  }

  /** The first index at or after `from` where `p` occurs. */
  function IndexOfFrom(s: string, p: string, from: nat): (r: Option<nat>)
    ensures r.Some? ==> from <= r.value && OccursAt(s, p, r.value)
    ensures r.Some? ==> forall j :: from <= j < r.value ==> !OccursAt(s, p, j)
    ensures r.None? ==> forall j :: from <= j ==> !OccursAt(s, p, j)
    decreases |s| - from
  {
    if from + |p| > |s| then None
    else if OccursAt(s, p, from) then Some(from)
    else IndexOfFrom(s, p, from + 1)
  }

  /** `String.prototype.indexOf`, with `None` for -1. */
  function IndexOf(s: string, p: string): (r: Option<nat>)
    ensures r.Some? ==> OccursAt(s, p, r.value) && forall j :: 0 <= j < r.value ==> !OccursAt(s, p, j)
    ensures r.None? ==> forall j :: !OccursAt(s, p, j)
  {
    IndexOfFrom(s, p, 0)
  }

  /** `String.prototype.includes`. */
  predicate Contains(s: string, p: string) {
    IndexOf(s, p).Some?
  }

  lemma ContainsIff(s: string, p: string)
    ensures Contains(s, p) <==> exists i :: OccursAt(s, p, i)
  {
    if !Contains(s, p) {
      assert forall j :: !OccursAt(s, p, j);
    }
  }

  /** A string contains each of its infixes. */
  lemma ContainsMiddle(a: string, p: string, b: string)
    ensures Contains(a + p + b, p)
    ensures Contains(a + (p + b), p)
  {
    var s := a + p + b;
    assert s[|a|..|a| + |p|] == p;
    assert OccursAt(s, p, |a|);
    assert a + (p + b) == s;
    ContainsIff(s, p);
  }

  /** What a string contains, any string around it contains too. */
  lemma ContainsInside(a: string, h: string, b: string, p: string)
    requires Contains(h, p)
    ensures Contains(a + h + b, p)
  {
    ContainsIff(h, p);
    var k :| OccursAt(h, p, k);
    var s := a + h + b;
    assert s[|a| + k..|a| + k + |p|] == h[k..k + |p|];
    assert OccursAt(s, p, |a| + k);
    ContainsIff(s, p);
  }

  /** A pattern beginning with `c` cannot start inside a prefix without `c`. */
  lemma NotBeforeInfix(x: string, p: string, y: string)
    requires |p| > 0
    requires forall i :: 0 <= i < |x| ==> x[i] != p[0]
    ensures forall j :: 0 <= j < |x| ==> !OccursAt(x + p + y, p, j)
  {
    var s := x + p + y;
    OccursAtHead(s, p);
    forall j | 0 <= j < |x| ensures s[j] != p[0] {
      assert s[j] == x[j];
    }
  }

  /** Every occurrence of `p` starts with the character `p[0]`. */
  lemma OccursAtHead(s: string, p: string)
    requires |p| > 0
    ensures forall j :: OccursAt(s, p, j) ==> s[j] == p[0]
  {
    forall j | OccursAt(s, p, j) ensures s[j] == p[0] {
      assert s[j..j + |p|][0] == s[j];
    }
  }

  /** A pattern whose first character is absent from `s` does not occur in it. */
  lemma NotContainsFirstChar(s: string, p: string)
    requires |p| > 0
    requires forall i :: 0 <= i < |s| ==> s[i] != p[0]
    ensures !Contains(s, p)
  {
    OccursAtHead(s, p);
  }

  /** `s.replace(p, rep)` with a string pattern: the first occurrence of
      `p` is replaced, and `s` is returned as is when `p` does not occur. */
  function ReplaceFirst(s: string, p: string, rep: string): (r: string)
    ensures !Contains(s, p) ==> r == s
    ensures Contains(s, p) ==>
      exists i :: OccursAt(s, p, i) && (forall j :: 0 <= j < i ==> !OccursAt(s, p, j))
                  && r == s[..i] + rep + s[i + |p|..]
  {
    match IndexOf(s, p)
    case None => s
    case Some(i) => s[..i] + rep + s[i + |p|..]
  }

  /** Replacing the first occurrence in `x + p + y`, when `p` starts nowhere
      inside `x`, yields `x + rep + y`. */
  lemma ReplaceFirstAt(x: string, p: string, y: string, rep: string)
    requires forall j :: 0 <= j < |x| ==> !OccursAt(x + p + y, p, j)
    ensures ReplaceFirst(x + p + y, p, rep) == x + rep + y
  {
    var s := x + p + y;
    assert OccursAt(s, p, |x|) by { assert s[|x|..|x| + |p|] == p; }
    var i := IndexOf(s, p).value;
    assert i == |x|;
    assert s[..i] == x;
    assert s[i + |p|..] == y;
  }

  /** An occurrence after a prefix `a` is an occurrence in the rest. */
  lemma OccursAfter(a: string, r: string, p: string, q: nat)
    ensures OccursAt(a + r, p, |a| + q) <==> OccursAt(r, p, q)
  {
    var s := a + r;
    if q + |p| <= |r| {
      assert s[|a| + q..|a| + q + |p|] == r[q..q + |p|];
    }
  }

  /** When `p` starts nowhere inside `a`, the occurrences of `p` in
      `a + r` are those of `r`, shifted by `|a|`. */
  lemma IndexOfSkip(a: string, r: string, p: string)
    requires forall j :: 0 <= j < |a| ==> !OccursAt(a + r, p, j)
    ensures IndexOf(r, p).None? ==> IndexOf(a + r, p).None?
    ensures IndexOf(r, p).Some? ==> IndexOf(a + r, p) == Some(|a| + IndexOf(r, p).value)
  {
    var s := a + r;
    var k := IndexOf(s, p);
    if k.Some? {
      OccursAfter(a, r, p, k.value - |a|);
      var i := IndexOf(r, p).value;
      OccursAfter(a, r, p, i);
    } else if IndexOf(r, p).Some? {
      OccursAfter(a, r, p, IndexOf(r, p).value);
    }
  }

  /** When `p` starts nowhere inside `a`, replacing its first occurrence
      in `a + r` replaces the first occurrence in `r`. */
  lemma ReplaceFirstSkip(a: string, r: string, p: string, rep: string)
    requires forall j :: 0 <= j < |a| ==> !OccursAt(a + r, p, j)
    ensures ReplaceFirst(a + r, p, rep) == a + ReplaceFirst(r, p, rep)
  {
    IndexOfSkip(a, r, p);
    ReplaceFirstByIndex(a + r, p, rep);
    ReplaceFirstByIndex(r, p, rep);
    if IndexOf(r, p).Some? {
      SpliceAfter(a, r, IndexOf(r, p).value, |p|, rep);
    }
  }

  /** Splicing at `|a| + i` in `a + r` is splicing at `i` in `r`. */
  lemma SpliceAfter(a: string, r: string, i: nat, n: nat, rep: string)
    requires i + n <= |r|
    ensures (a + r)[..|a| + i] + rep + (a + r)[|a| + i + n..] == a + (r[..i] + rep + r[i + n..])
  {
    var s := a + r;
    assert s[..|a| + i] == a + r[..i];
    assert s[|a| + i + n..] == r[i + n..];
  }

  /** `ReplaceFirst` read off the index `IndexOf` finds. */
  lemma ReplaceFirstByIndex(s: string, p: string, rep: string)
    ensures IndexOf(s, p).None? ==> ReplaceFirst(s, p, rep) == s
    ensures IndexOf(s, p).Some? ==> var i := IndexOf(s, p).value;
      i + |p| <= |s| && ReplaceFirst(s, p, rep) == s[..i] + rep + s[i + |p|..]
  {
  }

  /** `s.split(c)` for a one-character separator. */
  function SplitOn(s: string, c: char): (r: seq<string>)
    ensures |r| >= 1
    ensures forall k :: 0 <= k < |r| ==> c !in r[k]
    ensures |r| == 1 <==> c !in s
  {
    if |s| == 0 then [""]
    else if s[0] == c then [""] + SplitOn(s[1..], c)
    else
      var rest := SplitOn(s[1..], c);
      [[s[0]] + rest[0]] + rest[1..]
  }

  /** A separator-free prefix followed by the separator is the first piece. */
  lemma {:induction false} SplitOnFirst(a: string, b: string, c: char)
    requires c !in a
    ensures SplitOn(a + [c] + b, c) == [a] + SplitOn(b, c)
    decreases |a|
  {
    var s := a + [c] + b;
    if |a| == 0 {
      assert s[1..] == b;
    } else {
      assert a[0] in a;
      assert s[0] == a[0] && s[1..] == a[1..] + [c] + b;
      SplitOnFirst(a[1..], b, c);
      assert [a[0]] + a[1..] == a;
    }
  }

  /** `parts.join(c)`: the inverse of `SplitOn`. */
  function Join(parts: seq<string>, c: char): string
  {
    if |parts| == 0 then ""
    else if |parts| == 1 then parts[0]
    else parts[0] + [c] + Join(parts[1..], c)
  }

  lemma JoinConsHead(a: char, parts: seq<string>, c: char)
    requires |parts| >= 1
    ensures Join([[a] + parts[0]] + parts[1..], c) == [a] + Join(parts, c)
  {
    var q := [[a] + parts[0]] + parts[1..];
    assert q[1..] == parts[1..];
  }

  /** Joining the pieces with the separator gives back the original string. */
  lemma {:induction false} JoinSplit(s: string, c: char)
    ensures Join(SplitOn(s, c), c) == s
  {
    if |s| == 0 {
    } else if s[0] == c {
      JoinSplit(s[1..], c);
      var rest := SplitOn(s[1..], c);
      assert ([""] + rest)[1..] == rest;
    } else {
      JoinSplit(s[1..], c);
      JoinConsHead(s[0], SplitOn(s[1..], c), c);
    }
  }

  /** Splitting a join of separator-free pieces gives back the pieces. */
  lemma {:induction false} SplitJoin(parts: seq<string>, c: char)
    requires |parts| >= 1
    requires forall k :: 0 <= k < |parts| ==> c !in parts[k]
    ensures SplitOn(Join(parts, c), c) == parts
    decreases |parts|, |parts[0]|
  {
    var p0 := parts[0];
    if |p0| == 0 {
      if |parts| > 1 {
        SplitJoin(parts[1..], c);
        SplitJoinEmptyHead(parts[1..], c);
        assert parts == [""] + parts[1..];
      }
    } else {
      var tailParts := [p0[1..]] + parts[1..];
      assert tailParts[1..] == parts[1..];
      TailPiecesFree(parts, c);
      SplitJoin(tailParts, c);
      assert p0[0] != c by { assert p0[0] in p0; }
      SplitJoinConsHead(p0[0], tailParts, c);
      assert [[p0[0]] + tailParts[0]] + tailParts[1..] == parts by {
        assert [p0[0]] + p0[1..] == p0;
      }
    }
  }

  /** Dropping the first character of the first piece keeps every piece
      free of the separator. */
  lemma TailPiecesFree(parts: seq<string>, c: char)
    requires |parts| >= 1 && |parts[0]| > 0
    requires forall k :: 0 <= k < |parts| ==> c !in parts[k]
    ensures forall k :: 0 <= k < |[parts[0][1..]] + parts[1..]| ==> c !in ([parts[0][1..]] + parts[1..])[k]
  {
    var tailParts := [parts[0][1..]] + parts[1..];
    forall k | 0 <= k < |tailParts| ensures c !in tailParts[k] {
      if k == 0 {
        assert forall m :: 0 <= m < |parts[0][1..]| ==> parts[0][1..][m] == parts[0][m + 1];
      } else {
        assert tailParts[k] == parts[k];
      }
    }
  }

  /** An empty first piece: the join starts with the separator. */
  lemma SplitJoinEmptyHead(rest: seq<string>, c: char)
    requires |rest| >= 1
    requires SplitOn(Join(rest, c), c) == rest
    ensures SplitOn(Join([""] + rest, c), c) == [""] + rest
  {
    var s := Join([""] + rest, c);
    assert ([""] + rest)[1..] == rest;
    assert s == [c] + Join(rest, c);
    assert s[1..] == Join(rest, c);
  }

  /** A first piece starting with `a`: the join starts with `a`. */
  lemma SplitJoinConsHead(a: char, parts: seq<string>, c: char)
    requires a != c && |parts| >= 1
    requires SplitOn(Join(parts, c), c) == parts
    ensures SplitOn(Join([[a] + parts[0]] + parts[1..], c), c) == [[a] + parts[0]] + parts[1..]
  {
    JoinConsHead(a, parts, c);
    var s := Join([[a] + parts[0]] + parts[1..], c);
    assert s[0] == a && s[1..] == Join(parts, c);
  }
  // ---------------------------------------------------------------------
  // Regular-expression building blocks
  // ---------------------------------------------------------------------

  /** The end of the run of characters of a class starting at `from`: how
      far a greedy `[class]*` reaches. */
  function RunEnd(s: string, from: nat, inRun: char -> bool): (r: nat)
    requires from <= |s|
    ensures from <= r <= |s|
    ensures forall i :: from <= i < r ==> inRun(s[i])
    ensures r < |s| ==> !inRun(s[r])
    decreases |s| - from
  {
    if from < |s| && inRun(s[from]) then RunEnd(s, from + 1, inRun) else from
  }

  /** The leftmost start index at or after `from` where an anchored matcher
      succeeds: how a regular expression without the `g` flag searches. */
  function FirstMatchFrom<T>(s: string, from: nat, matchAt: (string, nat) -> Option<T>): (r: Option<T>)
    ensures r.Some? ==> exists j :: from <= j <= |s| && matchAt(s, j) == r && forall m :: from <= m < j ==> matchAt(s, m).None?
    ensures r.None? ==> forall j :: from <= j <= |s| ==> matchAt(s, j).None?
    decreases |s| + 1 - from
  {
    if from > |s| then None
    else if matchAt(s, from).Some? then matchAt(s, from)
    else FirstMatchFrom(s, from + 1, matchAt)
  }

  /** A match at `j` is the leftmost one when nothing matches earlier. */
  lemma {:induction false} FirstMatchFromAt<T>(s: string, from: nat, j: nat, matchAt: (string, nat) -> Option<T>)
    requires from <= j <= |s|
    requires matchAt(s, j).Some?
    requires forall m :: from <= m < j ==> matchAt(s, m).None?
    ensures FirstMatchFrom(s, from, matchAt) == matchAt(s, j)
    decreases j - from
  {
    if from < j {
      FirstMatchFromAt(s, from + 1, j, matchAt);
    }
  }
  /** Backtracking of a greedy quantifier: the matcher is tried at `j`,
      then `j - 1`, … down to `lo`, and the first success wins. */
  function LastMatchDown<T>(s: string, lo: nat, j: nat, matchAt: (string, nat) -> Option<T>): (r: Option<T>)
    ensures r.Some? ==> exists k :: lo <= k <= j && matchAt(s, k) == r && forall m :: k < m <= j ==> matchAt(s, m).None?
    ensures r.None? ==> forall k :: lo <= k <= j ==> matchAt(s, k).None?
    decreases j
  {
    if j < lo then None
    else if matchAt(s, j).Some? then matchAt(s, j)
    else if j == 0 then None
    else LastMatchDown(s, lo, j - 1, matchAt)
  }

  /** A match at `k` is the one found when nothing matches above it. */
  lemma {:induction false} LastMatchDownAt<T>(s: string, lo: nat, j: nat, k: nat, matchAt: (string, nat) -> Option<T>)
    requires lo <= k <= j
    requires matchAt(s, k).Some?
    requires forall m :: k < m <= j ==> matchAt(s, m).None?
    ensures LastMatchDown(s, lo, j, matchAt) == matchAt(s, k)
    decreases j
  {
    if k < j {
      LastMatchDownAt(s, lo, j - 1, k, matchAt);
    }
  }
}

=== FILE: upload.dfy ===
/** The pure helpers of `lib/upload.ts`: the file extension, and the type
    and size checks applied to an upload. */
module Upload {
  import opened Text

  /** `last` ends `s` and is preceded by `c` when `s` holds one; without
      one it is all of `s`. */
  predicate SuffixAfterLast(s: string, c: char, last: string) {
    && |last| <= |s| && s[|s| - |last|..] == last
    && (c in s ==> |last| < |s| && s[|s| - |last| - 1] == c)
    && (c !in s ==> last == s)
  }

  /** The last piece of `s.split(c)` is a suffix of `s`, preceded by the
      separator when there is one. */
  lemma {:induction false} LastPieceIsSuffix(s: string, c: char)
    ensures SuffixAfterLast(s, c, LastPiece(s, c))
  {
    if |s| > 0 {
      LastPieceIsSuffix(s[1..], c);
      LastPieceStep(s, c);
      SuffixStep(s, c, s[1..], LastPiece(s[1..], c), LastPiece(s, c));
    }
  }

  /** The suffix facts carry over from `t`, which is `s.slice(1)`, to `s`. */
  lemma SuffixStep(s: string, c: char, t: string, lt: string, ls: string)
    requires |s| > 0 && t == s[1..]
    requires SuffixAfterLast(t, c, lt)
    requires ls == if s[0] != c && c !in t then [s[0]] + lt else lt
    ensures SuffixAfterLast(s, c, ls)
  {
    if s[0] != c && c !in t {
      assert s == [s[0]] + t;
      assert c !in s;
    } else if c in t {
      assert s[|s| - |lt|..] == t[|t| - |lt|..];
      assert s[|s| - |lt| - 1] == t[|t| - |lt| - 1] == c;
    } else {
      assert s[0] == c && ls == t;
      assert s[|s| - |ls| - 1] == s[0];
    }
  }

  /** The last piece of `s.split(c)`. */
  function LastPiece(s: string, c: char): string {
    var p := SplitOn(s, c);
    p[|p| - 1]
  }

  /** The last piece of `s.split(c)` is that of `s.slice(1)`, with the
      first character in front when no separator occurs at all. */
  lemma LastPieceStep(s: string, c: char)
    requires |s| > 0
    ensures LastPiece(s, c) == if s[0] != c && c !in s[1..] then [s[0]] + LastPiece(s[1..], c) else LastPiece(s[1..], c)
  {
  }

  /** `getFileExtension`: the text after the last `.` (the whole name when
      there is none; `pop() || ''` only turns an empty last piece into the
      empty string it already is). */
  function GetFileExtension(filename: string): (r: string)
    ensures '.' !in r
    ensures |r| <= |filename| && filename[|filename| - |r|..] == r
    ensures |r| == |filename| || filename[|filename| - |r| - 1] == '.'
    ensures '.' !in filename <==> r == filename
  {
    var pieces := SplitOn(filename, '.');
    LastPieceIsSuffix(filename, '.');
    pieces[|pieces| - 1]
  }

  /** The extension of `base.ext` is `ext`, whatever dots `base` holds. */
  lemma ExtensionOfDotted(base: string, ext: string)
    requires '.' !in ext
    ensures GetFileExtension(base + "." + ext) == ext
  {
    var s := base + "." + ext;
    var r := GetFileExtension(s);
    assert s[|s| - |ext|..] == ext;
    assert s[|s| - |ext| - 1] == '.';
    assert |r| == |ext|;
  }

  /** `validateFileType`: the MIME type starts with one of the allowed
      prefixes. */
  function ValidateFileType(fileType: string, allowedTypes: seq<string>): (r: bool)
    ensures r <==> exists k :: 0 <= k < |allowedTypes| && StartsWith(fileType, allowedTypes[k])
  {
    if |allowedTypes| == 0 then false
    else StartsWith(fileType, allowedTypes[0]) || ValidateFileType(fileType, allowedTypes[1..])
  }

  /** An empty list of allowed types refuses every file. */
  lemma NoAllowedTypesRefuses(fileType: string)
    ensures !ValidateFileType(fileType, [])
  {
  }

  /** A category prefix such as `image/` admits every subtype of it. */
  lemma PrefixAdmitsSubtypes(prefix: string, subtype: string, allowedTypes: seq<string>)
    requires prefix in allowedTypes
    ensures ValidateFileType(prefix + subtype, allowedTypes)
  {
    var k :| 0 <= k < |allowedTypes| && allowedTypes[k] == prefix;
    assert (prefix + subtype)[..|prefix|] == prefix;
    assert StartsWith(prefix + subtype, allowedTypes[k]);
  }

  const BytesPerMegabyte: int := 1024 * 1024

  /** `validateFileSize`: the size in bytes is at most the limit in
      megabytes (of 1024 × 1024 bytes). The limit is any number, so a
      fractional limit such as half a megabyte is allowed; multiplying
      by a power of two is exact in floating point, so the bound is the
      real product. */
  function ValidateFileSize(size: int, maxSizeMB: real): (r: bool)
    ensures r <==> size <= (maxSizeMB * BytesPerMegabyte as real).Floor
  {
    size as real <= maxSizeMB * BytesPerMegabyte as real
  }

  /** The limit is inclusive: the largest whole number of bytes within
      `maxSizeMB` megabytes passes and one byte more does not. */
  lemma FileSizeBoundary(maxSizeMB: real)
    ensures var n := (maxSizeMB * BytesPerMegabyte as real).Floor;
      ValidateFileSize(n, maxSizeMB) && !ValidateFileSize(n + 1, maxSizeMB)
  {
  }

  /** Half a megabyte admits 524288 bytes and no more. */
  lemma FileSizeHalfMegabyte()
    ensures ValidateFileSize(524288, 0.5) && !ValidateFileSize(524289, 0.5)
  {
  }

  /** A file that passes a limit passes every larger limit, and a smaller
      file passes whatever a larger one passes. */
  lemma FileSizeMonotone(size: int, size': int, maxSizeMB: real, maxSizeMB': real)
    requires size' <= size && maxSizeMB <= maxSizeMB'
    ensures ValidateFileSize(size, maxSizeMB) ==> ValidateFileSize(size', maxSizeMB')
  {
  }
}

=== FILE: utils.dfy ===
/** `generateSlug` and `calculateReadTime` of `lib/utils.ts`. */
module Utils {
  import opened Text
  import opened Numbers

  // ---------------------------------------------------------------------
  // generateSlug
  // ---------------------------------------------------------------------

  /** The characters `[a-z0-9 -]` kept by the filtering step. */
  predicate KeptBySlugFilter(c: char) {
    IsAsciiLower(c) || IsDigit(c) || c == ' ' || c == '-'
  }

  /** The characters a slug is made of: `[a-z0-9-]`. */
  predicate IsSlugChar(c: char) {
    IsAsciiLower(c) || IsDigit(c) || c == '-'
  }

  predicate AllSlugChars(s: string) {
    forall i :: 0 <= i < |s| ==> IsSlugChar(s[i])
  }

  predicate NoDoubleHyphen(s: string) {
    forall i :: 0 <= i < |s| - 1 ==> !(s[i] == '-' && s[i + 1] == '-')
  }

  /** `.replace(/[^a-z0-9 -]/g, '')`: deletes every character outside the class. */
  function FilterSlugChars(s: string): (r: string)
    ensures |r| <= |s|
    ensures forall i :: 0 <= i < |r| ==> KeptBySlugFilter(r[i])
    ensures (forall i :: 0 <= i < |s| ==> KeptBySlugFilter(s[i])) ==> r == s
  {
    if |s| == 0 then ""
    else if KeptBySlugFilter(s[0]) then [s[0]] + FilterSlugChars(s[1..])
    else FilterSlugChars(s[1..])
  }

  lemma {:induction false} FilterSlugCharsAppend(a: string, b: string)
    ensures FilterSlugChars(a + b) == FilterSlugChars(a) + FilterSlugChars(b)
  {
    if |a| > 0 {
      assert (a + b)[1..] == a[1..] + b;
      FilterSlugCharsAppend(a[1..], b);
    } else {
      assert a + b == b;
    }
  }

  /** The two run classes the slug pipeline collapses: `\s+` and `-+`. */
  datatype RunClass = Whitespace | Hyphens

  predicate InRun(k: RunClass, c: char) {
    match k
    case Whitespace => IsWs(c)
    case Hyphens => c == '-'
  }

  /** `.replace(/\s+/g, '-')` or `.replace(/-+/g, '-')`: every maximal run
      of characters of the class becomes one hyphen. A run character is
      dropped when the next character continues the run, and the last one
      becomes the hyphen. */
  function ReplaceRuns(s: string, k: RunClass): (r: string)
    ensures |r| <= |s|
    ensures forall i :: 0 <= i < |r| ==> r[i] == '-' || !InRun(k, r[i])
    ensures |s| > 0 && !InRun(k, s[0]) ==> |r| > 0 && r[0] == s[0]
    ensures |s| > 0 && InRun(k, s[0]) ==> |r| > 0 && r[0] == '-'
    ensures |s| > 0 && InRun(k, s[|s| - 1]) ==> |r| > 0 && r[|r| - 1] == '-'
  {
    if |s| == 0 then ""
    else if InRun(k, s[0]) then
      if |s| > 1 && InRun(k, s[1]) then ReplaceRuns(s[1..], k)
      else "-" + ReplaceRuns(s[1..], k)
    else [s[0]] + ReplaceRuns(s[1..], k)
  }

  /** Every character of the result other than a hyphen comes from `s`. */
  lemma {:induction false} ReplaceRunsFromInput(s: string, k: RunClass)
    ensures forall i :: 0 <= i < |ReplaceRuns(s, k)| ==> ReplaceRuns(s, k)[i] == '-' || ReplaceRuns(s, k)[i] in s
  {
    if |s| > 0 {
      ReplaceRunsFromInput(s[1..], k);
    }
  }

  /** After collapsing hyphen runs no two hyphens are adjacent. */
  lemma {:induction false} ReplaceRunsNoDoubleHyphen(s: string)
    ensures NoDoubleHyphen(ReplaceRuns(s, Hyphens))
  {
    if |s| > 0 {
      ReplaceRunsNoDoubleHyphen(s[1..]);
    }
  }

  /** A string whose class characters are lone hyphens is left unchanged. */
  lemma {:induction false} ReplaceRunsIdentity(s: string, k: RunClass)
    requires forall i :: 0 <= i < |s| && InRun(k, s[i]) ==> s[i] == '-' && (i + 1 < |s| ==> !InRun(k, s[i + 1]))
    ensures ReplaceRuns(s, k) == s
  {
    if |s| > 0 {
      ReplaceRunsIdentity(s[1..], k);
      assert [s[0]] + s[1..] == s;
    }
  }

  /** The four replacing steps of `generateSlug`, before the final `trim`. */
  function SlugSteps(title: string): (r: string)
    ensures AllSlugChars(r)
    ensures NoDoubleHyphen(r)
    ensures |r| <= |title|
  {
    var hyphenated := ReplaceRuns(FilterSlugChars(LowerAscii(title)), Whitespace);
    ReplaceRunsNoDoubleHyphen(hyphenated);
    SlugCharsAfterSteps(title);
    ReplaceRuns(hyphenated, Hyphens)
  }

  lemma SlugCharsAfterSteps(title: string)
    ensures AllSlugChars(ReplaceRuns(ReplaceRuns(FilterSlugChars(LowerAscii(title)), Whitespace), Hyphens))
  {
    var filtered := FilterSlugChars(LowerAscii(title));
    var hyphenated := ReplaceRuns(filtered, Whitespace);
    var collapsed := ReplaceRuns(hyphenated, Hyphens);
    ReplaceRunsFromInput(filtered, Whitespace);
    ReplaceRunsFromInput(hyphenated, Hyphens);
    forall i | 0 <= i < |collapsed| ensures IsSlugChar(collapsed[i]) {
      if collapsed[i] != '-' {
        var j :| 0 <= j < |hyphenated| && hyphenated[j] == collapsed[i];
        var m :| 0 <= m < |filtered| && filtered[m] == hyphenated[j];
        assert KeptBySlugFilter(filtered[m]);
      }
    }
  }

  /** `generateSlug`: lowercase, keep `[a-z0-9 -]`, turn whitespace runs
      into hyphens, collapse hyphen runs, trim. */
  function GenerateSlug(title: string): (r: string)
    ensures AllSlugChars(r)
    ensures NoDoubleHyphen(r)
    ensures |r| <= |title|
  {
    TrimSlugNoOp(SlugSteps(title));
    Trim(SlugSteps(title))
  }

  /** The final `.trim()` changes nothing: no whitespace is left by then. */
  lemma TrimSlugNoOp(s: string)
    requires AllSlugChars(s)
    ensures Trim(s) == s
  {
    TrimOfTrimmed(s);
  }

  lemma GenerateSlugIsSteps(title: string)
    ensures GenerateSlug(title) == SlugSteps(title)
  {
    TrimSlugNoOp(SlugSteps(title));
  }

  /** A slug is a fixed point: generating a slug from a slug returns it. */
  lemma GenerateSlugIdempotent(title: string)
    ensures GenerateSlug(GenerateSlug(title)) == GenerateSlug(title)
  {
    var s := GenerateSlug(title);
    SlugStepsFixSlugs(s);
    GenerateSlugIsSteps(s);
  }

  /** The replacing steps leave a string of slug characters without a
      doubled hyphen as it is. */
  lemma SlugStepsFixSlugs(s: string)
    requires AllSlugChars(s) && NoDoubleHyphen(s)
    ensures SlugSteps(s) == s
  {
    LowerAsciiOfSlug(s);
    assert FilterSlugChars(s) == s;
    ReplaceRunsIdentity(s, Whitespace);
    ReplaceRunsIdentity(s, Hyphens);
  }

  lemma LowerAsciiOfSlug(s: string)
    requires AllSlugChars(s)
    ensures LowerAscii(s) == s
  {
  }

  lemma LowerAsciiAppend(a: string, b: string)
    ensures LowerAscii(a + b) == LowerAscii(a) + LowerAscii(b)
  {
  }

  /** A leading space survives as a leading hyphen. */
  lemma LeadingSpaceGivesLeadingHyphen(rest: string)
    ensures var r := GenerateSlug(" " + rest); |r| > 0 && r[0] == '-'
  {
    var lowered := LowerAscii(" " + rest);
    LowerAsciiAppend(" ", rest);
    FilterSlugCharsAppend(" ", LowerAscii(rest));
    var filtered := FilterSlugChars(lowered);
    assert filtered[0] == ' ';
    GenerateSlugIsSteps(" " + rest);
  }

  /** A trailing space survives as a trailing hyphen. */
  lemma TrailingSpaceGivesTrailingHyphen(rest: string)
    ensures var r := GenerateSlug(rest + " "); |r| > 0 && r[|r| - 1] == '-'
  {
    var lowered := LowerAscii(rest + " ");
    LowerAsciiAppend(rest, " ");
    assert LowerAscii(" ") == " ";
    FilterSlugCharsAppend(LowerAscii(rest), " ");
    assert FilterSlugChars(" ") == " ";
    var filtered := FilterSlugChars(lowered);
    assert filtered == FilterSlugChars(LowerAscii(rest)) + " ";
    assert filtered[|filtered| - 1] == ' ';
    GenerateSlugIsSteps(rest + " ");
  }

  /** A character the filter deletes leaves no trace: it neither becomes a
      hyphen nor separates words. */
  lemma DroppedCharVanishes(a: string, c: char, b: string)
    requires !KeptBySlugFilter(ToLowerAscii(c))
    ensures GenerateSlug(a + [c] + b) == GenerateSlug(a + b)
  {
    FilterDropsChar(a, c, b);
    GenerateSlugIsSteps(a + [c] + b);
    GenerateSlugIsSteps(a + b);
  }

  lemma FilterDropsChar(a: string, c: char, b: string)
    requires !KeptBySlugFilter(ToLowerAscii(c))
    ensures FilterSlugChars(LowerAscii(a + [c] + b)) == FilterSlugChars(LowerAscii(a + b))
  {
    LowerAsciiAround(a, c, b);
    FilterSkips(LowerAscii(a), ToLowerAscii(c), LowerAscii(b));
  }

  lemma LowerAsciiAround(a: string, c: char, b: string)
    ensures LowerAscii(a + [c] + b) == LowerAscii(a) + [ToLowerAscii(c)] + LowerAscii(b)
    ensures LowerAscii(a + b) == LowerAscii(a) + LowerAscii(b)
  {
    LowerAsciiAppend(a + [c], b);
    LowerAsciiAppend(a, [c]);
    LowerAsciiAppend(a, b);
    assert LowerAscii([c]) == [ToLowerAscii(c)];
  }

  /** A character the filter drops leaves no trace. */
  lemma FilterSkips(x: string, d: char, y: string)
    requires !KeptBySlugFilter(d)
    ensures FilterSlugChars(x + [d] + y) == FilterSlugChars(x + y)
  {
    assert [d][1..] == [];
    assert FilterSlugChars([d]) == "";
    FilterSlugCharsAppend(x, [d]);
    assert FilterSlugChars(x + [d]) == FilterSlugChars(x) + "" == FilterSlugChars(x);
    FilterSlugCharsAppend(x + [d], y);
    FilterSlugCharsAppend(x, y);
  }


  /** Tabs and newlines are deleted, not turned into hyphens, because the
      filter keeps only the space character. */
  lemma TabDeleted(a: string, b: string)
    ensures GenerateSlug(a + "\t" + b) == GenerateSlug(a + b)
  {
    assert ToLowerAscii('\t') == '\t';
    DroppedCharVanishes(a, '\t', b);
  }

  /** Newlines likewise. */
  lemma NewlineDeleted(a: string, b: string)
    ensures GenerateSlug(a + "\n" + b) == GenerateSlug(a + b)
  {
    assert ToLowerAscii('\n') == '\n';
    DroppedCharVanishes(a, '\n', b);
  }


  /** A title starting with a space gets a leading hyphen. */
  lemma GenerateSlugExampleLeading()
    ensures GenerateSlug(" a b") == "-a-b"
  {
    assert LowerAscii(" a b") == " a b";
    assert FilterSlugChars(" a b") == " a b";
    SpacesBecomeHyphens();
    ReplaceRunsIdentity("-a-b", Hyphens);
    GenerateSlugIsSteps(" a b");
  }

  lemma SpacesBecomeHyphens()
    ensures ReplaceRuns(" a b", Whitespace) == "-a-b"
  {
    assert ReplaceRuns("b", Whitespace) == "b";
    assert ReplaceRuns(" b", Whitespace) == "-b";
    assert ReplaceRuns("a b", Whitespace) == "a-b";
  }

  /** Of a whitespace-only string the filter keeps only the spaces. */
  lemma {:induction false} FilterOfWhitespace(s: string)
    requires AllWs(s)
    ensures forall i :: 0 <= i < |FilterSlugChars(s)| ==> FilterSlugChars(s)[i] == ' '
  {
    if |s| > 0 {
      FilterOfWhitespace(s[1..]);
    }
  }

  /** A string that is one single run collapses to at most one hyphen. */
  lemma {:induction false} ReplaceSingleRun(s: string, k: RunClass)
    requires forall i :: 0 <= i < |s| ==> InRun(k, s[i])
    ensures |ReplaceRuns(s, k)| <= 1
  {
    if |s| > 1 {
      ReplaceSingleRun(s[1..], k);
    }
  }

  /** A whitespace-only title yields a slug of at most one character, so a
      slug of two or more characters comes from a title with some
      non-whitespace character. */
  lemma BlankTitleSlugShort(title: string)
    requires AllWs(title)
    ensures |GenerateSlug(title)| <= 1
  {
    var lowered := LowerAscii(title);
    assert lowered == title;
    var filtered := FilterSlugChars(lowered);
    FilterOfWhitespace(lowered);
    ReplaceSingleRun(filtered, Whitespace);
    GenerateSlugIsSteps(title);
  }

  // ---------------------------------------------------------------------
  // calculateReadTime
  // ---------------------------------------------------------------------

  const WordsPerMinute: nat := 200

  predicate NoWs(s: string) {
    forall i :: 0 <= i < |s| ==> !IsWs(s[i])
  }

  /** `s.split(/\s+/)`: the pieces between maximal whitespace runs; a run
      at either end yields an empty piece there, and `""` yields `[""]`. */
  function SplitWs(s: string): (r: seq<string>)
    ensures |r| >= 1
    ensures forall k :: 0 <= k < |r| ==> NoWs(r[k])
  {
    if |s| == 0 then [""]
    else if IsWs(s[0]) then
      var rest := TrimStart(s);
      [""] + SplitWs(rest)
    else
      var rest := SplitWs(s[1..]);
      [[s[0]] + rest[0]] + rest[1..]
  }

  /** The number of words of `s`: maximal runs of non-whitespace, counted
      at the character that ends each run. */
  function CountWords(s: string): (r: nat)
    ensures r == 0 <==> AllWs(s)
    ensures 2 * r <= |s| + 1
  {
    if |s| == 0 then 0
    else (if !IsWs(s[0]) && (|s| == 1 || IsWs(s[1])) then 1 else 0) + CountWords(s[1..])
  }

  lemma {:induction false} CountWordsTrimStart(s: string)
    ensures CountWords(TrimStart(s)) == CountWords(s)
  {
    if |s| > 0 && IsWs(s[0]) {
      CountWordsTrimStart(s[1..]);
    }
  }

  lemma {:induction false} CountWordsAppendWs(s: string, w: char)
    requires IsWs(w)
    ensures CountWords(s + [w]) == CountWords(s)
  {
    if |s| > 0 {
      assert (s + [w])[1..] == s[1..] + [w];
      CountWordsAppendWs(s[1..], w);
    }
  }

  lemma {:induction false} CountWordsTrimEnd(s: string)
    ensures CountWords(TrimEnd(s)) == CountWords(s)
  {
    if |s| > 0 && IsWs(s[|s| - 1]) {
      var init := s[..|s| - 1];
      CountWordsTrimEnd(init);
      assert s == init + [s[|s| - 1]];
      CountWordsAppendWs(init, s[|s| - 1]);
    }
  }

  /** For a string that does not end in whitespace, splitting yields one
      piece per word, plus an empty first piece when it is empty or starts
      with whitespace. */
  lemma {:induction false} SplitWsCount(s: string)
    requires |s| == 0 || !IsWs(s[|s| - 1])
    ensures |SplitWs(s)| == CountWords(s) + (if |s| == 0 || IsWs(s[0]) then 1 else 0)
    decreases |s|
  {
    if |s| == 0 {
    } else if IsWs(s[0]) {
      var u := TrimStart(s);
      assert s[..|s|] == s;
      assert |u| > 0;
      assert u[|u| - 1] == s[|s| - 1];
      SplitWsCount(u);
      CountWordsTrimStart(s);
    } else {
      SplitWsCount(s[1..]);
    }
  }

  /** `calculateReadTime`: `Math.ceil(words / 200)` where `words` is the
      length of `content.trim().split(/\s+/)`. */
  function ReadTime(content: string): (r: int)
    ensures r >= 1
  {
    CeilDiv(|SplitWs(Trim(content))|, WordsPerMinute)
  }

  /** The read time is the word count over 200 rounded up, with blank
      content counting as one word. */
  lemma ReadTimeIsCeilOfWords(content: string)
    ensures ReadTime(content) == CeilDiv(if CountWords(content) == 0 then 1 else CountWords(content), WordsPerMinute)
  {
    var t := Trim(content);
    assert t == TrimEnd(TrimStart(content));
    CountWordsTrimStart(content);
    CountWordsTrimEnd(TrimStart(content));
    assert CountWords(t) == CountWords(content);
    SplitWsCount(t);
    if |t| == 0 {
      assert |SplitWs(t)| == 1;
    } else {
      assert |SplitWs(t)| == CountWords(t);
    }
  }

  lemma ReadTimeMonotone(a: string, b: string)
    requires CountWords(a) <= CountWords(b)
    ensures ReadTime(a) <= ReadTime(b)
  {
    ReadTimeIsCeilOfWords(a);
    ReadTimeIsCeilOfWords(b);
    CeilDivMonotone(if CountWords(a) == 0 then 1 else CountWords(a),
                    if CountWords(b) == 0 then 1 else CountWords(b), WordsPerMinute);
  }

  lemma ReadTimeShortContent(content: string)
    requires CountWords(content) <= WordsPerMinute
    ensures ReadTime(content) == 1
  {
    ReadTimeIsCeilOfWords(content);
  }
}

=== FILE: view_tracker.dfy ===
/** The view counter of `components/ViewTracker.tsx`: a post's view is
    reported at most once per browser session. The session store's
    `viewedPosts` list and the component's `hasViewed` flag are the
    state; the report itself is the `tracked` flag of a step. */
module ViewTracker {

  /** `viewedPosts` from session storage and the component's `hasViewed`. */
  datatype State = State(session: seq<string>, hasViewed: bool)

  /** Whether the effect reported a view, and the state it leaves. */
  datatype Step = Step(tracked: bool, state: State)

  /** The mount effect: a view is reported only when the post is not in
      the session list and this component has not reported one yet; the
      id is then appended to the list and the flag set. */
  function Effect(blogId: string, s: State): (r: Step)
    ensures r.tracked <==> blogId !in s.session && !s.hasViewed
    ensures |s.session| <= |r.state.session| <= |s.session| + 1 && r.state.session[..|s.session|] == s.session
    ensures r.tracked ==> r.state.hasViewed && r.state.session == s.session + [blogId]
    ensures !r.tracked ==> r.state == s
  {
    if blogId !in s.session && !s.hasViewed then
      Step(true, State(s.session + [blogId], true))
    else
      Step(false, s)
  }

  /** The effect runs again when `hasViewed` changes: that second run
      reports nothing and changes nothing. */
  lemma RerunDoesNotTrack(blogId: string, s: State)
    ensures var t := Effect(blogId, s).state;
      !Effect(blogId, t).tracked && Effect(blogId, t).state == t
  {
  }

  /** Once this component has reported a view it reports no other, even
      if the post it shows changes. */
  lemma OneReportPerMount(blogId: string, other: string, s: State)
    requires Effect(blogId, s).tracked
    ensures !Effect(other, Effect(blogId, s).state).tracked
  {
  }

  /** A fresh component (with `hasViewed` false) for each page visit in
      `ids`, all sharing one session list. */
  function Visit(blogId: string, session: seq<string>): Step {
    Effect(blogId, State(session, false))
  }

  /** The ids reported, in order. */
  function Reported(ids: seq<string>, session: seq<string>): (r: seq<string>)
    ensures |r| <= |ids|
    ensures forall i :: 0 <= i < |r| ==> r[i] in ids && r[i] !in session
    decreases |ids|
  {
    if |ids| == 0 then []
    else
      var step := Visit(ids[0], session);
      var rest := Reported(ids[1..], step.state.session);
      if step.tracked then [ids[0]] + rest else rest
  }

  /** The session list after the visits. */
  function FinalSession(ids: seq<string>, session: seq<string>): seq<string>
    decreases |ids|
  {
    if |ids| == 0 then session else FinalSession(ids[1..], Visit(ids[0], session).state.session)
  }

  /** The list at the end is the old list followed by the reported ids. */
  lemma {:induction false} SessionRecordsReports(ids: seq<string>, session: seq<string>)
    ensures FinalSession(ids, session) == session + Reported(ids, session)
    decreases |ids|
  {
    if |ids| > 0 {
      var step := Visit(ids[0], session);
      SessionRecordsReports(ids[1..], step.state.session);
      if step.tracked {
        assert session + ([ids[0]] + Reported(ids[1..], step.state.session))
          == (session + [ids[0]]) + Reported(ids[1..], step.state.session);
      }
    }
  }

  /** A post is reported exactly when it was visited and was not already
      in the list. */
  lemma {:induction false} ReportedAreNewVisits(ids: seq<string>, session: seq<string>)
    ensures forall x :: x in Reported(ids, session) <==> x in ids && x !in session
    decreases |ids|
  {
    if |ids| > 0 {
      var step := Visit(ids[0], session);
      var s' := step.state.session;
      ReportedAreNewVisits(ids[1..], s');
      forall x ensures x in Reported(ids, session) <==> x in ids && x !in session {
        assert x in ids <==> x == ids[0] || x in ids[1..];
        assert x in s' <==> x in session || (step.tracked && x == ids[0]);
      }
    }
  }

  predicate NoRepeats(s: seq<string>) {
    forall i, j :: 0 <= i < j < |s| ==> s[i] != s[j]
  }

  /** Over a whole session each post is reported at most once. */
  lemma {:induction false} ReportedOnce(ids: seq<string>, session: seq<string>)
    ensures NoRepeats(Reported(ids, session))
    decreases |ids|
  {
    if |ids| > 0 {
      var step := Visit(ids[0], session);
      var s' := step.state.session;
      ReportedOnce(ids[1..], s');
      var rest := Reported(ids[1..], s');
      if step.tracked {
        ReportedAreNewVisits(ids[1..], s');
        assert ids[0] in s';
        assert ids[0] !in rest;
        var r := Reported(ids, session);
        assert r == [ids[0]] + rest;
        forall i, j | 0 <= i < j < |r| ensures r[i] != r[j] {
          assert r[j] == rest[j - 1] && rest[j - 1] in rest;
          if i > 0 {
            assert r[i] == rest[i - 1];
          } else {
            assert r[i] == ids[0];
          }
        }
      }
    }
  }

  /** The label after the view count: singular for exactly one view. */
  function ViewLabel(views: int): (r: string)
    ensures r == "view" <==> views == 1
    ensures r == "view" || r == "views"
  {
    if views == 1 then "view" else "views"
  }
}

=== FILE: wrappers.dfy ===
/** The optional value used wherever the source returns `null`/`undefined`
    or a field may be absent. */
module Wrappers {

  datatype Option<+T> = None | Some(value: T) {

    /** Returns the value encapsulated in Some, or `default` if None */
    function GetOr(default: T): T {
      match this
      case Some(v) => v
      case None => default
    }
  }
}
